=== FILE: README.md ===
# Match-3 engine, level generator and item inventory

This project models the gem-matching core of a match-3 puzzle game. The
repository carries the board engine in four copies that have drifted apart:

- the mobile web game (`public/js/mobile-game.js`);
- the desktop demo (`demo/js/game.js`);
- the 3D Cocos component (`cocos3d/assets/scripts/GameBoard3D.ts`);
- an unfinished 2D Cocos component (`assets/scripts/core/GameBoard.ts`).

Each copy keeps a rows x cols grid of gem kinds, where a vacated cell holds
`null`, and each swaps two gems only when they are adjacent. The copies then
differ:

- The mobile game and the demo scan for windows of three equal kinds. A swap
  that creates no match is undone. Otherwise it costs a move, the matched
  cells are removed at 50 points each, and gravity compacts each column while
  new random kinds fill the top. The cascade repeats while a re-scan finds a
  match. A freshly dealt board is repaired until it holds no window of three:
  at most 100 passes in the mobile game, without a cap in the demo. The mobile
  game also has the hammer, bomb and shuffle items.
- The 3D copy finds matches as the maximal runs through the two swapped
  cells. It undoes a swap without a match, and removes, refills and cascades
  as above, but keeps no score and no move count. Its initial repair is
  capped at 100 passes.
- The 2D copy swaps, then runs one scan for windows of three. The scan
  removes the matches and pulls the gems above them down. There is no undo,
  no score, no refill, no cascade and no initial repair.

Two smaller parts are modelled as well. The level generator
(`assets/scripts/data/LevelConfig.ts`) derives a level's area, difficulty, move
budget, goals, obstacles, special gems and rewards from its id. The item
inventory (`assets/scripts/core/ItemManager.ts`) is a map of counters.

Modules:

- `Boards` holds the shared board snapshot (`seq<seq<int>>`, with `Empty == -1`
  for `null`), adjacency, swapping, clearing, and the random number generator.
  `Math.random` is modelled as a caller-supplied oracle `rand: nat -> nat`
  plus a draw counter.
- `Matching` holds window scans, maximal runs, and the proof that a swap on a
  board without matches can only create matches through the two swapped cells.
- `Gravity` specifies column compaction (`Compacted`) and refill (`RefilledFrom`).
- `Pieces` models the Cocos gem objects as `Piece(kind, row, col)` values in
  `Slot` cells, with the array loops that move them.
- `Repair` is the initial-board repair pass shared by the two JavaScript copies.
- `Cascades` defines one round (`Refilled`) and a cascade of rounds (`Cascade`).
- `Mobile`, `Demo`, `Cocos3D` and `Cocos2D` each model one copy as a class whose
  methods update the board array and the game-state fields in place.
- `Levels` and `Items` model the level generator and the inventory.

Timer and `await` chains become synchronous calls. The cascades recurse as in
the source, with a `fuel` bound on the depth, and the demo's uncapped repair
loop takes a `fuel` bound too. `Cascades` states a cascade as a chain of
boards: each round removes exactly the matches of the board before it, and
every column of the next board is the fallen and refilled column of the
cleared one.

## Model

| member | source | states |
|---|---|---|
| Boards.DrawKind | public/js/mobile-game.js:270-272 | a random draw is a palette kind, never `null`; an empty palette always yields the same kind |
| Boards.Random.Draw | demo/js/game.js:80-82 | the draw is the oracle's value for the current draw count, reduced to the palette, and the count advances by one |
| Boards.Adjacent | public/js/mobile-game.js:417-421 | two cells are adjacent iff their Manhattan distance is exactly 1, so a cell is never adjacent to itself |
| Boards.Swapped | demo/js/game.js:171-173 | the two cells trade contents and every other cell keeps its kind |
| Boards.SwapTwice | demo/js/game.js:184-186 | swapping the same two cells again restores the board, so a rejected move leaves it unchanged |
| Boards.SwapSymmetric | assets/scripts/core/GameBoard.ts:81-96 | the order of the two swapped cells does not matter |
| Boards.Exchange | demo/js/game.js:171-173 | the three-assignment exchange through a temporary produces the swapped board and touches no other cell |
| Boards.Cleared | public/js/mobile-game.js:503-518 | exactly the cells of the match set become `null`; every other cell keeps its kind |
| Boards.Vacate | demo/js/game.js:238-240 | nulling the matched cells one by one yields the cleared board |
| Boards.ClearedPaletteOrEmpty | public/js/mobile-game.js:516 | after a removal, every cell holds a palette kind or `null` |
| Matching.WindowCellsIff | public/js/mobile-game.js:465-496 | a cell is reported iff it lies in a horizontal or vertical window of three equal kinds (non-null ones for the filled scan), and every reported cell is on the board |
| Matching.WindowCellsInBounds | demo/js/game.js:196-229 | every reported match cell lies on the board |
| Matching.NoWindowIffNoCells | public/js/mobile-game.js:275-300 | the scan reports nothing iff no window of three equal kinds exists |
| Matching.RawScanAgreesOnFullBoards | demo/js/game.js:203-204 | on a board with no `null` cell, the demo's scan (which does not test for `null`) reports the same cells as the mobile scan (which does) |
| Matching.NoRunsNoMatches | cocos3d/assets/scripts/GameBoard3D.ts:357-378 | no non-empty cell has a run of three or more through it iff the board has no window of three equal kinds, in both directions |
| Matching.ScanRow | public/js/mobile-game.js:469-477 | scanning one row adds exactly that row's horizontal window cells |
| Matching.ScanColumn | public/js/mobile-game.js:481-489 | scanning one column adds exactly that column's vertical window cells |
| Matching.ScanWindows | public/js/mobile-game.js:465-496 | the two nested scan loops collect exactly the set of cells in windows of three |
| Matching.LeftEnd | cocos3d/assets/scripts/GameBoard3D.ts:259-261 | the leftward extension stops at the first cell of another kind or the board edge, and every cell it passes has the queried kind |
| Matching.RightEnd | cocos3d/assets/scripts/GameBoard3D.ts:262-264 | the rightward extension is maximal, and every cell it passes has the queried kind |
| Matching.TopEnd | cocos3d/assets/scripts/GameBoard3D.ts:271-273 | the upward extension is maximal, and every cell it passes has the queried kind |
| Matching.BottomEnd | cocos3d/assets/scripts/GameBoard3D.ts:274-276 | the downward extension is maximal, and every cell it passes has the queried kind |
| Matching.RunMatchesAt | cocos3d/assets/scripts/GameBoard3D.ts:251-282 | the result is empty for a `null` cell; it is non-empty iff the horizontal or vertical maximal run has length at least 3; a non-empty result holds the queried cell and at least 3 cells, all of the queried kind |
| Matching.RunMatchesIffWindow | cocos3d/assets/scripts/GameBoard3D.ts:251-282 | the per-cell run query is non-empty iff the cell lies in a window of three equal non-null kinds |
| Matching.AllRunsIsMatchCells | cocos3d/assets/scripts/GameBoard3D.ts:341-352 | the union of the run queries over every cell equals the set of cells in windows of three |
| Matching.RunsStep | cocos3d/assets/scripts/GameBoard3D.ts:344-349 | each visited cell adds exactly its run query to the accumulated set |
| Matching.LocalCheckSuffices | cocos3d/assets/scripts/GameBoard3D.ts:218-222 | on a board without matches, checking only the two swapped cells finds a match iff the swapped board has one anywhere |
| Matching.MatchTouchesSwap | public/js/mobile-game.js:441-452 | on a board without matches, every match created by a swap involves one of the two swapped cells |
| Gravity.Kept | public/js/mobile-game.js:539-554 | the surviving (non-null) kinds of a column, in order, are never `null` and never more than the column |
| Gravity.CompactedShape | public/js/mobile-game.js:539-554 | a compacted column has the same length, its top `Vacated` cells are `null`, and below them sit the survivors in their original order |
| Gravity.KeptOfCompacted | demo/js/game.js:262-275 | compaction keeps the surviving kinds and their order, and the number of vacancies |
| Gravity.CompactedIsPacked | assets/scripts/core/GameBoard.ts:158-175 | after compaction no `null` lies below a gem |
| Gravity.PackedIsFixpoint | assets/scripts/core/GameBoard.ts:158-175 | a column that is already packed is left unchanged |
| Gravity.CompactedIdempotent | assets/scripts/core/GameBoard.ts:158-175 | compacting twice is the same as compacting once |
| Gravity.KeptMultiset | public/js/mobile-game.js:539-554 | a column's kinds are exactly its survivors plus its vacancies |
| Gravity.CompactedMultiset | public/js/mobile-game.js:539-554 | compaction is a permutation of the column |
| Gravity.CounterStep | public/js/mobile-game.js:541-552 | one bottom-up step of the `emptySpaces` counter moves the cell down by the number of vacancies below it and extends the compacted suffix by one cell |
| Gravity.SettledIsCompacted | demo/js/game.js:262-275 | a column with no `null` below a gem whose survivors equal the original's is the compacted column |
| Gravity.SettlePulled | demo/js/game.js:264-270 | pulling the nearest gem above into a vacancy keeps the survivors and settles one more cell |
| Gravity.RefillColumn | public/js/mobile-game.js:557-569 | filling every vacancy of a compacted column with palette kinds gives a refill of the original column that has no `null` cell |
| Gravity.RefillShape | public/js/mobile-game.js:537-570 | after a refill, the survivors sit at the bottom in their original order and the cells above them hold palette kinds; no cell is `null` |
| Cascades.CascadeRound | public/js/mobile-game.js:499-533 | in a cascade every round removes exactly the matches of the board before it, and every column of the next board is the fallen and refilled column of the cleared board |
| Cascades.CascadeStart | public/js/mobile-game.js:529-531 | a board whose re-scan ends the cascade is a cascade of no rounds from itself |
| Cascades.CascadePrepend | public/js/mobile-game.js:526-529 | a round removing a board's matches, followed by a cascade from the result, is a cascade from that board |
| Cascades.CascadeCons | public/js/mobile-game.js:499-533 | the first round followed by the recursive call's cascade is a cascade from the starting board; the removed cells add up and every round is non-empty |
| Cascades.CascadeSingle | public/js/mobile-game.js:526-531 | one round whose re-scan finds nothing further is a cascade of one round that removes that round's cells |
| Cascades.RefilledCleared | cocos3d/assets/scripts/GameBoard3D.ts:228-229 | vacating the listed cells and then refilling every column is one round at those cells |
| Cascades.RefilledIsFull | public/js/mobile-game.js:537-570 | after a round every cell holds a palette kind: survivors keep their kinds and every vacated cell is refilled |
| Cascades.KeptInPalette | public/js/mobile-game.js:541-548 | the gems that survive in a column of palette kinds and `null` cells are palette kinds |
| Cascades.CascadeStaysFull | public/js/mobile-game.js:499-533 | every board after the first round of a cascade holds palette kinds only, never `null` |
| Cascades.PaletteBefore | public/js/mobile-game.js:499-533 | every board of a cascade that starts from palette kinds and `null` cells holds palette kinds or `null` |
| Pieces.MovedTo | cocos3d/assets/scripts/GameBoard3D.ts:313 | moving a gem keeps its kind and records its new cell as its position |
| Pieces.MovedBack | cocos3d/assets/scripts/GameBoard3D.ts:232-235 | moving a gem away and back restores it, position included |
| Pieces.SwapPieces | cocos3d/assets/scripts/GameBoard3D.ts:207-210 | the two gems trade cells and record their new positions; the kinds form the swapped board and every other cell is unchanged |
| Pieces.VacateSlots | cocos3d/assets/scripts/GameBoard3D.ts:287-298 | exactly the listed cells become empty, and the kinds form the cleared board |
| Pieces.Fall | cocos3d/assets/scripts/GameBoard3D.ts:308-314 | a gem falls by v rows to its new cell and records that cell; the column's kinds take one `Fallen` step and other columns are untouched |
| Pieces.CompactSlots | cocos3d/assets/scripts/GameBoard3D.ts:305-320 | the `emptyRow` pointer loop compacts the column's kinds, leaves `emptyRow` at the last vacated row, keeps every gem's recorded position, and touches no other column |
| Pieces.Pull | assets/scripts/core/GameBoard.ts:165-167 | the gem at r moves down to the vacancy at row and records that cell, and r becomes empty |
| Pieces.PullDownSlots | assets/scripts/core/GameBoard.ts:159-173 | the nearest-gem-above pull-down loop compacts the column's kinds, keeps every gem's recorded position, and touches no other column |
| Pieces.ColumnsOfKinds | cocos3d/assets/scripts/GameBoard3D.ts:305-326 | column c of the board of kinds is the kinds of column c of the gem array |
| Cocos2D.Include | assets/scripts/core/GameBoard.ts:114-116 | a gem is appended only if not yet listed, so the list stays duplicate-free and gains exactly that gem's position |
| Cocos2D.Collapsed | assets/scripts/core/GameBoard.ts:158-175 | the board after pull-down has the same shape, and each column is the compacted original column |
| Cocos2D.Checked | assets/scripts/core/GameBoard.ts:101-141 | one `checkMatches` keeps the board's shape; `CheckedShape` states what it does to the columns |
| Cocos2D.CollapsedColumn | assets/scripts/core/GameBoard.ts:158-175 | each column of the pulled-down board is the compacted column |
| Cocos2D.CollapsedSettles | assets/scripts/core/GameBoard.ts:158-175 | after pull-down every column is packed, keeps its survivors in order and is a permutation of the original; a second pull-down changes nothing |
| Cocos2D.CheckedShape | assets/scripts/core/GameBoard.ts:101-141 | a board without windows is left alone; otherwise each column ends packed, holding the survivors of the cleared board, with no refill |
| Cocos2D.CollapseSlots | assets/scripts/core/GameBoard.ts:158-175 | the array loop over all columns leaves the collapsed board and keeps every gem's recorded position |
| Cocos2D.CollapsedByColumns | assets/scripts/core/GameBoard.ts:159-173 | an array whose every column is the compacted original column holds the collapsed board |
| Cocos2D.GameBoard.constructor | assets/scripts/core/GameBoard.ts:10-17 | the board is empty and nothing is selected |
| Cocos2D.VacateDrawing | assets/scripts/core/GameBoard.ts:28-34 | every cell is left `null` and exactly one kind is drawn per cell |
| Cocos2D.GameBoard.InitBoard | assets/scripts/core/GameBoard.ts:26-36 | the new board is rows x cols with every cell `null`; one random kind is drawn and discarded per cell |
| Cocos2D.GameBoard.SelectGem | assets/scripts/core/GameBoard.ts:56-65 | the first pick is stored; the second pick always clears the selection, and swaps and checks only when the two gems are adjacent |
| Cocos2D.GameBoard.SwapGems | assets/scripts/core/GameBoard.ts:81-96 | the two gems trade cells and positions, and one check of the swapped board follows |
| Cocos2D.GameBoard.CheckMatches | assets/scripts/core/GameBoard.ts:101-141 | one scan removes every window of three non-null equal kinds and pulls the gems above down, without refilling |
| Cocos2D.CollectRowMatches | assets/scripts/core/GameBoard.ts:105-119 | the row scan collects each gem at most once, exactly those in horizontal windows of three non-null equal kinds |
| Cocos2D.CollectRow | assets/scripts/core/GameBoard.ts:106-118 | scanning one row adds exactly that row's horizontal window cells, each gem once |
| Cocos2D.CollectColumnMatches | assets/scripts/core/GameBoard.ts:121-136 | the column scan adds, without duplicates, exactly the gems in vertical windows |
| Cocos2D.CollectColumn | assets/scripts/core/GameBoard.ts:122-135 | scanning one column adds exactly that column's vertical window cells |
| Cocos2D.AddWindow | assets/scripts/core/GameBoard.ts:107-117 | a window of three non-null equal kinds adds its three gems and nothing else |
| Cocos2D.IncludeGem | assets/scripts/core/GameBoard.ts:114-116 | the gem at a cell is added once |
| Cocos2D.GameBoard.RemoveMatches | assets/scripts/core/GameBoard.ts:146-153 | exactly the matched gems' cells are nulled, then the columns are pulled down |
| Cocos2D.GameBoard.FillBoard | assets/scripts/core/GameBoard.ts:158-175 | the board becomes the collapsed board: compaction only, no new gems |
| Cocos3D.CombinedMatches | cocos3d/assets/scripts/GameBoard3D.ts:218-220 | every cell in the concatenated match list is on the board |
| Cocos3D.SetOf | cocos3d/assets/scripts/GameBoard3D.ts:287-298 | a cell is in the set iff the list names it at least once |
| Cocos3D.RefilledByColumns | cocos3d/assets/scripts/GameBoard3D.ts:305-326 | refilling every column of the board is one round that vacates nothing |
| Cocos3D.EliminatedAfterSwap | cocos3d/assets/scripts/GameBoard3D.ts:218-229 | vacating the concatenated list removes exactly the union of the two run matches |
| Cocos3D.CombinedMatchesCount | cocos3d/assets/scripts/GameBoard3D.ts:218-220 | the concatenated match list holds exactly the union of the two run queries, and its length counts the cells they share twice |
| Cocos3D.CombinedMatchesEmpty | cocos3d/assets/scripts/GameBoard3D.ts:222 | the concatenated list is non-empty iff the union of the two queries is non-empty |
| Cocos3D.GameBoard3D.constructor | cocos3d/assets/scripts/GameBoard3D.ts:28-30 | the board is empty, nothing is selected and no move is in progress |
| Cocos3D.PlaceGem | cocos3d/assets/scripts/GameBoard3D.ts:74-88 | the cell gets a gem of a random palette kind that records the cell; every other cell is unchanged and every gem still records its own cell |
| Cocos3D.GameBoard3D.CreateGem | cocos3d/assets/scripts/GameBoard3D.ts:60-91 | the cell gets a new gem of a random palette kind that records the cell as its position; no other cell changes |
| Cocos3D.GameBoard3D.InitBoard | cocos3d/assets/scripts/GameBoard3D.ts:40-55 | a fresh board full of gems is dealt and repaired for at most 100 passes; a board that settled holds no match |
| Cocos3D.GameBoard3D.RemoveInitialMatches | cocos3d/assets/scripts/GameBoard3D.ts:357-378 | between 1 and 100 passes run; the loop stops early only when a pass finds no match, and then the board has none |
| Cocos3D.RepairPass | cocos3d/assets/scripts/GameBoard3D.ts:366-376 | the pass reports a replacement iff the board it started from has a match; a pass that replaces nothing leaves the board unchanged with no match; every cell keeps its gem or holds a new gem of the palette |
| Cocos3D.RepairRow | cocos3d/assets/scripts/GameBoard3D.ts:367-375 | the row reports a replacement iff one of its cells has a run on the board the row started from; without one the board is unchanged; other rows never change, and each cell of the row keeps its gem or holds a new palette gem |
| Cocos3D.RepairCell | cocos3d/assets/scripts/GameBoard3D.ts:368-374 | a cell is replaced iff its run query is non-empty; a replaced cell holds a new gem of the palette that records its own cell, no other cell changes, and a miss changes nothing |
| Cocos3D.GameBoard3D.FindAllMatches | cocos3d/assets/scripts/GameBoard3D.ts:341-352 | the result is exactly the set of cells in windows of three equal kinds |
| Cocos3D.GameBoard3D.AddRowMatches | cocos3d/assets/scripts/GameBoard3D.ts:345-348 | one row adds exactly the run queries of its cells |
| Cocos3D.GameBoard3D.EliminateMatches | cocos3d/assets/scripts/GameBoard3D.ts:287-298 | exactly the listed cells become empty, duplicates included once, and the kinds form the cleared board |
| Cocos3D.GameBoard3D.CompactColumn | cocos3d/assets/scripts/GameBoard3D.ts:305-320 | survivors move down in order, `emptyRow` ends at the lowest free cell, the row just above the survivors, and other columns are untouched |
| Cocos3D.GameBoard3D.CreateGems | cocos3d/assets/scripts/GameBoard3D.ts:323-325 | new gems fill exactly rows 0..`emptyRow` of the column |
| Cocos3D.GameBoard3D.SettleColumn | cocos3d/assets/scripts/GameBoard3D.ts:305-325 | the column becomes a refill of its compacted self, with every cell holding a gem |
| Cocos3D.GameBoard3D.FillColumns | cocos3d/assets/scripts/GameBoard3D.ts:305-326 | every column becomes a refill of its compacted self, so the whole board is one round that vacates nothing, and every gem records its own cell |
| Cocos3D.GameBoard3D.FillBoard | cocos3d/assets/scripts/GameBoard3D.ts:303-336 | the fill takes the board to the first board of a cascade; each later round removes the re-scan's (non-empty) matches and refills; it ends settled iff no match remains, and an unsettled end used all `fuel` rounds |
| Cocos3D.GameBoard3D.Eliminate | cocos3d/assets/scripts/GameBoard3D.ts:228-229 | the listed cells are vacated and the board falls and refills into the first board of a cascade; it ends settled iff no match remains |
| Cocos3D.GameBoard3D.TrySwap | cocos3d/assets/scripts/GameBoard3D.ts:200-246 | the swap is accepted iff one of the two swapped cells has a run of three, which on a board without matches means iff the swapped board has any match; an accepted swap removes the union of the two run matches from the swapped board, refills and cascades; a rejected swap restores every cell, positions included; selection and `isProcessing` end cleared |
| Cocos3D.GameBoard3D.SwapAndCheck | cocos3d/assets/scripts/GameBoard3D.ts:207-243 | the same acceptance rule, cascade and restoration as the trial swap, with the cascade's settling reported |
| Cocos3D.GameBoard3D.CheckSwap | cocos3d/assets/scripts/GameBoard3D.ts:217-243 | on the swapped board: accepted iff a run through either cell exists; then the union of the two run matches is removed and the cascade follows; otherwise both gems return to their cells and nothing else changes |
| Cocos3D.GameBoard3D.SwapBack | cocos3d/assets/scripts/GameBoard3D.ts:232-235 | both gems return to their original cells and positions; nothing else changes |
| Cocos3D.GameBoard3D.Deselect | cocos3d/assets/scripts/GameBoard3D.ts:226 | the selection is cleared |
| Cocos3D.GameBoard3D.OnTouchStart | cocos3d/assets/scripts/GameBoard3D.ts:117-142 | input is ignored while processing; the first tap selects; tapping the selected gem deselects it; a non-adjacent tap moves the selection; an adjacent tap swaps and clears the selection |
| Mobile.MobileGame.constructor | public/js/mobile-game.js:22-42 | the initial game state: score 0, 30 moves, level 1, goal 1000, items hammer 3, bomb 2, shuffle 1 |
| Mobile.MobileGame.ResetGame | public/js/mobile-game.js:232-242 | score, moves and goal are reset, a fresh repaired board is dealt, selection and active item are cleared, and level and items are kept |
| Mobile.GoalScore | public/js/mobile-game.js:235 | the goal is a multiple of 500, and at least 1000 from level 1 on |
| Mobile.MobileGame.CreateBoard | public/js/mobile-game.js:245-256 | a fresh 8 x 8 board of palette kinds; when the repair settled, it holds no window of three |
| Mobile.MobileGame.RemoveInitialMatches | public/js/mobile-game.js:275-300 | between 1 and 100 passes run; stopping before the cap means the board has no window of three |
| Mobile.MobileGame.FindMatches | public/js/mobile-game.js:465-496 | the result is exactly the set of cells in windows of three equal non-null kinds, each once |
| Mobile.MobileGame.CompactColumn | public/js/mobile-game.js:540-553 | the `emptySpaces` loop turns the column into its compacted self and touches no other column |
| Mobile.MobileGame.Refill | public/js/mobile-game.js:557-569 | each `null` cell gets a palette kind and every other cell keeps its kind |
| Mobile.MobileGame.FillBoard | public/js/mobile-game.js:537-570 | every column becomes a refill of itself (survivors packed at the bottom in order, palette kinds above), and no cell is `null` |
| Mobile.MobileGame.CascadeStep | public/js/mobile-game.js:500-526 | the score rises by 50 per distinct matched cell; every column of the new board is the fallen and refilled column of the board with the matches cleared; the next match set is that of the new board |
| Mobile.MobileGame.ProcessMatches | public/js/mobile-game.js:499-533 | the boards form a cascade from the starting board to the final one, each round removing exactly the matches of the board before it; the score rises by 50 times the total cells removed; every round is non-empty; processing ends iff a re-scan finds no match, and otherwise all `fuel` was used |
| Mobile.MobileGame.SwapCells | public/js/mobile-game.js:434-438 | the board becomes the swapped board |
| Mobile.MobileGame.SwapGems | public/js/mobile-game.js:424-462 | the move is accepted iff the swapped board has a match; an accepted move costs exactly one move, cascades from the swapped board, adds 50 points per removed gem, and stays processing only while the final board still matches (fuel spent); a rejected one restores the board, `moves` and `score` and ends processing |
| Mobile.MobileGame.SettleSwap | public/js/mobile-game.js:440-461 | on the swapped board: a match spends one move and starts the cascade from that board, processing ending iff the final board has no match; no match swaps the cells back and ends processing |
| Mobile.MobileGame.Blast | public/js/mobile-game.js:662-672 | exactly the 3 x 3 neighbourhood of the target, clipped to the board, is nulled |
| Mobile.Neighbourhood | public/js/mobile-game.js:662-663 | the bomb's cells include the target when it is on the board, and are all on the board and within one row and one column of the target |
| Mobile.MobileGame.BlastRow | public/js/mobile-game.js:663-671 | one row of the bomb's square is nulled and nothing else |
| Mobile.MobileGame.HammerAt | public/js/mobile-game.js:652-660 | the target cell is nulled and every column becomes a refill of the cleared column |
| Mobile.MobileGame.BombAt | public/js/mobile-game.js:661-673 | the clipped neighbourhood is nulled and every column becomes a refill of the cleared column |
| Mobile.MobileGame.UseItemOnGem | public/js/mobile-game.js:645-685 | with no armed item nothing happens; otherwise the armed item's count drops by one, the hammer or bomb acts as above, shuffle deals a new board, and the item is disarmed |
| Mobile.MobileGame.Spend | public/js/mobile-game.js:649 | the item's count drops by exactly one |
| Mobile.MobileGame.Disarm | public/js/mobile-game.js:679 | no item is armed |
| Mobile.MobileGame.UseItem | public/js/mobile-game.js:623-642 | an item with no count left cannot be armed; tapping the armed item disarms it; any other item with a count becomes armed |
| Mobile.MobileGame.HandleGemClick | public/js/mobile-game.js:364-390 | taps while processing or off the board are ignored; an armed item is spent and disarmed, the hammer or bomb making one refill round at the cell or its square and the shuffle dealing a fresh board; otherwise the first tap selects and changes nothing else, and the second clears the selection with the outcome `TapSelected` states |
| Mobile.MobileGame.TapSelected | public/js/mobile-game.js:381-389 | the selection is cleared; a non-adjacent cell changes nothing else; an adjacent cell whose swap matches nothing leaves board, moves and score as they were and ends processing, and one that matches spends a move, cascades from the swapped board, adds 50 points per removed gem and stays processing only while the final board still matches |
| Demo.SlicePrefix | demo/js/game.js:43 | `slice(0, n)` returns a prefix: the whole list when n is absent or too large, n items for 0 <= n <= length, length + n items for a negative n, and nothing below -length |
| Demo.DemoGame.constructor | demo/js/game.js:17-26 | the initial game state: score 0, 30 moves, level 1, goal 1000, six colours |
| Demo.DemoGame.LoadLevelConfig | demo/js/game.js:29-54 | a failed load changes nothing and returns false; a loaded level sets moves, goal, level and the palette slice, and returns true |
| Demo.DemoGame.InitGame | demo/js/game.js:57-63 | a loaded level sets moves, goal, id and the first `gemColors` colours, a failed load keeps them; then a fresh board of palette kinds is dealt; a settled board has no match; with a one-kind palette it never settles |
| Demo.DemoGame.CreateBoard | demo/js/game.js:66-77 | a fresh 8 x 8 board of palette kinds with no `null` cell; a settled board has no window of three; a one-kind palette never settles |
| Demo.DemoGame.RemoveInitialMatches | demo/js/game.js:85-108 | when the repair returns, the board has no window of three; with a one-kind palette it never returns |
| Demo.DemoGame.FindMatches | demo/js/game.js:196-229 | the result is the set of cells in windows of three equal cells, `null` included, and on a board without `null` exactly the match cells |
| Demo.DemoGame.PullDownColumn | demo/js/game.js:262-275 | the nearest-gem-above pull-down turns the column into its compacted self and touches no other column |
| Demo.DemoGame.Refill | demo/js/game.js:277-283 | each `null` cell gets a palette kind and every other cell keeps its kind |
| Demo.DemoGame.FillBoard | demo/js/game.js:260-284 | every column becomes a refill of itself, and no cell is `null` |
| Demo.DemoGame.CascadeStep | demo/js/game.js:233-249 | the score rises by 50 per matched cell; every column of the new board is the fallen and refilled column of the cleared board; the next match set is that of the new board |
| Demo.DemoGame.ProcessMatches | demo/js/game.js:232-257 | the boards form a cascade from the starting board to the final one; the score rises by 50 times the total cells removed; `isProcessing` is cleared iff a re-scan finds no match, and otherwise all `fuel` was used |
| Demo.DemoGame.SwapCells | demo/js/game.js:171-173 | the board becomes the swapped board |
| Demo.DemoGame.SwapGems | demo/js/game.js:167-193 | accepted iff the swapped board has a match; an accepted swap costs exactly one move, cascades from the swapped board, adds 50 points per removed gem, and stays processing only while the final board still matches (fuel spent); a rejected one restores the board, `moves` and `score` and ends processing |
| Demo.DemoGame.SettleSwap | demo/js/game.js:177-191 | on the swapped board: a match spends one move and starts the cascade, processing ending iff the final board has no match; no match swaps the cells back and ends processing |
| Demo.DemoGame.SelectGem | demo/js/game.js:130-145 | ignored while processing; the first pick selects and changes nothing else; the second clears the selection; a non-adjacent pick changes nothing else; an adjacent pick whose swap matches nothing leaves board, moves and score as they were and ends processing, and one that matches spends a move, cascades from the swapped board, adds 50 points per removed gem and stays processing only while the final board still matches |
| Repair.RepairPass | demo/js/game.js:88-106 | the pass reports a redraw iff the board it started from has a window of three; the only cells redrawn are cells that start such a window on that board, and they stay palette kinds; a pass that redraws nothing leaves the board unchanged with no window |
| Repair.RepairRow | demo/js/game.js:90-105 | one row of the pass reports a redraw iff a cell of that row starts a window of three on the board the row started from, and redraws only such cells of that row |
| Repair.OneKindAlwaysWindow | demo/js/game.js:87-107 | a board of a single kind at least 3 wide always has a window of three |
| Repair.OneKindNeverSettles | demo/js/game.js:87-107 | with a one-kind palette the repair never finds a pass without matches, so the uncapped loop cannot terminate |
| Levels.CeilDiv | assets/scripts/data/LevelConfig.ts:86 | `Math.ceil(a / b)` is the least q with a <= b q |
| Levels.JsRem | assets/scripts/data/LevelConfig.ts:87 | JavaScript `%` truncates: the remainder takes the dividend's sign and a == b trunc(a / b) + r |
| Levels.Min | assets/scripts/data/LevelConfig.ts:88 | `Math.min` returns the smaller argument |
| Levels.LevelRange | assets/scripts/data/LevelConfig.ts:64 | an area lists 20 consecutive level ids from its first |
| Levels.AreaLevels | assets/scripts/data/LevelConfig.ts:58-80 | there are 3 areas with ids 1..3, and area i lists exactly levels 20(i-1)+1 .. 20i |
| Levels.Areas | assets/scripts/data/LevelConfig.ts:58-80 | the `AREAS` table: three areas, dungeon, corridor and treasury, whose level lists `AreaLevels` states |
| Levels.AreaOf | assets/scripts/data/LevelConfig.ts:86 | the area is the one whose 20 ids contain the level: 20 (area - 1) < levelId <= 20 area, and at least 1 for a positive id |
| Levels.LevelInArea | assets/scripts/data/LevelConfig.ts:87 | a positive level id has its place in its area in 1..20 |
| Levels.Difficulty | assets/scripts/data/LevelConfig.ts:88 | the difficulty never exceeds 5, and is at least 1 for a positive level id |
| Levels.LevelPosition | assets/scripts/data/LevelConfig.ts:86-88 | for levelId >= 1: the in-area index is in 1..20, levelId = 20 (area - 1) + index, and difficulty is in 1..5 and equals ceil(index / 4) |
| Levels.AreaListsLevel | assets/scripts/data/LevelConfig.ts:58-86 | for 1 <= levelId <= 60 the generated area names the one area whose list contains the level |
| Levels.GenerateGoals | assets/scripts/data/LevelConfig.ts:109-129 | exactly one goal below difficulty 2 and two from it on: reach-score 1000 difficulty first, then collect-gems 10 + 5 difficulty; every goal starts at 0 |
| Levels.GenerateObstacles | assets/scripts/data/LevelConfig.ts:134-146 | `shadow_rock` iff difficulty >= 2 and `frozen_gem` iff difficulty >= 3, nothing else, in that order |
| Levels.GenerateSpecialGems | assets/scripts/data/LevelConfig.ts:151-163 | `lightning` iff difficulty >= 3 and `timewarp` iff difficulty >= 4, nothing else, in that order |
| Levels.GenerateLevel | assets/scripts/data/LevelConfig.ts:85-104 | the level carries its id, area and difficulty, 30 - 2 difficulty moves, the generated goals, obstacles and special gems, and 100 difficulty coins with no item rewards |
| Levels.MoveBudget | assets/scripts/data/LevelConfig.ts:95 | the move budget is even and in 20..28, and it is 28 iff the level is among its area's first four |
| Items.PutWellFormed | assets/scripts/core/ItemManager.ts:42 | setting a map entry keeps the insertion-order key list and the map in step |
| Items.RegisteredWellFormed | assets/scripts/core/ItemManager.ts:58-102 | registering the six items keeps the inventory well formed |
| Items.RegisteredCounts | assets/scripts/core/ItemManager.ts:58-102 | after registration each of the six item types is present with its initial count |
| Items.RegisteredOrder | assets/scripts/core/ItemManager.ts:58-102 | registration into an empty map inserts the six types in source order |
| Items.Added | assets/scripts/core/ItemManager.ts:115-120 | a present type's count rises by `count`; an absent type is a no-op; other entries are untouched |
| Items.Used | assets/scripts/core/ItemManager.ts:125-132 | use succeeds iff the count is positive, and then lowers it by exactly one; a failed use changes nothing; a count >= 0 never goes negative |
| Items.AddThenUse | assets/scripts/core/ItemManager.ts:115-132 | adding at least one item to a present type makes the next use succeed, leaving the count plus `count` minus one |
| Items.KeysCount | assets/scripts/core/ItemManager.ts:137-139 | a well-formed inventory has one key-list entry per map entry |
| Items.Values | assets/scripts/core/ItemManager.ts:137-139 | the listing has one item per key, in insertion order, with no type listed twice |
| Items.ValuesListEachEntry | assets/scripts/core/ItemManager.ts:137-139 | a type is in the inventory iff the listing holds an item of that type |
| Items.CountsAgreeWithListing | assets/scripts/core/ItemManager.ts:107-110 | the count `getItemCount` reports (`CountIn`) is the count of the listed item of that type, and 0 for a type `getAllItems` does not list |
| Items.ItemManager.GetItemCount | assets/scripts/core/ItemManager.ts:107-110 | a non-zero count is the count of the listed item of that type |
| Items.ItemManager.GetAllItems | assets/scripts/core/ItemManager.ts:137-139 | the listing holds an item of each held type and of no other, each carrying the count `getItemCount` reports |
| Items.ItemManager.constructor | assets/scripts/core/ItemManager.ts:42 | the inventory starts empty |
| Items.ItemManager.InitItems | assets/scripts/core/ItemManager.ts:58-102 | counts become CLEAR_LINE 3, UNIVERSAL_GEM 2, SHIELD 1, RUIN_KEY 0, ENERGY_AMPLIFIER 1, TIME_HOURGLASS 0, inserted in that order |
| Items.ItemManager.AddItem | assets/scripts/core/ItemManager.ts:115-120 | the inventory becomes `Added`: a present type gains `count` and nothing else changes |
| Items.ItemManager.UseItem | assets/scripts/core/ItemManager.ts:125-132 | returns true and decrements by one iff the count is positive; otherwise returns false and nothing changes |

## Left out

- Rendering, animation, particles, sound, toasts and DOM/label updates (`renderBoard`, `Gem.draw`, tweens, `updateUI`, `updateItemCounts`) are pure presentation and are not modelled.
- The mobile copy's parallel `gems` array of animated objects only mirrors the board for drawing and is not modelled.
- Pixel-to-cell conversion (`Math.floor(x / gemSize)`), swipe distances and 3D raycast picking (`getGemAtTouch`) are floating-point input handling. Taps are given as cells, or as no cell for a miss.
- Timers, `setTimeout` and `await`: each cascade runs synchronously. Random events (`startRandomEvents`), the level server and `fetch`, and the singleton `getInstance`/`onLoad` are not modelled. The fetched level is a parameter of `LoadLevelConfig`.
- `Math.random` has no distribution here. Each draw is an arbitrary number from a caller-supplied oracle, reduced to the palette.
- Gem kinds are palette indices. Colour names, display names, descriptions and template strings are not modelled. With an empty palette every draw yields the same kind, which stands for the demo's `undefined` gem.
- Cocos gems are values: object identity and aliasing are not modelled, and neither is `getAllItems` handing out the stored objects themselves. The position a gem records is kept as part of the slot.
- Mobile.MobileGame.ProcessMatches: the recursion is bounded by `fuel`, so at most `fuel + 1` rounds run; it ends with `isProcessing` still set only when the fuel runs out.
- Demo.DemoGame.ProcessMatches: the recursion is bounded by `fuel` in the same way.
- Cocos3D.GameBoard3D.FillBoard: the recursion through `Eliminate` is bounded by `fuel` rounds; the result reports whether matches remain.
- Demo.DemoGame.RemoveInitialMatches: the source loop has no pass cap, so the model runs at most `fuel` passes; a run without settling is reported, not looped forever.
- Cocos3D.GameBoard3D.OnTouchStart: for an adjacent second tap, the contract states only that the selection is cleared; the swap's outcome is stated by `TrySwap`.
- Mobile.MobileGame.UseItemOnGem: for shuffle, the contract states only that a fresh board is dealt; its properties are stated by `CreateBoard`.
- Cocos3D.RepairPass: a replaced cell is stated only to hold a new palette gem; that the run test of each cell is made on the partly repaired board (cells to its left and above may already be new) is not stated.
- Mobile.MobileGame.HandleGemClick: for an armed shuffle, likewise states only that a fresh board is dealt.
- Cocos2D.GameBoard.SelectGem: requires each gem to sit at its recorded cell (`OnBoard`). `initBoard` (assets/scripts/core/GameBoard.ts:33) leaves every cell null, so in the source every pick is of a gem that is not on the board; there `swapGems` swaps two null cells and only the gems' recorded positions change. That path is not modelled.
- Cocos2D.GameBoard.SwapGems: the same `OnBoard` requirement, for the same reason.
- Cocos3D.GameBoard3D.TrySwap: the selection is cleared before the swap instead of after the animation, which gives the same final state. `isProcessing` is set and cleared within the call.
- Cocos3D.GameBoard3D.CreateGem: the path where the prefab or component is missing (an error is logged and `null` is returned) is not modelled.
- Items.ItemManager.AddItem: the default argument `count = 1` is not modelled; callers pass the count.
- Level ids and `gemColors` are integers here. Fractional or non-numeric values are not modelled.

=== FILE: boards.dfy ===
/**
 * The board shared by every copy of the match-3 engine: a rows x cols grid of
 * gem kinds, where a vacated cell (JavaScript `null`, an empty Cocos slot)
 * holds the sentinel `Empty`.  Gem kinds are the indices 0, 1, ... of a palette.
 */
module Boards {

  datatype Option<T> = None | Some(value: T)

  /** A grid position (row, col). */
  type Cell = (int, int)

  /** The kind stored in a vacated cell. */
  const Empty: int := -1

  /** A snapshot of a board, row by row. */
  type Board = seq<seq<int>>

  function Width(g: Board): nat {
    if |g| == 0 then 0 else |g[0]|
  }

  /** Every row has the same length. */
  predicate Rect(g: Board) {
    forall r :: 0 <= r < |g| ==> |g[r]| == Width(g)
  }

  predicate InBounds(g: Board, p: Cell) {
    0 <= p.0 < |g| && 0 <= p.1 < Width(g)
  }

  /** No cell is vacated: the board is at rest between cascade steps. */
  predicate Full(g: Board)
    requires Rect(g)
  {
    forall r, c :: 0 <= r < |g| && 0 <= c < Width(g) ==> g[r][c] != Empty
  }

  /** The number of kinds a draw can produce: a palette of n > 0 kinds, or the single kind 0. */
  function PaletteBound(n: nat): nat {
    if n == 0 then 1 else n
  }

  predicate InPalette(k: int, n: nat) {
    0 <= k < PaletteBound(n)
  }

  /** Every cell holds a kind of the palette (in particular no cell is vacated). */
  predicate AllInPalette(g: Board, n: nat)
    requires Rect(g)
  {
    forall r, c :: 0 <= r < |g| && 0 <= c < Width(g) ==> InPalette(g[r][c], n)
  }

  /**
   * One random gem kind, `Math.floor(Math.random() * n)`: the caller-supplied
   * oracle `rand` stands for the random number generator and `t` counts the
   * draws made so far.  With n == 0 every draw yields the same kind.
   */
  function DrawKind(rand: nat -> nat, t: nat, n: nat): (k: int)
    ensures InPalette(k, n) && k != Empty
  {
    if n == 0 then 0 else rand(t) % n
  }

  /** Every cell of an array holds a kind of the palette. */
  ghost predicate ArrayInPalette(a: array2<int>, n: nat)
    reads a
  {
    forall r, c :: 0 <= r < a.Length0 && 0 <= c < a.Length1 ==> InPalette(a[r, c], n)
  }

  /** Every cell holds a kind of the palette or is vacated. */
  predicate PaletteOrEmpty(g: Board, n: nat)
    requires Rect(g)
  {
    forall r, c :: 0 <= r < |g| && 0 <= c < Width(g) ==> g[r][c] == Empty || InPalette(g[r][c], n)
  }

  /** Column c of a board, top to bottom. */
  function ColumnOf(g: Board, c: int): (s: seq<int>)
    requires Rect(g) && 0 <= c < Width(g)
    ensures |s| == |g| && forall r :: 0 <= r < |g| ==> s[r] == g[r][c]
  {
    seq(|g|, r requires 0 <= r < |g| => g[r][c])
  }

  /**
   * The platform's random number generator (`Math.random`): the t-th draw
   * is `rand(t)`, an arbitrary number supplied from outside.
   */
  class Random {
    const rand: nat -> nat
    /** The number of draws made so far. */
    var tick: nat

    constructor (rand: nat -> nat)
      ensures this.rand == rand && tick == 0
    {
      this.rand := rand;
      tick := 0;
    }

    /** One random kind of a palette of n kinds, `Math.floor(Math.random() * n)`. */
    method Draw(n: nat) returns (k: int)
      modifies this
      ensures k == DrawKind(rand, old(tick), n) && tick == old(tick) + 1
    {
      k := DrawKind(rand, tick, n);
      tick := tick + 1;
    }
  }

  /** The contents of a two-dimensional array, as a board snapshot. */
  function Cells(a: array2<int>): (g: Board)
    reads a
    ensures |g| == a.Length0 && Rect(g)
    ensures a.Length0 > 0 ==> Width(g) == a.Length1
    ensures forall r, c {:trigger g[r][c]} :: 0 <= r < a.Length0 && 0 <= c < a.Length1 ==> g[r][c] == a[r, c]
  {
    seq(a.Length0, r requires 0 <= r < a.Length0 reads a =>
      seq(a.Length1, c requires 0 <= c < a.Length1 reads a => a[r, c]))
  }

  function Abs(x: int): nat {
    if x < 0 then -x else x
  }

  /**
   * Two cells are adjacent when one row or one column apart, but not both:
   * the test every copy of the engine applies before swapping.
   */
  function Adjacent(p: Cell, q: Cell): (b: bool)
    ensures b <==> Abs(p.0 - q.0) + Abs(p.1 - q.1) == 1
    ensures b ==> p != q
  {
    var rowDiff, colDiff := Abs(p.0 - q.0), Abs(p.1 - q.1);
    (rowDiff == 1 && colDiff == 0) || (rowDiff == 0 && colDiff == 1)
  }

  /** The board with the contents of cells p and q exchanged. */
  function Swapped(g: Board, p: Cell, q: Cell): (h: Board)
    requires Rect(g) && InBounds(g, p) && InBounds(g, q)
    ensures |h| == |g| && Rect(h) && Width(h) == Width(g)
    ensures h[p.0][p.1] == g[q.0][q.1] && h[q.0][q.1] == g[p.0][p.1]
    ensures forall r, c :: 0 <= r < |g| && 0 <= c < Width(g) && (r, c) != p && (r, c) != q ==>
      h[r][c] == g[r][c]
  {
    var atP, atQ := g[p.0][p.1], g[q.0][q.1];
    var once := g[p.0 := g[p.0][p.1 := atQ]];
    once[q.0 := once[q.0][q.1 := atP]]
  }

  /** Two boards of the same shape that agree on every cell are equal. */
  lemma {:induction false} BoardExt(g: Board, h: Board)
    requires Rect(g) && Rect(h) && |g| == |h| && Width(g) == Width(h)
    requires forall r, c :: 0 <= r < |g| && 0 <= c < Width(g) ==> g[r][c] == h[r][c]
    ensures g == h
  {
    forall r | 0 <= r < |g|
      ensures g[r] == h[r]
    {
      assert |g[r]| == |h[r]|;
      forall c | 0 <= c < |g[r]|
        ensures g[r][c] == h[r][c]
      {
      }
    }
  }

  /** Swapping is its own inverse: a reverted trial swap restores the board. */
  lemma SwapTwice(g: Board, p: Cell, q: Cell)
    requires Rect(g) && InBounds(g, p) && InBounds(g, q)
    ensures Swapped(Swapped(g, p, q), p, q) == g
  {
    var h := Swapped(Swapped(g, p, q), p, q);
    BoardExt(h, g);
  }

  /** The order of the two cells does not matter. */
  lemma SwapSymmetric(g: Board, p: Cell, q: Cell)
    requires Rect(g) && InBounds(g, p) && InBounds(g, q)
    ensures Swapped(g, p, q) == Swapped(g, q, p)
  {
    BoardExt(Swapped(g, p, q), Swapped(g, q, p));
  }

  /** The board with every cell of m vacated: the removal step of a cascade. */
  function Cleared(g: Board, m: set<Cell>): (h: Board)
    requires Rect(g)
    ensures |h| == |g| && Rect(h) && Width(h) == Width(g)
    ensures forall r, c :: 0 <= r < |g| && 0 <= c < Width(g) ==>
      h[r][c] == if (r, c) in m then Empty else g[r][c]
  {
    seq(|g|, r requires 0 <= r < |g| =>
      seq(Width(g), c requires 0 <= c < Width(g) => if (r, c) in m then Empty else g[r][c]))
  }

  /** Vacating cells of a board of palette kinds leaves palette kinds and vacated cells. */
  lemma ClearedPaletteOrEmpty(a: array2<int>, m: set<Cell>, n: nat)
    requires ArrayInPalette(a, n)
    ensures PaletteOrEmpty(Cleared(Cells(a), m), n)
  {
    var g := Cells(a);
    forall r, c | 0 <= r < |g| && 0 <= c < Width(g)
      ensures Cleared(g, m)[r][c] == Empty || InPalette(Cleared(g, m)[r][c], n)
    {
      assert g[r][c] == a[r, c];
    }
  }

  /** No cell of the array is vacated. */
  ghost predicate NoVacancy(a: array2<int>)
    reads a
  {
    forall r, c :: 0 <= r < a.Length0 && 0 <= c < a.Length1 ==> a[r, c] != Empty
  }

  lemma NoVacancyIsFull(a: array2<int>)
    requires NoVacancy(a)
    ensures Full(Cells(a))
  {
    var g := Cells(a);
    forall r, c | 0 <= r < |g| && 0 <= c < Width(g)
      ensures g[r][c] != Empty
    {
      assert g[r][c] == a[r, c];
    }
  }

  /** Vacates every cell of m (a removal step: each matched cell is set to `null`). */
  method Vacate(a: array2<int>, m: set<Cell>)
    requires forall p :: p in m ==> 0 <= p.0 < a.Length0 && 0 <= p.1 < a.Length1
    modifies a
    ensures Cells(a) == Cleared(old(Cells(a)), m)
  {
    var rest := m;
    while rest != {}
      invariant rest <= m
      invariant forall r, c :: 0 <= r < a.Length0 && 0 <= c < a.Length1 ==>
        a[r, c] == if (r, c) in m - rest then Empty else old(a[r, c])
      decreases rest
    {
      var p :| p in rest;
      a[p.0, p.1] := Empty;
      rest := rest - {p};
    }
    BoardExt(Cells(a), Cleared(old(Cells(a)), m));
  }

  /** An array that holds `before` with the cells of m vacated is `Cleared(before, m)`. */
  lemma ClearedArray(a: array2<int>, before: Board, m: set<Cell>)
    requires |before| == a.Length0 && Rect(before) && (a.Length0 > 0 ==> Width(before) == a.Length1)
    requires forall x, y :: 0 <= x < a.Length0 && 0 <= y < a.Length1 ==>
      a[x, y] == if (x, y) in m then Empty else before[x][y]
    ensures Cells(a) == Cleared(before, m)
  {
    BoardExt(Cells(a), Cleared(before, m));
  }

  /** Exchanges the contents of two cells through a temporary. */
  method Exchange(a: array2<int>, p: Cell, q: Cell)
    requires 0 <= p.0 < a.Length0 && 0 <= p.1 < a.Length1
    requires 0 <= q.0 < a.Length0 && 0 <= q.1 < a.Length1
    modifies a
    ensures Cells(a) == Swapped(old(Cells(a)), p, q)
    ensures a[p.0, p.1] == old(a[q.0, q.1]) && a[q.0, q.1] == old(a[p.0, p.1])
    ensures forall r, c :: 0 <= r < a.Length0 && 0 <= c < a.Length1 && (r, c) != p && (r, c) != q ==>
      a[r, c] == old(a[r, c])
  {
    var temp := a[p.0, p.1];
    a[p.0, p.1] := a[q.0, q.1];
    a[q.0, q.1] := temp;
    BoardExt(Cells(a), Swapped(old(Cells(a)), p, q));
  }
}

=== FILE: cascades.dfy ===
/**
 * A cascade, as the three copies that refill run it: the matched cells are
 * vacated, every column falls and refills, and the board is scanned again;
 * while the scan finds a match the round repeats.
 */
module Cascades {
  import opened Boards
  import opened Gravity
  import opened Matching

  /**
   * Board h is one round applied to g: the cells of m vacated, then every
   * column compacted and its vacated cells refilled with kinds of a palette
   * of n kinds.
   */
  ghost predicate Refilled(g: Board, m: set<Cell>, h: Board, n: nat)
    requires Rect(g)
  {
    |h| == |g| && Rect(h) && Width(h) == Width(g) &&
    forall c :: 0 <= c < Width(g) ==> RefilledFrom(ColumnOf(Cleared(g, m), c), ColumnOf(h, c), n)
  }

  /**
   * A run of rounds: round i removes exactly the matches of boards[i] and
   * yields boards[i + 1] (stated round by round in `CascadeRound`).
   */
  ghost predicate Cascade(boards: seq<Board>, rounds: seq<set<Cell>>, n: nat)
    decreases |rounds|
  {
    |boards| == |rounds| + 1 && (forall i :: 0 <= i < |boards| ==> Rect(boards[i])) &&
    (|rounds| > 0 ==>
      rounds[0] == MatchCells(boards[0]) && Refilled(boards[0], rounds[0], boards[1], n) &&
      Cascade(boards[1..], rounds[1..], n))
  }

  /** A cascade that starts from board `start` and ends with board `last`. */
  ghost predicate CascadeFrom(boards: seq<Board>, rounds: seq<set<Cell>>, start: Board, last: Board, n: nat) {
    Cascade(boards, rounds, n) && boards[0] == start && boards[|rounds|] == last
  }

  /** Every round of a cascade removes the matches of the board before it and refills it into the next. */
  lemma {:induction false} CascadeRound(boards: seq<Board>, rounds: seq<set<Cell>>, n: nat, i: nat)
    requires Cascade(boards, rounds, n) && i < |rounds|
    ensures Rect(boards[i]) && rounds[i] == MatchCells(boards[i]) && Refilled(boards[i], rounds[i], boards[i + 1], n)
    decreases i
  {
    if i > 0 {
      CascadeRound(boards[1..], rounds[1..], n, i - 1);
    }
  }

  /** A single board is a cascade of no rounds. */
  lemma CascadeStart(g: Board, n: nat)
    requires Rect(g)
    ensures CascadeFrom([g], [], g, g, n)
  {
  }

  /** A cascade from h, preceded by the round that takes g to h, is a cascade from g. */
  lemma CascadePrepend(g: Board, h: Board, boards: seq<Board>, rounds: seq<set<Cell>>, last: Board, n: nat)
    requires Rect(g) && Refilled(g, MatchCells(g), h, n)
    requires CascadeFrom(boards, rounds, h, last, n)
    ensures CascadeFrom([g] + boards, [MatchCells(g)] + rounds, g, last, n)
  {
    var bs, rs := [g] + boards, [MatchCells(g)] + rounds;
    assert bs[1..] == boards && rs[1..] == rounds;
  }

  /**
   * A cascade of one round or more: its first round removes the (nonempty)
   * matches of `start` and leads to h, and a cascade of nonempty rounds from
   * h follows.  The cells removed add up round by round.
   */
  lemma CascadeCons(start: Board, h: Board, later: seq<Board>, rest: seq<set<Cell>>, last: Board, n: nat,
                    boards: seq<Board>, rounds: seq<set<Cell>>)
    requires Rect(start) && Refilled(start, MatchCells(start), h, n) && MatchCells(start) != {}
    requires CascadeFrom(later, rest, h, last, n) && forall i :: 0 <= i < |rest| ==> rest[i] != {}
    requires boards == [start] + later && rounds == [MatchCells(start)] + rest
    ensures CascadeFrom(boards, rounds, start, last, n)
    ensures Removed(rounds) == |MatchCells(start)| + Removed(rest)
    ensures |rounds| == |rest| + 1 && rounds[0] == MatchCells(start)
    ensures forall i :: 0 <= i < |rounds| ==> rounds[i] != {}
  {
    CascadePrepend(start, h, later, rest, last, n);
    assert rounds[1..] == rest;
  }

  /** A cascade of exactly one round, from `start` to h. */
  lemma CascadeSingle(start: Board, h: Board, n: nat, boards: seq<Board>, rounds: seq<set<Cell>>)
    requires Rect(start) && Refilled(start, MatchCells(start), h, n)
    requires boards == [start, h] && rounds == [MatchCells(start)]
    ensures CascadeFrom(boards, rounds, start, h, n)
    ensures Removed(rounds) == |MatchCells(start)|
  {
    CascadeStart(h, n);
    CascadePrepend(start, h, [h], [], h, n);
    assert [start] + [h] == boards;
  }

  /** Vacating nothing changes nothing: a refill of `Cleared(g, m)` is a round applied to g at m. */
  lemma RefilledCleared(g: Board, m: set<Cell>, h: Board, n: nat)
    requires Rect(g) && Refilled(Cleared(g, m), {}, h, n)
    ensures Refilled(g, m, h, n)
  {
    BoardExt(Cleared(Cleared(g, m), {}), Cleared(g, m));
  }

  /**
   * After a round every cell holds a gem of the palette: the survivors keep
   * their kinds and every vacated cell is refilled.
   */
  lemma RefilledIsFull(g: Board, m: set<Cell>, h: Board, n: nat)
    requires Rect(g) && PaletteOrEmpty(g, n) && Refilled(g, m, h, n)
    ensures AllInPalette(h, n)
  {
    var cleared := Cleared(g, m);
    forall r, c | 0 <= r < |h| && 0 <= c < Width(h)
      ensures InPalette(h[r][c], n)
    {
      var s := ColumnOf(cleared, c);
      assert ColumnOf(h, c)[r] == h[r][c];
      CompactedShape(s);
      KeptOfCompacted(s);
      if Compacted(s)[r] != Empty {
        var k := Kept(s);
        assert Compacted(s)[r] in k;
        KeptInPalette(s, n);
      }
    }
  }

  /** The survivors of a column of palette kinds and vacated cells are palette kinds. */
  lemma {:induction false} KeptInPalette(s: seq<int>, n: nat)
    requires forall i :: 0 <= i < |s| ==> s[i] == Empty || InPalette(s[i], n)
    ensures forall x :: x in Kept(s) ==> InPalette(x, n)
  {
    if s != [] {
      KeptInPalette(s[1..], n);
      KeptCons(s[0], s[1..]);
      assert s == [s[0]] + s[1..];
    }
  }

  /**
   * Every board of a cascade that starts from palette kinds and vacated cells
   * holds palette kinds only after its first round: the cascade never leaves a
   * hole or an unknown kind behind.
   */
  lemma {:induction false} CascadeStaysFull(boards: seq<Board>, rounds: seq<set<Cell>>, n: nat)
    requires Cascade(boards, rounds, n) && PaletteOrEmpty(boards[0], n)
    ensures forall i :: 0 < i < |boards| ==> AllInPalette(boards[i], n)
  {
    forall i | 0 < i < |boards|
      ensures AllInPalette(boards[i], n)
    {
      PaletteBefore(boards, rounds, n, i - 1);
      CascadeRound(boards, rounds, n, i - 1);
      RefilledIsFull(boards[i - 1], rounds[i - 1], boards[i], n);
    }
  }

  /** Every board of such a cascade holds palette kinds or vacated cells. */
  lemma {:induction false} PaletteBefore(boards: seq<Board>, rounds: seq<set<Cell>>, n: nat, i: nat)
    requires Cascade(boards, rounds, n) && PaletteOrEmpty(boards[0], n) && i < |boards|
    ensures PaletteOrEmpty(boards[i], n)
  {
    if i > 0 {
      PaletteBefore(boards, rounds, n, i - 1);
      CascadeRound(boards, rounds, n, i - 1);
      RefilledIsFull(boards[i - 1], rounds[i - 1], boards[i], n);
    }
  }
}

=== FILE: cocos2d.dfy ===
/**
 * The 2D Cocos copy of the board engine (`GameBoard`).  Its board holds gem
 * objects, or `null` for a vacated cell; a gem records its own position.
 * Selecting a second gem next to the first swaps them for good (there is no
 * revert), then one scan of the whole board removes every window of three
 * equal kinds and lets the gems above fall.  This copy never refills: its
 * `initBoard` draws a kind for every cell and still leaves every cell `null`.
 */
module Cocos2D {
  import opened Boards
  import opened Gravity
  import opened Matching
  import opened Pieces

  /** The number of kinds `getRandomGemType` chooses from. */
  const GemTypeCount := 6

  /** The position a gem records, `getPosition()`. */
  function Pos(g: Piece): Cell {
    (g.row, g.col)
  }

  /** The recorded positions of a list of gems. */
  function Positions(gems: seq<Piece>): set<Cell> {
    set g | g in gems :: Pos(g)
  }

  /** No gem is listed twice. */
  predicate Distinct(gems: seq<Piece>) {
    forall i, j :: 0 <= i < j < |gems| ==> gems[i] != gems[j]
  }

  /**
   * `if (!matches.includes(g)) matches.push(g)`: the list with g appended
   * unless it is listed already.
   */
  function Include(gems: seq<Piece>, g: Piece): (r: seq<Piece>)
    ensures forall h :: h in r <==> h in gems || h == g
    ensures Positions(r) == Positions(gems) + {Pos(g)}
    ensures Distinct(gems) ==> Distinct(r)
    ensures gems <= r
  {
    if g in gems then gems else gems + [g]
  }

  /** The board after gravity on every column, without a refill. */
  function Collapsed(g: Board): (h: Board)
    requires Rect(g)
    ensures |h| == |g| && Rect(h) && Width(h) == Width(g)
    ensures forall r, c :: 0 <= r < |g| && 0 <= c < Width(g) ==> h[r][c] == Compacted(ColumnOf(g, c))[r]
  {
    seq(|g|, r requires 0 <= r < |g| =>
      seq(Width(g), c requires 0 <= c < Width(g) => Compacted(ColumnOf(g, c))[r]))
  }

  /** The board after one `checkMatches`: every match removed and the gems above fallen. */
  function Checked(g: Board): (h: Board)
    requires Rect(g)
    ensures |h| == |g| && Rect(h) && Width(h) == Width(g)
  {
    var m := MatchCells(g);
    if m == {} then g else Collapsed(Cleared(g, m))
  }

  /** Column c of the collapsed board is column c after gravity. */
  lemma CollapsedColumn(g: Board, c: int)
    requires Rect(g) && 0 <= c < Width(g)
    ensures ColumnOf(Collapsed(g), c) == Compacted(ColumnOf(g, c))
  {
  }

  /**
   * After the fall every column is packed, holds the same kinds as before and
   * the same survivors in the same order; a second fall moves nothing.
   */
  lemma CollapsedSettles(g: Board)
    requires Rect(g)
    ensures forall c :: 0 <= c < Width(g) ==>
      IsPacked(ColumnOf(Collapsed(g), c)) &&
      Kept(ColumnOf(Collapsed(g), c)) == Kept(ColumnOf(g, c)) &&
      multiset(ColumnOf(Collapsed(g), c)) == multiset(ColumnOf(g, c))
    ensures Collapsed(Collapsed(g)) == Collapsed(g)
  {
    var h := Collapsed(g);
    forall c | 0 <= c < Width(g)
      ensures IsPacked(ColumnOf(h, c)) && Kept(ColumnOf(h, c)) == Kept(ColumnOf(g, c))
      ensures multiset(ColumnOf(h, c)) == multiset(ColumnOf(g, c))
      ensures Compacted(ColumnOf(h, c)) == ColumnOf(h, c)
    {
      CollapsedColumn(g, c);
      CompactedIsPacked(ColumnOf(g, c));
      KeptOfCompacted(ColumnOf(g, c));
      CompactedMultiset(ColumnOf(g, c));
      CompactedIdempotent(ColumnOf(g, c));
    }
    BoardExt(Collapsed(h), h);
  }

  /**
   * A check leaves a board without matches as it is; on a board with matches
   * every matched cell is vacated before the fall, so each column keeps, in
   * order, exactly its unmatched gems, packed at the bottom.
   */
  lemma CheckedShape(g: Board)
    requires Rect(g)
    ensures MatchCells(g) == {} ==> Checked(g) == g
    ensures MatchCells(g) != {} ==> forall c :: 0 <= c < Width(g) ==>
      IsPacked(ColumnOf(Checked(g), c)) &&
      Kept(ColumnOf(Checked(g), c)) == Kept(ColumnOf(Cleared(g, MatchCells(g)), c))
  {
    if MatchCells(g) != {} {
      CollapsedSettles(Cleared(g, MatchCells(g)));
    }
  }

  /**
   * `fillBoard` on a board of slots: gravity on every column, left to right,
   * each gem told its new row.
   */
  method CollapseSlots(a: array2<Slot>)
    requires Placed(a)
    modifies a
    ensures Placed(a) && Kinds(a) == Collapsed(old(Kinds(a)))
  {
    ghost var start := Kinds(a);
    var col := 0;
    while col < a.Length1
      invariant 0 <= col <= a.Length1 && Placed(a)
      invariant forall c :: 0 <= c < col && c < Width(start) ==> KindsColumn(a, c) == Compacted(ColumnOf(start, c))
      invariant forall r, c :: 0 <= r < a.Length0 && col <= c < a.Length1 ==> a[r, c] == old(a[r, c])
    {
      ghost var mid := Columns(a);
      ghost var wasColumn := KindsColumn(a, col);
      PullDownSlots(a, col);
      if col < Width(start) {
        assert wasColumn == ColumnOf(start, col);
      }
      forall c | 0 <= c < col && c < Width(start)
        ensures KindsColumn(a, c) == Compacted(ColumnOf(start, c))
      {
        assert KindsColumn(a, c) == mid[c];
      }
      col := col + 1;
    }
    CollapsedByColumns(a, start);
  }

  /** A board of slots whose every column is the compacted column of `start` holds `Collapsed(start)`. */
  lemma CollapsedByColumns(a: array2<Slot>, start: Board)
    requires Rect(start) && |start| == a.Length0 && (a.Length0 > 0 ==> Width(start) == a.Length1)
    requires forall c :: 0 <= c < Width(start) ==> KindsColumn(a, c) == Compacted(ColumnOf(start, c))
    ensures Kinds(a) == Collapsed(start)
  {
    forall r, c | 0 <= r < a.Length0 && 0 <= c < a.Length1
      ensures Kinds(a)[r][c] == Collapsed(start)[r][c]
    {
      assert Kinds(a)[r][c] == KindsColumn(a, c)[r];
    }
    BoardExt(Kinds(a), Collapsed(start));
  }

  /** Gem g sits in array a at the position it records. */
  ghost predicate OnBoard(a: array2<Slot>, g: Piece)
    reads a
  {
    0 <= g.row < a.Length0 && 0 <= g.col < a.Length1 && a[g.row, g.col] == Filled(g)
  }

  /** A list of matched gems: none listed twice, each in array a at the position it records. */
  ghost predicate Listed(a: array2<Slot>, gems: seq<Piece>)
    reads a
  {
    Distinct(gems) && forall g :: g in gems ==> OnBoard(a, g)
  }

  /** The horizontal windows of three, row by row: every gem in one, listed once. */
  method CollectRowMatches(a: array2<Slot>) returns (matches: seq<Piece>)
    requires Placed(a)
    ensures Listed(a, matches)
    ensures Positions(matches) == HCells(Kinds(a), true)
  {
    ghost var g := Kinds(a);
    matches := [];
    var row := 0;
    while row < a.Length0
      invariant 0 <= row <= a.Length0
      invariant Listed(a, matches)
      invariant Positions(matches) == HCellsBefore(g, true, row, 0)
    {
      matches := CollectRow(a, matches, row);
      row := row + 1;
    }
    HAllDone(g, true);
  }

  /** The horizontal windows of row `row`, left to right. */
  method CollectRow(a: array2<Slot>, acc: seq<Piece>, row: int) returns (matches: seq<Piece>)
    requires Placed(a) && 0 <= row < a.Length0 && Listed(a, acc)
    requires Positions(acc) == HCellsBefore(Kinds(a), true, row, 0)
    ensures Listed(a, matches)
    ensures Positions(matches) == HCellsBefore(Kinds(a), true, row + 1, 0)
  {
    ghost var g := Kinds(a);
    matches := acc;
    var col := 0;
    while col < a.Length1 - 2
      invariant 0 <= col && (a.Length1 >= 2 ==> col <= a.Length1 - 2)
      invariant Listed(a, matches)
      invariant Positions(matches) == HCellsBefore(g, true, row, col)
    {
      HStep(g, true, row, col);
      assert g[row][col] == KindOf(a[row, col]) && g[row][col + 1] == KindOf(a[row, col + 1]);
      assert g[row][col + 2] == KindOf(a[row, col + 2]);
      matches := AddWindow(a, matches, (row, col), (row, col + 1), (row, col + 2));
      col := col + 1;
    }
    HRowDone(g, true, row, col);
  }

  /** The vertical windows of three, column by column, appended to `acc`. */
  method CollectColumnMatches(a: array2<Slot>, acc: seq<Piece>) returns (matches: seq<Piece>)
    requires Placed(a) && Listed(a, acc)
    ensures Listed(a, matches)
    ensures Positions(matches) == Positions(acc) + VCells(Kinds(a), true)
  {
    ghost var g, base := Kinds(a), Positions(acc);
    matches := acc;
    var col := 0;
    while col < a.Length1
      invariant 0 <= col <= a.Length1
      invariant Listed(a, matches)
      invariant Positions(matches) == base + VCellsBefore(g, true, 0, col)
    {
      matches := CollectColumn(a, matches, col, base);
      col := col + 1;
    }
    VAllDone(g, true, col);
  }

  /** The vertical windows of column `col`, top to bottom. */
  method CollectColumn(a: array2<Slot>, acc: seq<Piece>, col: int, ghost base: set<Cell>) returns (matches: seq<Piece>)
    requires Placed(a) && 0 <= col < a.Length1 && Listed(a, acc)
    requires Positions(acc) == base + VCellsBefore(Kinds(a), true, 0, col)
    ensures Listed(a, matches)
    ensures Positions(matches) == base + VCellsBefore(Kinds(a), true, 0, col + 1)
  {
    ghost var g := Kinds(a);
    matches := acc;
    var row := 0;
    while row < a.Length0 - 2
      invariant 0 <= row && (a.Length0 >= 2 ==> row <= a.Length0 - 2)
      invariant Listed(a, matches)
      invariant Positions(matches) == base + VCellsBefore(g, true, row, col)
    {
      VStep(g, true, row, col);
      assert g[row][col] == KindOf(a[row, col]) && g[row + 1][col] == KindOf(a[row + 1, col]);
      assert g[row + 2][col] == KindOf(a[row + 2, col]);
      matches := AddWindow(a, matches, (row, col), (row + 1, col), (row + 2, col));
      row := row + 1;
    }
    VColumnDone(g, true, row, col);
  }

  /**
   * One window of three cells: when all three hold gems of one kind, each
   * gem not listed yet is appended to the list.
   */
  method AddWindow(a: array2<Slot>, acc: seq<Piece>, p: Cell, q: Cell, r: Cell) returns (matches: seq<Piece>)
    requires Placed(a) && Listed(a, acc)
    requires 0 <= p.0 < a.Length0 && 0 <= p.1 < a.Length1 && 0 <= q.0 < a.Length0 && 0 <= q.1 < a.Length1
    requires 0 <= r.0 < a.Length0 && 0 <= r.1 < a.Length1
    ensures Listed(a, matches)
    ensures Positions(matches) == Positions(acc) +
      var k := KindOf(a[p.0, p.1]);
      if k != Empty && k == KindOf(a[q.0, q.1]) && k == KindOf(a[r.0, r.1]) then {p, q, r} else {}
  {
    var gem1, gem2, gem3 := a[p.0, p.1], a[q.0, q.1], a[r.0, r.1];
    assert PlacedAt(gem1, p) && PlacedAt(gem2, q) && PlacedAt(gem3, r);
    matches := acc;
    if gem1.Filled? && gem2.Filled? && gem3.Filled? &&
       gem1.gem.kind == gem2.gem.kind && gem2.gem.kind == gem3.gem.kind {
      matches := IncludeGem(a, matches, p);
      matches := IncludeGem(a, matches, q);
      matches := IncludeGem(a, matches, r);
    }
  }

  /** The gem at p joins the list unless it is listed already. */
  method IncludeGem(a: array2<Slot>, acc: seq<Piece>, p: Cell) returns (matches: seq<Piece>)
    requires Placed(a) && Listed(a, acc)
    requires 0 <= p.0 < a.Length0 && 0 <= p.1 < a.Length1 && a[p.0, p.1].Filled?
    ensures Listed(a, matches)
    ensures Positions(matches) == Positions(acc) + {p}
  {
    var gem := a[p.0, p.1].gem;
    assert PlacedAt(a[p.0, p.1], p);
    matches := Include(acc, gem);
  }

  /** Draws one random kind per cell, row by row, and leaves every cell vacant. */
  method VacateDrawing(a: array2<Slot>, rng: Random, n: nat)
    modifies a, rng
    ensures forall r, c :: 0 <= r < a.Length0 && 0 <= c < a.Length1 ==> a[r, c] == Vacant
    ensures rng.tick == old(rng.tick) + a.Length0 * a.Length1
  {
    var row := 0;
    while row < a.Length0
      invariant 0 <= row <= a.Length0
      invariant forall r, c :: 0 <= r < row && 0 <= c < a.Length1 ==> a[r, c] == Vacant
      invariant rng.tick == old(rng.tick) + row * a.Length1
    {
      var col := 0;
      while col < a.Length1
        invariant 0 <= col <= a.Length1
        invariant forall r, c :: 0 <= r < row && 0 <= c < a.Length1 ==> a[r, c] == Vacant
        invariant forall c :: 0 <= c < col ==> a[row, c] == Vacant
        invariant rng.tick == old(rng.tick) + row * a.Length1 + col
      {
        var gemType := rng.Draw(n);
        a[row, col] := Vacant;
        col := col + 1;
      }
      row := row + 1;
    }
  }

  class GameBoard {
    const rows: nat
    const cols: nat
    var board: array2<Slot>
    var selectedGem: Option<Piece>
    const rng: Random

    /** The kinds on the board, as a snapshot. */
    function Grid(): Board
      reads this`board, board
    {
      Kinds(board)
    }

    /** The board has its configured size and every gem records its own cell. */
    ghost predicate Shaped()
      reads this`board, board
    {
      board.Length0 == rows && board.Length1 == cols && Placed(board)
    }

    /** Between two selections: a shaped board, and a selected gem lies on it. */
    ghost predicate Valid()
      reads this`board, this`selectedGem, board
    {
      Shaped() && (selectedGem.Some? ==> OnBoard(board, selectedGem.value))
    }

    /** The component before `start`: an empty board and nothing selected. */
    constructor (rows: nat, cols: nat, rng: Random)
      ensures this.rows == rows && this.cols == cols && this.rng == rng
      ensures board.Length0 == 0 && selectedGem.None?
    {
      this.rows := rows;
      this.cols := cols;
      this.rng := rng;
      board := new Slot[0, 0];
      selectedGem := None;
    }

    /**
     * A new board of the configured size: a kind is drawn for every cell,
     * row by row, and discarded, and every cell is left vacated.
     */
    method InitBoard()
      modifies this`board, rng
      ensures fresh(board) && board.Length0 == rows && board.Length1 == cols
      ensures forall r, c :: 0 <= r < rows && 0 <= c < cols ==> board[r, c] == Vacant
      ensures Shaped() && Grid() == seq(rows, _ => Vacancies(cols))
      ensures rng.tick == old(rng.tick) + rows * cols
    {
      board := new Slot[rows, cols]((_, _) => Vacant);
      VacateDrawing(board, rng, GemTypeCount);
      BoardExt(Grid(), seq(rows, _ => Vacancies(cols)));
    }

    /**
     * The first gem selected is remembered; selecting a second one swaps the
     * two when they are adjacent, and clears the selection either way.
     */
    method SelectGem(gem: Piece)
      requires Valid() && OnBoard(board, gem)
      modifies this`selectedGem, board
      ensures Valid()
      ensures old(selectedGem).None? ==> selectedGem == Some(gem) && unchanged(board)
      ensures old(selectedGem).Some? ==> selectedGem.None?
      ensures old(selectedGem).Some? && !Adjacent(Pos(old(selectedGem).value), Pos(gem)) ==> unchanged(board)
      ensures old(selectedGem).Some? && Adjacent(Pos(old(selectedGem).value), Pos(gem)) ==>
        Grid() == Checked(Swapped(old(Grid()), Pos(old(selectedGem).value), Pos(gem)))
    {
      if selectedGem.None? {
        selectedGem := Some(gem);
      } else {
        if Adjacent(Pos(selectedGem.value), Pos(gem)) {
          SwapGems(selectedGem.value, gem);
        }
        selectedGem := None;
      }
    }

    /**
     * Exchanges the cells of two adjacent gems, tells each gem its new
     * position and checks the whole board; the swap stays even when nothing
     * matches.
     */
    method SwapGems(gem1: Piece, gem2: Piece)
      requires Shaped() && OnBoard(board, gem1) && OnBoard(board, gem2) && Adjacent(Pos(gem1), Pos(gem2))
      modifies board
      ensures Shaped()
      ensures Grid() == Checked(Swapped(old(Grid()), Pos(gem1), Pos(gem2)))
    {
      var pos1, pos2 := Pos(gem1), Pos(gem2);
      SwapPieces(board, pos1, pos2);
      CheckMatches();
    }

    /**
     * Lists every gem of a window of three equal kinds, horizontal windows
     * first, each gem once, and removes them when there are any.
     */
    method CheckMatches()
      requires Shaped()
      modifies board
      ensures Shaped()
      ensures Grid() == Checked(old(Grid()))
    {
      var matches := CollectRowMatches(board);
      matches := CollectColumnMatches(board, matches);
      assert Positions(matches) == MatchCells(Grid());
      if |matches| > 0 {
        assert Pos(matches[0]) in Positions(matches);
        RemoveMatches(matches);
      } else {
        assert Positions(matches) == {};
      }
    }

    /** Vacates the cell each listed gem records, then lets the gems fall. */
    method RemoveMatches(matches: seq<Piece>)
      requires Shaped() && forall g :: g in matches ==> 0 <= g.row < rows && 0 <= g.col < cols
      modifies board
      ensures Shaped()
      ensures Grid() == Collapsed(Cleared(old(Grid()), Positions(matches)))
    {
      var i := 0;
      while i < |matches|
        invariant 0 <= i <= |matches| && Placed(board)
        invariant forall r, c :: 0 <= r < rows && 0 <= c < cols ==>
          board[r, c] == if (r, c) in Positions(matches[..i]) then Vacant else old(board[r, c])
      {
        assert matches[..i + 1] == matches[..i] + [matches[i]];
        var pos := Pos(matches[i]);
        board[pos.0, pos.1] := Vacant;
        i := i + 1;
      }
      assert matches[..i] == matches;
      BoardExt(Grid(), Cleared(old(Grid()), Positions(matches)));
      FillBoard();
    }

    /** Gravity on every column, left to right. */
    method FillBoard()
      requires Shaped()
      modifies board
      ensures Shaped()
      ensures Grid() == Collapsed(old(Grid()))
    {
      CollapseSlots(board);
    }
  }
}

=== FILE: cocos3d.dfy ===
/**
 * The 3D Cocos copy of the engine (cocos3d/assets/scripts/GameBoard3D.ts): a
 * rows x cols board of gems that each record their grid position.  Matches
 * are the maximal runs through a cell; a swap checks only the two swapped
 * cells; there is no score.  Touches arrive as the cell of the gem hit (the
 * ray cast that finds it is not modelled).
 */
module Cocos3D {
  import opened Boards
  import opened Gravity
  import opened Matching
  import opened Pieces
  import opened Cascades

  const MaxIterations: nat := 100

  /**
   * `trySwap`'s `allMatches`: the run match through q followed by the one
   * through p, concatenated, so a cell in both is listed twice.
   */
  function CombinedMatches(g: Board, p: Cell, q: Cell): (m: multiset<Cell>)
    requires Rect(g) && InBounds(g, p) && InBounds(g, q)
    ensures forall x :: x in m ==> InBounds(g, x)
  {
    multiset(RunMatchesAt(g, q.0, q.1)) + multiset(RunMatchesAt(g, p.0, p.1))
  }

  /** The cells listed at least once. */
  function SetOf(m: multiset<Cell>): (s: set<Cell>)
    ensures forall c :: c in s <==> c in m
  {
    set c | c in m
  }

  /**
   * The concatenated list holds exactly the cells of the union of the two run
   * matches, but counts the cells they share twice; it is non-empty exactly
   * when the union is.
   */
  lemma CombinedMatchesCount(g: Board, p: Cell, q: Cell)
    requires Rect(g) && InBounds(g, p) && InBounds(g, q)
    ensures forall x :: x in CombinedMatches(g, p, q) <==>
      x in RunMatchesAt(g, q.0, q.1) + RunMatchesAt(g, p.0, p.1)
    ensures |CombinedMatches(g, p, q)| ==
      |RunMatchesAt(g, q.0, q.1) + RunMatchesAt(g, p.0, p.1)| + |RunMatchesAt(g, q.0, q.1) * RunMatchesAt(g, p.0, p.1)|
    ensures |CombinedMatches(g, p, q)| > 0 <==> RunMatchesAt(g, q.0, q.1) + RunMatchesAt(g, p.0, p.1) != {}
  {
    var a, b := RunMatchesAt(g, q.0, q.1), RunMatchesAt(g, p.0, p.1);
    assert |multiset(a)| == |a| && |multiset(b)| == |b|;
    CombinedMatchesEmpty(g, p, q);
  }

  /** The concatenated list is empty exactly when both run matches are. */
  lemma CombinedMatchesEmpty(g: Board, p: Cell, q: Cell)
    requires Rect(g) && InBounds(g, p) && InBounds(g, q)
    ensures |CombinedMatches(g, p, q)| > 0 <==> RunMatchesAt(g, q.0, q.1) + RunMatchesAt(g, p.0, p.1) != {}
  {
    var a, b := RunMatchesAt(g, q.0, q.1), RunMatchesAt(g, p.0, p.1);
    if a + b != {} {
      var x :| x in a + b;
      assert x in CombinedMatches(g, p, q);
    }
  }

  /**
   * Gravity and refill column by column is a round that vacates nothing:
   * every column of h refills the same column of g.
   */
  lemma RefilledByColumns(g: Board, before: seq<seq<int>>, h: Board, after: seq<seq<int>>, n: nat)
    requires Rect(g) && Rect(h) && |h| == |g| && Width(h) == Width(g)
    requires |before| >= Width(g) && |after| >= Width(g)
    requires forall c :: 0 <= c < Width(g) ==> ColumnOf(g, c) == before[c] && ColumnOf(h, c) == after[c]
    requires forall c :: 0 <= c < Width(g) ==> RefilledFrom(before[c], after[c], n)
    ensures Refilled(g, {}, h, n)
  {
    BoardExt(Cleared(g, {}), g);
  }

  /**
   * The board after an accepted swap of p and q on board g: the run matches
   * through q and p are removed, the board falls and refills into boards[0],
   * and a cascade of nonempty rounds leads from there to `last`.
   */
  ghost predicate Eliminated(g: Board, p: Cell, q: Cell, rounds: seq<set<Cell>>, boards: seq<Board>, last: Board, n: nat)
    requires Rect(g) && InBounds(g, p) && InBounds(g, q)
  {
    |boards| >= 1 && Refilled(g, RunMatchesAt(g, q.0, q.1) + RunMatchesAt(g, p.0, p.1), boards[0], n) &&
    CascadeFrom(boards, rounds, boards[0], last, n) && forall i :: 0 <= i < |rounds| ==> rounds[i] != {}
  }

  /** Vacating the cells of the concatenated list vacates the union of the two run matches. */
  lemma EliminatedAfterSwap(g: Board, p: Cell, q: Cell, rounds: seq<set<Cell>>, boards: seq<Board>, last: Board, n: nat)
    requires Rect(g) && InBounds(g, p) && InBounds(g, q)
    requires |boards| >= 1 && Refilled(g, SetOf(CombinedMatches(g, p, q)), boards[0], n)
    requires CascadeFrom(boards, rounds, boards[0], last, n) && forall i :: 0 <= i < |rounds| ==> rounds[i] != {}
    ensures Eliminated(g, p, q, rounds, boards, last, n)
  {
    CombinedMatchesCount(g, p, q);
    assert SetOf(CombinedMatches(g, p, q)) == RunMatchesAt(g, q.0, q.1) + RunMatchesAt(g, p.0, p.1);
  }

  /** `createGem` on the array: a new gem of a random kind of n, told its position. */
  method PlaceGem(a: array2<Slot>, row: int, col: int, rng: Random, n: nat)
    requires 0 <= row < a.Length0 && 0 <= col < a.Length1 && Placed(a)
    modifies a, rng
    ensures Placed(a) && (old(Stocked(a)) ==> Stocked(a))
    ensures a[row, col].Filled? && a[row, col].gem.row == row && a[row, col].gem.col == col
    ensures InPalette(a[row, col].gem.kind, n)
    ensures forall r, c :: 0 <= r < a.Length0 && 0 <= c < a.Length1 && (r, c) != (row, col) ==> a[r, c] == old(a[r, c])
  {
    var kind := rng.Draw(n);
    a[row, col] := Filled(Piece(kind, row, col));
  }

  /**
   * One pass of `removeInitialMatches`: the cells are visited row by row and
   * a cell whose run match is non-empty gets a new gem.  The pass reports a
   * replacement iff the board it started from had a match; a pass that
   * replaces nothing leaves the board as it was, and every other cell either
   * keeps its gem or holds a new gem of the palette.
   */
  method RepairPass(a: array2<Slot>, rng: Random, n: nat) returns (hasMatches: bool)
    requires Placed(a) && Stocked(a)
    modifies a, rng
    ensures Placed(a) && Stocked(a)
    ensures hasMatches <==> MatchCells(old(Kinds(a))) != {}
    ensures !hasMatches ==> unchanged(a) && MatchCells(Kinds(a)) == {}
    ensures forall r, c :: 0 <= r < a.Length0 && 0 <= c < a.Length1 ==> a[r, c] == old(a[r, c]) || InPalette(a[r, c].gem.kind, n)
  {
    ghost var start := Kinds(a);
    hasMatches := false;
    var row := 0;
    while row < a.Length0
      invariant 0 <= row <= a.Length0
      invariant Placed(a) && Stocked(a)
      invariant !hasMatches ==> unchanged(a) && forall i, j :: 0 <= i < row && 0 <= j < a.Length1 ==> Unmatched(start, i, j)
      invariant hasMatches ==> MatchCells(start) != {}
      invariant forall r, c :: 0 <= r < a.Length0 && 0 <= c < a.Length1 ==> a[r, c] == old(a[r, c]) || InPalette(a[r, c].gem.kind, n)
    {
      ghost var before := Kinds(a);
      var replaced := RepairRow(a, rng, n, row);
      if !hasMatches {
        assert before == start;
        if replaced {
          ghost var j :| 0 <= j < a.Length1 && !Unmatched(start, row, j);
          MatchedCell(start, row, j);
        }
      }
      hasMatches := hasMatches || replaced;
      row := row + 1;
    }
    if !hasMatches {
      assert Kinds(a) == start;
      NoRunsNoMatches(start);
    }
  }

  /** A cell that is not unmatched is one of the board's matches. */
  lemma MatchedCell(g: Board, r: int, c: int)
    requires Rect(g) && InBounds(g, (r, c)) && !Unmatched(g, r, c)
    ensures MatchCells(g) != {}
  {
    RunMatchesIffWindow(g, r, c);
  }

  /**
   * The inner loop of a repair pass, over the cells of one row: it reports a
   * replacement iff some cell of the row was matched on the board it started
   * from, and it changes no other row.
   */
  method RepairRow(a: array2<Slot>, rng: Random, n: nat, row: int) returns (replaced: bool)
    requires 0 <= row < a.Length0 && Placed(a) && Stocked(a)
    modifies a, rng
    ensures Placed(a) && Stocked(a)
    ensures replaced <==> exists j :: 0 <= j < a.Length1 && !Unmatched(old(Kinds(a)), row, j)
    ensures !replaced ==> unchanged(a)
    ensures forall r, c :: 0 <= r < a.Length0 && 0 <= c < a.Length1 && r != row ==> a[r, c] == old(a[r, c])
    ensures forall c :: 0 <= c < a.Length1 ==> a[row, c] == old(a[row, c]) || InPalette(a[row, c].gem.kind, n)
  {
    ghost var start := Kinds(a);
    replaced := false;
    var col := 0;
    while col < a.Length1
      invariant 0 <= col <= a.Length1
      invariant Placed(a) && Stocked(a)
      invariant !replaced ==> unchanged(a) && forall j :: 0 <= j < col ==> Unmatched(start, row, j)
      invariant replaced ==> exists j :: 0 <= j < a.Length1 && !Unmatched(start, row, j)
      invariant forall r, c :: 0 <= r < a.Length0 && 0 <= c < a.Length1 && r != row ==> a[r, c] == old(a[r, c])
      invariant forall c :: 0 <= c < a.Length1 ==> a[row, c] == old(a[row, c]) || InPalette(a[row, c].gem.kind, n)
    {
      ghost var before := Kinds(a);
      var hit := RepairCell(a, rng, n, row, col);
      if !replaced {
        assert before == start;
        if !hit {
          UnmatchedPrefix(start, row, col);
        }
      }
      replaced := replaced || hit;
      col := col + 1;
    }
  }

  /** The unmatched prefix of a row grows by one cell. */
  lemma UnmatchedPrefix(g: Board, row: int, col: int)
    requires Rect(g) && 0 <= row < |g| && 0 <= col < Width(g)
    requires forall j :: 0 <= j < col ==> Unmatched(g, row, j)
    requires Unmatched(g, row, col)
    ensures forall j :: 0 <= j < col + 1 ==> Unmatched(g, row, j)
  {
  }

  /**
   * A cell whose run match is non-empty gets a new gem of the palette, told
   * its position; no other cell changes.
   */
  method RepairCell(a: array2<Slot>, rng: Random, n: nat, row: int, col: int) returns (hit: bool)
    requires 0 <= row < a.Length0 && 0 <= col < a.Length1 && Placed(a) && Stocked(a)
    modifies a, rng
    ensures Placed(a) && Stocked(a)
    ensures hit <==> old(RunMatchesAt(Kinds(a), row, col)) != {}
    ensures hit <==> !Unmatched(old(Kinds(a)), row, col)
    ensures !hit ==> unchanged(a)
    ensures hit ==>
      a[row, col].Filled? && a[row, col].gem.row == row && a[row, col].gem.col == col && InPalette(a[row, col].gem.kind, n)
    ensures forall r, c :: 0 <= r < a.Length0 && 0 <= c < a.Length1 && (r, c) != (row, col) ==> a[r, c] == old(a[r, c])
  {
    var matches := RunMatchesAt(Kinds(a), row, col);
    hit := matches != {};
    if hit {
      PlaceGem(a, row, col, rng, n);
    }
  }

  class GameBoard3D {
    const rows: nat
    const cols: nat
    /** The number of gem kinds in play. */
    const gemColors: nat
    var board: array2<Slot>
    /** The cell of the selected gem. */
    var selected: Option<Cell>
    var isProcessing: bool
    /** The random number generator behind `createGem`. */
    const rng: Random

    ghost function Grid(): Board
      reads this`board, board
    {
      Kinds(board)
    }

    /** The board has its configured size, its gems know their cells, and the selection is on it. */
    ghost predicate Sound()
      reads this`board, this`selected, board
    {
      board.Length0 == rows && board.Length1 == cols && Placed(board) &&
      (selected.Some? ==> 0 <= selected.value.0 < rows && 0 <= selected.value.1 < cols)
    }

    /** The state between two touches: a sound board with a gem in every cell. */
    ghost predicate Valid()
      reads this`board, this`selected, board
    {
      Sound() && Stocked(board)
    }

    /** The component before `start`; the editor defaults are 8 x 8 and six kinds. */
    constructor (rows: nat, cols: nat, gemColors: nat, rng: Random)
      ensures this.rows == rows && this.cols == cols && this.gemColors == gemColors && this.rng == rng
      ensures selected == None && !isProcessing && board.Length0 == 0
    {
      this.rows := rows;
      this.cols := cols;
      this.gemColors := gemColors;
      this.rng := rng;
      board := new Slot[0, 0];
      selected := None;
      isProcessing := false;
    }

    /** Puts a new gem of a random kind at (row, col), telling it its position. */
    method CreateGem(row: int, col: int)
      requires 0 <= row < board.Length0 && 0 <= col < board.Length1 && Placed(board)
      modifies board, rng
      ensures Placed(board) && (old(Stocked(board)) ==> Stocked(board))
      ensures board[row, col].Filled? && board[row, col].gem.row == row && board[row, col].gem.col == col
      ensures InPalette(board[row, col].gem.kind, gemColors)
      ensures forall r, c :: 0 <= r < board.Length0 && 0 <= c < board.Length1 && (r, c) != (row, col) ==>
        board[r, c] == old(board[r, c])
    {
      PlaceGem(board, row, col, rng, gemColors);
    }

    /** Deals a fresh board row by row, then repairs it (at most 100 passes). */
    method InitBoard() returns (passes: nat, settled: bool)
      requires selected.Some? ==> 0 <= selected.value.0 < rows && 0 <= selected.value.1 < cols
      modifies this`board, rng
      ensures fresh(board) && Valid()
      ensures 1 <= passes <= MaxIterations && (!settled ==> passes == MaxIterations)
      ensures settled ==> MatchCells(Grid()) == {}
    {
      board := new Slot[rows, cols]((_, _) => Vacant);
      var row := 0;
      while row < rows
        invariant 0 <= row <= rows && fresh(board)
        invariant board.Length0 == rows && board.Length1 == cols && Placed(board)
        invariant forall r, c :: 0 <= r < row && 0 <= c < cols ==> board[r, c].Filled?
      {
        var col := 0;
        while col < cols
          invariant 0 <= col <= cols && fresh(board)
          invariant board.Length0 == rows && board.Length1 == cols && Placed(board)
          invariant forall r, c :: 0 <= r < rows && 0 <= c < cols && RowMajorBefore(r, c, row, col) ==> board[r, c].Filled?
        {
          CreateGem(row, col);
          col := col + 1;
        }
        row := row + 1;
      }
      passes, settled := RemoveInitialMatches();
    }

    /**
     * Repairs the board in passes until one changes nothing, at most 100 of
     * them.  `settled` says the last pass changed nothing, and then the board
     * has no match.
     */
    method RemoveInitialMatches() returns (iterations: nat, settled: bool)
      requires board.Length0 == rows && board.Length1 == cols && Placed(board) && Stocked(board)
      modifies board, rng
      ensures Placed(board) && Stocked(board)
      ensures 1 <= iterations <= MaxIterations && (!settled ==> iterations == MaxIterations)
      ensures settled ==> MatchCells(Grid()) == {}
    {
      var hasMatches := true;
      iterations := 0;
      while hasMatches && iterations < MaxIterations
        invariant 0 <= iterations <= MaxIterations
        invariant iterations == 0 ==> hasMatches
        invariant Placed(board) && Stocked(board)
        invariant !hasMatches ==> MatchCells(Grid()) == {}
      {
        iterations := iterations + 1;
        hasMatches := RepairPass(board, rng, gemColors);
      }
      settled := !hasMatches;
    }

    /** Every matched cell, each once: the union of the run matches through every cell. */
    method FindAllMatches() returns (allMatches: set<Cell>)
      requires board.Length0 == rows && board.Length1 == cols
      ensures allMatches == MatchCells(Grid())
    {
      allMatches := {};
      var row := 0;
      while row < rows
        invariant 0 <= row <= rows
        invariant allMatches == RunsBefore(Grid(), row, 0)
      {
        allMatches := AddRowMatches(row, allMatches);
        row := row + 1;
      }
      RunsAllDone(Grid());
      AllRunsIsMatchCells(Grid());
    }

    /** The inner loop of `findAllMatches`: adds the run matches through every cell of one row. */
    method AddRowMatches(row: int, acc: set<Cell>) returns (allMatches: set<Cell>)
      requires board.Length0 == rows && board.Length1 == cols && 0 <= row < rows
      requires acc == RunsBefore(Grid(), row, 0)
      ensures allMatches == RunsBefore(Grid(), row + 1, 0)
    {
      ghost var g := Grid();
      allMatches := acc;
      var col := 0;
      while col < cols
        invariant 0 <= col <= cols
        invariant allMatches == RunsBefore(g, row, col)
      {
        RunsStep(g, row, col);
        allMatches := allMatches + RunMatchesAt(Kinds(board), row, col);
        col := col + 1;
      }
      RunsRowDone(g, row);
    }

    /** Vacates the cell of every listed gem (a gem listed twice is vacated twice). */
    method EliminateMatches(matches: multiset<Cell>)
      requires forall p :: p in matches ==> 0 <= p.0 < board.Length0 && 0 <= p.1 < board.Length1
      requires Placed(board)
      modifies board
      ensures Placed(board)
      ensures forall r, c :: 0 <= r < board.Length0 && 0 <= c < board.Length1 ==>
        board[r, c] == if (r, c) in matches then Vacant else old(board[r, c])
      ensures Kinds(board) == Cleared(old(Kinds(board)), SetOf(matches))
    {
      VacateSlots(board, SetOf(matches));
    }

    /**
     * Gravity and refill of column `col`: the gems fall, then new gems are
     * created in the rows left free.
     */
    method SettleColumn(col: int)
      requires board.Length0 == rows && board.Length1 == cols && 0 <= col < cols && Placed(board)
      modifies board, rng
      ensures Placed(board)
      ensures RefilledFrom(old(KindsColumn(board, col)), KindsColumn(board, col), gemColors)
      ensures forall r :: 0 <= r < rows ==> board[r, col].Filled?
      ensures forall r, c :: 0 <= r < rows && 0 <= c < cols && c != col ==> board[r, c] == old(board[r, c])
    {
      ghost var s := KindsColumn(board, col);
      var emptyRow := CompactColumn(col);
      CompactedShape(s);
      CreateGems(col, emptyRow);
    }

    /**
     * Gravity on column `col`: scanning bottom-up with the `emptyRow` pointer
     * to the lowest cell not yet filled, every gem moves down to it and is
     * told its new row.  Returns the pointer, the last row left free.
     */
    method CompactColumn(col: int) returns (emptyRow: int)
      requires board.Length0 == rows && board.Length1 == cols && 0 <= col < cols && Placed(board)
      modifies board
      ensures Placed(board)
      ensures emptyRow == Vacated(old(KindsColumn(board, col))) - 1
      ensures forall r :: 0 <= r < rows ==> KindOf(board[r, col]) == Compacted(old(KindsColumn(board, col)))[r]
      ensures forall r, c :: 0 <= r < rows && 0 <= c < cols && c != col ==> board[r, c] == old(board[r, c])
    {
      emptyRow := CompactSlots(board, col);
    }

    /** Creates a new gem in every row from `emptyRow` up to 0 of column `col`. */
    method CreateGems(col: int, emptyRow: int)
      requires board.Length0 == rows && board.Length1 == cols && 0 <= col < cols && emptyRow < rows
      requires Placed(board)
      modifies board, rng
      ensures Placed(board)
      ensures forall i :: 0 <= i < rows ==>
        if i <= emptyRow then board[i, col].Filled? && InPalette(KindOf(board[i, col]), gemColors)
        else board[i, col] == old(board[i, col])
      ensures forall i, c :: 0 <= i < rows && 0 <= c < cols && c != col ==> board[i, c] == old(board[i, c])
    {
      var r := emptyRow;
      while r >= 0
        invariant r <= emptyRow && Placed(board)
        invariant forall i :: 0 <= i < rows ==>
          if r < i <= emptyRow then board[i, col].Filled? && InPalette(KindOf(board[i, col]), gemColors)
          else board[i, col] == old(board[i, col])
        invariant forall i, c :: 0 <= i < rows && 0 <= c < cols && c != col ==> board[i, c] == old(board[i, c])
      {
        CreateGem(r, col);
        r := r - 1;
      }
    }

    /** Gravity and refill of every column, left to right. */
    method FillColumns()
      requires board.Length0 == rows && board.Length1 == cols && Placed(board)
      modifies board, rng
      ensures Placed(board) && Stocked(board)
      ensures forall c :: 0 <= c < cols ==> RefilledFrom(old(Columns(board))[c], KindsColumn(board, c), gemColors)
      ensures Refilled(old(Grid()), {}, Grid(), gemColors)
    {
      ghost var g := Grid();
      ColumnsOfKinds(board);
      ghost var before := Columns(board);
      var col := 0;
      while col < cols
        invariant 0 <= col <= cols && Placed(board)
        invariant forall c :: 0 <= c < col ==> RefilledFrom(before[c], KindsColumn(board, c), gemColors)
        invariant forall r, c :: 0 <= r < rows && 0 <= c < col ==> board[r, c].Filled?
        invariant forall r, c :: 0 <= r < rows && col <= c < cols ==> board[r, c] == old(board[r, c])
      {
        ghost var mid := Columns(board);
        assert KindsColumn(board, col) == before[col];
        SettleColumn(col);
        forall c | 0 <= c < col
          ensures RefilledFrom(before[c], KindsColumn(board, c), gemColors)
        {
          assert KindsColumn(board, c) == mid[c];
        }
        col := col + 1;
      }
      ColumnsOfKinds(board);
      RefilledByColumns(g, before, Grid(), Columns(board), gemColors);
    }

    /**
     * Gravity and refill, then a re-scan; when the re-scan finds a match its
     * cells are vacated and the whole fill runs again (at most `fuel` times).
     * The first fill takes the board to boards[0]; from there the rounds
     * form a cascade, each removing the matches of the board before it.
     * `settled` reports that the last re-scan found nothing.
     */
    method FillBoard(fuel: nat) returns (settled: bool, ghost rounds: seq<set<Cell>>, ghost boards: seq<Board>)
      requires Sound()
      modifies board, rng
      ensures Valid()
      ensures |boards| >= 1 && Refilled(old(Grid()), {}, boards[0], gemColors)
      ensures CascadeFrom(boards, rounds, boards[0], Grid(), gemColors)
      ensures forall i :: 0 <= i < |rounds| ==> rounds[i] != {}
      ensures settled <==> MatchCells(Grid()) == {}
      ensures !settled ==> |rounds| == fuel
      decreases fuel, 0
    {
      FillColumns();
      ghost var filled := Grid();
      var newMatches := FindAllMatches();
      if newMatches != {} && fuel > 0 {
        WindowCellsInBounds(filled, true);
        ghost var rest, later;
        settled, rest, later := Eliminate(multiset(newMatches), fuel - 1);
        assert SetOf(multiset(newMatches)) == newMatches;
        rounds, boards := [newMatches] + rest, [filled] + later;
        CascadeCons(filled, later[0], later, rest, Grid(), gemColors, boards, rounds);
      } else {
        settled := newMatches == {};
        rounds, boards := [], [filled];
        CascadeStart(filled, gemColors);
      }
    }

    /**
     * Vacates the listed cells, then lets the board fall, refill and cascade:
     * the first round removes the listed cells, the rest are the cascade.
     */
    method Eliminate(matches: multiset<Cell>, fuel: nat) returns (settled: bool, ghost rounds: seq<set<Cell>>, ghost boards: seq<Board>)
      requires Valid() && forall p :: p in matches ==> 0 <= p.0 < rows && 0 <= p.1 < cols
      modifies board, rng
      ensures Valid()
      ensures |boards| >= 1 && Refilled(old(Grid()), SetOf(matches), boards[0], gemColors)
      ensures CascadeFrom(boards, rounds, boards[0], Grid(), gemColors)
      ensures forall i :: 0 <= i < |rounds| ==> rounds[i] != {}
      ensures settled <==> MatchCells(Grid()) == {}
      ensures !settled ==> |rounds| == fuel
      decreases fuel, 1
    {
      ghost var before := Grid();
      EliminateMatches(matches);
      settled, rounds, boards := FillBoard(fuel);
      RefilledCleared(before, SetOf(matches), boards[0], gemColors);
    }

    /**
     * Swaps the gems of p and q and checks the run matches through the two
     * cells.  With a match, the listed cells are vacated and the board falls,
     * refills and cascades; without one, both gems are put back.  The
     * selection is cleared either way.
     */
    method TrySwap(p: Cell, q: Cell, fuel: nat) returns (accepted: bool, settled: bool, ghost rounds: seq<set<Cell>>, ghost boards: seq<Board>)
      requires Valid() && 0 <= p.0 < rows && 0 <= p.1 < cols && 0 <= q.0 < rows && 0 <= q.1 < cols && p != q
      modifies this`isProcessing, this`selected, board, rng
      ensures Valid() && selected == None && !isProcessing
      ensures accepted <==>
        RunMatchesAt(Swapped(old(Grid()), p, q), q.0, q.1) + RunMatchesAt(Swapped(old(Grid()), p, q), p.0, p.1) != {}
      ensures old(MatchCells(Grid())) == {} ==> (accepted <==> MatchCells(Swapped(old(Grid()), p, q)) != {})
      ensures !accepted ==> forall r, c :: 0 <= r < rows && 0 <= c < cols ==> board[r, c] == old(board[r, c])
      ensures accepted ==> (settled <==> MatchCells(Grid()) == {})
      ensures accepted ==> Eliminated(Swapped(old(Grid()), p, q), p, q, rounds, boards, Grid(), gemColors)
    {
      ghost var start := Grid();
      isProcessing := true;
      Deselect();
      accepted, settled, rounds, boards := SwapAndCheck(p, q, fuel);
      isProcessing := false;
      if MatchCells(start) == {} {
        LocalCheckSuffices(start, p, q);
      }
    }

    /** Both branches of `trySwap` clear the selection; nothing reads it in between. */
    method Deselect()
      requires Valid()
      modifies this`selected
      ensures Valid() && selected == None
    {
      selected := None;
    }

    /** The body of `trySwap` between raising and lowering `isProcessing`. */
    method SwapAndCheck(p: Cell, q: Cell, fuel: nat) returns (accepted: bool, settled: bool, ghost rounds: seq<set<Cell>>, ghost boards: seq<Board>)
      requires Valid() && 0 <= p.0 < rows && 0 <= p.1 < cols && 0 <= q.0 < rows && 0 <= q.1 < cols && p != q
      modifies board, rng
      ensures Valid()
      ensures accepted <==>
        RunMatchesAt(Swapped(old(Grid()), p, q), q.0, q.1) + RunMatchesAt(Swapped(old(Grid()), p, q), p.0, p.1) != {}
      ensures !accepted ==> forall r, c :: 0 <= r < rows && 0 <= c < cols ==> board[r, c] == old(board[r, c])
      ensures accepted ==> (settled <==> MatchCells(Grid()) == {})
      ensures accepted ==> Eliminated(Swapped(old(Grid()), p, q), p, q, rounds, boards, Grid(), gemColors)
    {
      ghost var atP, atQ := board[p.0, p.1], board[q.0, q.1];
      SwapPieces(board, p, q);
      accepted, settled, rounds, boards := CheckSwap(p, q, atP, atQ, fuel);
    }

    /**
     * `trySwap` once the swap animation has finished, on the swapped board:
     * the run matches through the two cells are listed; with a match they
     * are vacated and the board falls, refills and cascades, without one the
     * gems `atP` and `atQ` go back to their cells p and q.
     */
    method CheckSwap(p: Cell, q: Cell, ghost atP: Slot, ghost atQ: Slot, fuel: nat)
      returns (accepted: bool, settled: bool, ghost rounds: seq<set<Cell>>, ghost boards: seq<Board>)
      requires Valid() && 0 <= p.0 < rows && 0 <= p.1 < cols && 0 <= q.0 < rows && 0 <= q.1 < cols && p != q
      requires PlacedAt(atP, p) && PlacedAt(atQ, q)
      requires board[p.0, p.1] == MovedTo(atQ, p) && board[q.0, q.1] == MovedTo(atP, q)
      modifies board, rng
      ensures Valid()
      ensures accepted <==> RunMatchesAt(old(Grid()), q.0, q.1) + RunMatchesAt(old(Grid()), p.0, p.1) != {}
      ensures !accepted ==> board[p.0, p.1] == atP && board[q.0, q.1] == atQ
      ensures !accepted ==> forall r, c :: 0 <= r < rows && 0 <= c < cols && (r, c) != p && (r, c) != q ==>
        board[r, c] == old(board[r, c])
      ensures accepted ==> (settled <==> MatchCells(Grid()) == {})
      ensures accepted ==> Eliminated(old(Grid()), p, q, rounds, boards, Grid(), gemColors)
    {
      ghost var swapped := Grid();
      var allMatches := CombinedMatches(Kinds(board), p, q);
      CombinedMatchesEmpty(swapped, p, q);
      if |allMatches| > 0 {
        accepted := true;
        settled, rounds, boards := Eliminate(allMatches, fuel);
        EliminatedAfterSwap(swapped, p, q, rounds, boards, Grid(), gemColors);
      } else {
        accepted := false;
        SwapBack(p, q, atP, atQ);
        settled, rounds, boards := false, [], [];
      }
    }

    /** Undoes a swap of the gems `atP` and `atQ` of cells p and q: both go back to their cells. */
    method SwapBack(p: Cell, q: Cell, ghost atP: Slot, ghost atQ: Slot)
      requires Valid() && 0 <= p.0 < rows && 0 <= p.1 < cols && 0 <= q.0 < rows && 0 <= q.1 < cols && p != q
      requires PlacedAt(atP, p) && PlacedAt(atQ, q)
      requires board[p.0, p.1] == MovedTo(atQ, p) && board[q.0, q.1] == MovedTo(atP, q)
      modifies board
      ensures Valid()
      ensures board[p.0, p.1] == atP && board[q.0, q.1] == atQ
      ensures forall r, c :: 0 <= r < rows && 0 <= c < cols && (r, c) != p && (r, c) != q ==> board[r, c] == old(board[r, c])
    {
      SwapPieces(board, p, q);
      MovedBack(atP, p, q);
      MovedBack(atQ, q, p);
    }

    /**
     * A touch that hit the gem in cell `touched` (None when it hit nothing):
     * ignored while a swap is processed; the first gem touched is selected;
     * touching the selected gem again deselects it; an adjacent gem is
     * swapped with it; any other gem becomes the selection.
     */
    method OnTouchStart(touched: Option<Cell>, fuel: nat)
      requires Valid()
      requires touched.Some? ==> 0 <= touched.value.0 < rows && 0 <= touched.value.1 < cols
      modifies this`isProcessing, this`selected, board, rng
      ensures Valid() && isProcessing == old(isProcessing)
      ensures old(isProcessing) || touched.None? ==> unchanged(board) && selected == old(selected)
      ensures !old(isProcessing) && touched.Some? ==>
        var t := touched.value;
        (old(selected) == None ==> selected == Some(t) && unchanged(board)) &&
        (old(selected) == Some(t) ==> selected == None && unchanged(board)) &&
        (old(selected).Some? && old(selected) != Some(t) && !Adjacent(old(selected).value, t) ==>
          selected == Some(t) && unchanged(board)) &&
        (old(selected).Some? && Adjacent(old(selected).value, t) ==> selected == None)
    {
      if isProcessing {
        return;
      }
      if touched.None? {
        return;
      }
      var gem := touched.value;
      if selected.None? {
        selected := Some(gem);
      } else if selected.value == gem {
        selected := None;
      } else if Adjacent(selected.value, gem) {
        var accepted, settled, rounds, boards := TrySwap(selected.value, gem, fuel);
      } else {
        selected := Some(gem);
      }
    }
  }
}

=== FILE: demo.dfy ===
/**
 * The demo web copy of the engine (demo/js/game.js): an 8 x 8 board whose
 * palette is the prefix of six colours a level configuration asks for.  It
 * differs from the mobile copy in four places: the initial repair has no pass
 * cap, match detection does not skip vacated cells, gravity pulls the nearest
 * survivor down into each vacated cell, and the refill runs row by row.
 */
module Demo {
  import opened Boards
  import opened Gravity
  import opened Matching
  import opened Repair
  import opened Cascades

  const BoardSize: nat := 8
  const PointsPerGem: int := 50
  const StartMoves: int := 30

  /** The full palette, in order. */
  const Colours: seq<string> := ["red", "blue", "green", "yellow", "purple", "orange"]

  /**
   * `xs.slice(0, end)` of JavaScript: a negative end counts back from the end
   * of the list, an end past it stops there, and a missing one takes it all.
   */
  function SlicePrefix(xs: seq<string>, end: Option<int>): (ys: seq<string>)
    ensures ys <= xs
    ensures end.None? ==> ys == xs
    ensures end.Some? && end.value >= |xs| ==> ys == xs
    ensures end.Some? && 0 <= end.value <= |xs| ==> |ys| == end.value
    ensures end.Some? && -|xs| <= end.value < 0 ==> |ys| == |xs| + end.value
    ensures end.Some? && end.value < -|xs| ==> ys == []
  {
    var k :=
      match end
      case None => |xs|
      case Some(e) => if e < -|xs| then 0 else if e < 0 then |xs| + e else if e < |xs| then e else |xs|;
    xs[..k]
  }

  /** What a successful level request delivers. */
  datatype LevelData = LevelData(id: int, moves: int, targetScore: int, gemColors: Option<int>)

  class DemoGame {
    var board: array2<int>
    var score: int
    var moves: int
    var level: int
    var goalScore: int
    var selected: Option<Cell>
    var isProcessing: bool
    /** The colours in play (`GEM_TYPES`); a gem kind is an index into it. */
    var gemTypes: seq<string>
    /** The random number generator behind `getRandomGemType`. */
    const rng: Random

    ghost function Grid(): Board
      reads this`board, board
    {
      Cells(board)
    }

    /** A selection, when there is one, is a cell of the board. */
    ghost predicate SelectionOnBoard()
      reads this
    {
      selected.Some? ==> 0 <= selected.value.0 < BoardSize && 0 <= selected.value.1 < BoardSize
    }

    /** The state between two handlers: a full 8 x 8 board and a selection on it. */
    ghost predicate Valid()
      reads this, board
    {
      board.Length0 == BoardSize && board.Length1 == BoardSize && NoVacancy(board) && SelectionOnBoard()
    }

    /** The game state before the level is loaded. */
    constructor (rng: Random)
      ensures this.rng == rng
      ensures score == 0 && moves == StartMoves && level == 1 && goalScore == 1000
      ensures selected == None && !isProcessing && gemTypes == Colours
    {
      this.rng := rng;
      board := new int[0, 0];
      score := 0;
      moves := StartMoves;
      level := 1;
      goalScore := 1000;
      selected := None;
      isProcessing := false;
      gemTypes := Colours;
    }

    /**
     * Applies a level request's outcome: on success the level's moves, goal
     * and id, and the first `gemColors` colours; on failure nothing changes.
     */
    method LoadLevelConfig(response: Option<LevelData>) returns (ok: bool)
      modifies this`moves, this`goalScore, this`level, this`gemTypes
      ensures ok <==> response.Some?
      ensures response.None? ==>
        moves == old(moves) && goalScore == old(goalScore) && level == old(level) && gemTypes == old(gemTypes)
      ensures response.Some? ==>
        var config := response.value;
        moves == config.moves && goalScore == config.targetScore && level == config.id &&
        gemTypes == SlicePrefix(Colours, config.gemColors)
    {
      if response.None? {
        return false;
      }
      var config := response.value;
      moves := config.moves;
      goalScore := config.targetScore;
      level := config.id;
      gemTypes := SlicePrefix(Colours, config.gemColors);
      ok := true;
    }

    /**
     * Loads the level, then deals a board.  `fuel` bounds the repair passes
     * the unbounded repair loop is allowed here.
     */
    method InitGame(response: Option<LevelData>, fuel: nat) returns (settled: bool)
      requires SelectionOnBoard()
      modifies this, rng
      ensures Valid() && fresh(board)
      ensures ArrayInPalette(board, |gemTypes|)
      ensures settled ==> MatchCells(Grid()) == {}
      ensures PaletteBound(|gemTypes|) == 1 ==> !settled
      ensures selected == old(selected) && score == old(score) && isProcessing == old(isProcessing)
      ensures response.None? ==>
        moves == old(moves) && goalScore == old(goalScore) && level == old(level) && gemTypes == old(gemTypes)
      ensures response.Some? ==>
        var config := response.value;
        moves == config.moves && goalScore == config.targetScore && level == config.id &&
        gemTypes == SlicePrefix(Colours, config.gemColors)
    {
      var ok := LoadLevelConfig(response);
      var passes;
      board, passes, settled := CreateBoard(fuel);
    }

    /** A fresh board of random kinds, repaired so that it starts without a triple. */
    method CreateBoard(fuel: nat) returns (a: array2<int>, passes: nat, settled: bool)
      modifies rng
      ensures fresh(a) && a.Length0 == BoardSize && a.Length1 == BoardSize
      ensures ArrayInPalette(a, |gemTypes|) && NoVacancy(a)
      ensures passes <= fuel && (!settled ==> passes == fuel)
      ensures settled ==> NoWindow(Cells(a), false) && MatchCells(Cells(a)) == {}
      ensures PaletteBound(|gemTypes|) == 1 ==> !settled
    {
      a := new int[BoardSize, BoardSize];
      var row := 0;
      while row < BoardSize
        invariant 0 <= row <= BoardSize
        invariant forall r, c :: 0 <= r < row && 0 <= c < BoardSize ==> InPalette(a[r, c], |gemTypes|)
      {
        var col := 0;
        while col < BoardSize
          invariant 0 <= col <= BoardSize
          invariant forall r, c :: 0 <= r < BoardSize && 0 <= c < BoardSize && RowMajorBefore(r, c, row, col) ==>
            InPalette(a[r, c], |gemTypes|)
        {
          a[row, col] := rng.Draw(|gemTypes|);
          col := col + 1;
        }
        row := row + 1;
      }
      passes, settled := RemoveInitialMatches(a, fuel);
      if settled {
        ghost var g := Cells(a);
        RawScanAgreesOnFullBoards(g);
        NoWindowIffNoCells(g, false);
      }
    }

    /**
     * Repairs a fresh board in passes until one changes nothing.  The source
     * loop has no cap; here at most `fuel` passes run.  If the loop stops on
     * its own, no window of three equal kinds is left; with a palette of a
     * single kind it never stops, however much fuel it is given.
     */
    method RemoveInitialMatches(a: array2<int>, fuel: nat) returns (passes: nat, settled: bool)
      requires a.Length0 == BoardSize && a.Length1 == BoardSize
      requires ArrayInPalette(a, |gemTypes|)
      modifies a, rng
      ensures ArrayInPalette(a, |gemTypes|)
      ensures passes <= fuel && (!settled ==> passes == fuel)
      ensures settled ==> NoWindow(Cells(a), false)
      ensures PaletteBound(|gemTypes|) == 1 ==> !settled
    {
      var hasMatches := true;
      passes := 0;
      while hasMatches && passes < fuel
        invariant passes <= fuel
        invariant ArrayInPalette(a, |gemTypes|)
        invariant !hasMatches ==> NoWindow(Cells(a), false)
        decreases fuel - passes
      {
        hasMatches := RepairPass(a, rng, |gemTypes|);
        passes := passes + 1;
      }
      settled := !hasMatches;
      if PaletteBound(|gemTypes|) == 1 {
        OneKindNeverSettles(a, |gemTypes|);
      }
    }

    /**
     * Every cell of a window of three equal kinds, each once.  Vacated cells
     * are not skipped, which makes no difference on a full board.
     */
    method FindMatches() returns (matches: set<Cell>)
      requires board.Length0 == BoardSize && board.Length1 == BoardSize
      ensures matches == WindowCells(Grid(), false)
      ensures NoVacancy(board) ==> matches == MatchCells(Grid())
    {
      matches := ScanWindows(board, false);
      if NoVacancy(board) {
        NoVacancyIsFull(board);
        RawScanAgreesOnFullBoards(Grid());
      }
    }

    /**
     * Gravity on column `col`: scanning bottom-up, each vacated cell takes the
     * nearest survivor above it, which leaves a vacated cell behind.
     */
    method PullDownColumn(col: int)
      requires board.Length0 == BoardSize && board.Length1 == BoardSize && 0 <= col < BoardSize
      modifies board
      ensures forall r :: 0 <= r < BoardSize ==> board[r, col] == Compacted(old(ColumnOf(Grid(), col)))[r]
      ensures forall r, c :: 0 <= r < BoardSize && 0 <= c < BoardSize && c != col ==> board[r, c] == old(board[r, c])
    {
      ghost var s := ColumnOf(Grid(), col);
      ghost var cur := s;
      var row := BoardSize - 1;
      while row >= 0
        invariant -1 <= row < BoardSize && |cur| == BoardSize
        invariant forall r :: 0 <= r < BoardSize ==> board[r, col] == cur[r]
        invariant forall r, c :: 0 <= r < BoardSize && 0 <= c < BoardSize && c != col ==> board[r, c] == old(board[r, c])
        invariant SettledBelow(cur, row)
        invariant Kept(cur) == Kept(s)
      {
        if board[row, col] == Empty {
          ghost var pulled := false;
          var r := row - 1;
          while r >= 0
            invariant -1 <= r < row
            invariant forall k :: r < k < row ==> cur[k] == Empty
          {
            if board[r, col] != Empty {
              board[row, col] := board[r, col];
              board[r, col] := Empty;
              SettlePulled(cur, r, row);
              cur := cur[row := cur[r]][r := Empty];
              pulled := true;
              break;
            }
            r := r - 1;
          }
          if !pulled {
            SettleVacancy(cur, row);
          }
        } else {
          SettleSurvivor(cur, row);
        }
        row := row - 1;
      }
      SettledIsCompacted(cur, s);
    }

    /** Puts a random kind into every vacated cell, row by row. */
    method Refill()
      requires board.Length0 == BoardSize && board.Length1 == BoardSize
      modifies board, rng
      ensures forall r, c :: 0 <= r < BoardSize && 0 <= c < BoardSize ==>
        if old(board[r, c]) == Empty then InPalette(board[r, c], |gemTypes|) else board[r, c] == old(board[r, c])
    {
      var row := 0;
      while row < BoardSize
        invariant 0 <= row <= BoardSize
        invariant forall r, c :: 0 <= r < BoardSize && 0 <= c < BoardSize ==>
          if r < row && old(board[r, c]) == Empty then InPalette(board[r, c], |gemTypes|) else board[r, c] == old(board[r, c])
      {
        var col := 0;
        while col < BoardSize
          invariant 0 <= col <= BoardSize
          invariant forall r, c :: 0 <= r < BoardSize && 0 <= c < BoardSize ==>
            if RowMajorBefore(r, c, row, col) && old(board[r, c]) == Empty then InPalette(board[r, c], |gemTypes|)
            else board[r, c] == old(board[r, c])
        {
          if board[row, col] == Empty {
            board[row, col] := rng.Draw(|gemTypes|);
          }
          col := col + 1;
        }
        row := row + 1;
      }
    }

    /**
     * Gravity on every column, then a refill: afterwards each column holds its
     * survivors packed at the bottom in their old order under fresh kinds, and
     * no cell is vacated.
     */
    method FillBoard()
      requires board.Length0 == BoardSize && board.Length1 == BoardSize
      modifies board, rng
      ensures forall c :: 0 <= c < BoardSize ==>
        RefilledFrom(ColumnOf(old(Grid()), c), ColumnOf(Grid(), c), |gemTypes|)
      ensures NoVacancy(board)
    {
      ghost var g0 := Grid();
      var col := 0;
      while col < BoardSize
        invariant 0 <= col <= BoardSize
        invariant forall r, c :: 0 <= r < BoardSize && 0 <= c < col ==> board[r, c] == Compacted(ColumnOf(g0, c))[r]
        invariant forall r, c :: 0 <= r < BoardSize && col <= c < BoardSize ==> board[r, c] == g0[r][c]
      {
        assert ColumnOf(Grid(), col) == ColumnOf(g0, col);
        PullDownColumn(col);
        col := col + 1;
      }
      ghost var g1 := Grid();
      Refill();
      forall c | 0 <= c < BoardSize
        ensures RefilledFrom(ColumnOf(g0, c), ColumnOf(Grid(), c), |gemTypes|)
        ensures forall r :: 0 <= r < BoardSize ==> board[r, c] != Empty
      {
        var s := ColumnOf(g0, c);
        CompactedShape(s);
        forall r | 0 <= r < BoardSize
          ensures Compacted(s)[r] == g1[r][c]
        {
        }
      }
    }

    /**
     * One round of a cascade: the matched cells score 50 points each and are
     * vacated, the board falls and refills, and is scanned again.
     */
    method CascadeStep(matches: set<Cell>) returns (next: set<Cell>)
      requires Valid()
      requires forall p :: p in matches ==> 0 <= p.0 < BoardSize && 0 <= p.1 < BoardSize
      modifies board, this`score, rng
      ensures Valid()
      ensures score == old(score) + PointsPerGem * |matches|
      ensures Refilled(old(Grid()), matches, Grid(), |gemTypes|)
      ensures next == MatchCells(Grid())
    {
      ghost var before := Grid();
      score := score + PointsPerGem * |matches|;
      Vacate(board, matches);
      FillBoard();
      assert Refilled(before, matches, Grid(), |gemTypes|);
      next := FindMatches();
    }

    /**
     * A cascade: one round of removal, fall and refill, then the cascade
     * again on the re-scan's matches when there are any.  `fuel` bounds the
     * depth of that recursion; `rounds`
     * lists the match set removed in each round and `boards` the board
     * before each round and after the last.  The cascade ends
     * (`isProcessing` cleared) exactly when a re-scan finds no match.
     */
    method ProcessMatches(matches: set<Cell>, fuel: nat) returns (rounds: seq<set<Cell>>, ghost boards: seq<Board>)
      requires Valid() && isProcessing
      requires matches == MatchCells(Grid()) && matches != {}
      modifies board, this`score, this`isProcessing, rng
      ensures Valid()
      ensures |rounds| >= 1 && rounds[0] == matches
      ensures forall i :: 0 <= i < |rounds| ==> rounds[i] != {}
      ensures CascadeFrom(boards, rounds, old(Grid()), Grid(), |gemTypes|)
      ensures score == old(score) + PointsPerGem * Removed(rounds)
      ensures isProcessing <==> MatchCells(Grid()) != {}
      ensures isProcessing ==> |rounds| == fuel + 1
      decreases fuel
    {
      WindowCellsInBounds(Grid(), true);
      ghost var start := Grid();
      var next := CascadeStep(matches);
      if next != {} && fuel > 0 {
        var rest;
        ghost var later;
        rest, later := ProcessMatches(next, fuel - 1);
        rounds, boards := [matches] + rest, [start] + later;
        CascadeCons(start, later[0], later, rest, Grid(), |gemTypes|, boards, rounds);
      } else {
        rounds, boards := [matches], [start, Grid()];
        CascadeSingle(start, Grid(), |gemTypes|, boards, rounds);
        if next == {} {
          isProcessing := false;
        }
      }
    }

    /** Exchanges two gems; the board stays full. */
    method SwapCells(p: Cell, q: Cell)
      requires Valid() && InBounds(Grid(), p) && InBounds(Grid(), q)
      modifies board
      ensures Valid() && Grid() == Swapped(old(Grid()), p, q)
    {
      Exchange(board, p, q);
    }

    /**
     * A trial swap of two cells: the cells are exchanged and the move is
     * processing until `SettleSwap` keeps it, at the cost of one move and
     * followed by a cascade, when the swapped board has a match, or undoes it
     * otherwise.
     */
    method SwapGems(p: Cell, q: Cell, fuel: nat) returns (accepted: bool, rounds: seq<set<Cell>>, ghost boards: seq<Board>)
      requires Valid() && InBounds(Grid(), p) && InBounds(Grid(), q)
      modifies board, this`score, this`moves, this`isProcessing, rng
      ensures Valid()
      ensures accepted <==> MatchCells(Swapped(old(Grid()), p, q)) != {}
      ensures !accepted ==> Grid() == old(Grid()) && moves == old(moves) && rounds == [] && !isProcessing
      ensures accepted ==> moves == old(moves) - 1 && |rounds| >= 1 && rounds[0] == MatchCells(Swapped(old(Grid()), p, q))
      ensures accepted ==> CascadeFrom(boards, rounds, Swapped(old(Grid()), p, q), Grid(), |gemTypes|)
      ensures score == old(score) + PointsPerGem * Removed(rounds)
      ensures accepted ==> (isProcessing <==> MatchCells(Grid()) != {}) && (isProcessing ==> |rounds| == fuel + 1)
    {
      ghost var start := Grid();
      isProcessing := true;
      SwapCells(p, q);
      accepted, rounds, boards := SettleSwap(p, q, fuel);
      if !accepted {
        SwapTwice(start, p, q);
      }
    }

    /**
     * The delayed half of a swap, run on the swapped board: a match costs
     * one move and starts the cascade; no match swaps the two cells back and
     * ends the processing.
     */
    method SettleSwap(p: Cell, q: Cell, fuel: nat) returns (accepted: bool, rounds: seq<set<Cell>>, ghost boards: seq<Board>)
      requires Valid() && isProcessing && InBounds(Grid(), p) && InBounds(Grid(), q)
      modifies board, this`score, this`moves, this`isProcessing, rng
      ensures Valid()
      ensures accepted <==> MatchCells(old(Grid())) != {}
      ensures !accepted ==> Grid() == Swapped(old(Grid()), p, q) && moves == old(moves) && rounds == [] && !isProcessing
      ensures accepted ==> moves == old(moves) - 1 && |rounds| >= 1 && rounds[0] == MatchCells(old(Grid()))
      ensures accepted ==> CascadeFrom(boards, rounds, old(Grid()), Grid(), |gemTypes|)
      ensures score == old(score) + PointsPerGem * Removed(rounds)
      ensures accepted ==> (isProcessing <==> MatchCells(Grid()) != {}) && (isProcessing ==> |rounds| == fuel + 1)
    {
      var matches := FindMatches();
      if matches != {} {
        accepted := true;
        moves := moves - 1;
        rounds, boards := ProcessMatches(matches, fuel);
      } else {
        accepted := false;
        SwapCells(p, q);
        isProcessing := false;
        rounds := [];
        boards := [];
      }
    }

    /**
     * A click on cell (row, col): ignored while a move is being processed;
     * the first click selects the cell and the second swaps it with the
     * selection when the two are adjacent, and clears the selection in any case.
     */
    method SelectGem(row: int, col: int, fuel: nat) returns (ghost rounds: seq<set<Cell>>, ghost boards: seq<Board>)
      requires Valid() && 0 <= row < BoardSize && 0 <= col < BoardSize
      modifies this`selected, board, this`score, this`moves, this`isProcessing, rng
      ensures Valid()
      ensures old(isProcessing) ==>
        unchanged(board) && selected == old(selected) && moves == old(moves) && score == old(score) &&
        isProcessing == old(isProcessing)
      ensures !old(isProcessing) && old(selected) == None ==>
        selected == Some((row, col)) && unchanged(board) && moves == old(moves) && score == old(score) &&
        isProcessing == old(isProcessing)
      ensures !old(isProcessing) && old(selected).Some? ==> selected == None
      ensures !old(isProcessing) && old(selected).Some? && !Adjacent(old(selected).value, (row, col)) ==>
        unchanged(board) && moves == old(moves) && score == old(score) && isProcessing == old(isProcessing)
      ensures !old(isProcessing) && old(selected).Some? && Adjacent(old(selected).value, (row, col)) ==>
        var swapped := Swapped(old(Grid()), old(selected).value, (row, col));
        if MatchCells(swapped) == {} then
          Grid() == old(Grid()) && moves == old(moves) && score == old(score) && !isProcessing
        else
          moves == old(moves) - 1 && |rounds| >= 1 && CascadeFrom(boards, rounds, swapped, Grid(), |gemTypes|) &&
          score == old(score) + PointsPerGem * Removed(rounds) &&
          (isProcessing <==> MatchCells(Grid()) != {}) && (isProcessing ==> |rounds| == fuel + 1)
    {
      rounds, boards := [], [];
      if isProcessing {
        return;
      }
      if selected.None? {
        selected := Some((row, col));
      } else {
        if Adjacent(selected.value, (row, col)) {
          var accepted;
          accepted, rounds, boards := SwapGems(selected.value, (row, col), fuel);
        }
        selected := None;
      }
    }
  }
}

=== FILE: gravity.dfy ===
/**
 * Gravity on one column, read top (row 0) to bottom: the surviving gems fall to
 * the bottom keeping their order and the vacated cells collect at the top.
 * Every copy of the engine compacts its columns this way (each with its own
 * loop); the copies that refill then put a fresh kind into each vacated cell.
 */
module Gravity {
  import opened Boards

  /** The surviving (non-vacated) kinds of a column, top to bottom. */
  function Kept(s: seq<int>): (k: seq<int>)
    ensures |k| <= |s|
    ensures forall i :: 0 <= i < |k| ==> k[i] != Empty
  {
    if s == [] then [] else (if s[0] == Empty then [] else [s[0]]) + Kept(s[1..])
  }

  /** n vacated cells. */
  function Vacancies(n: nat): (v: seq<int>)
    ensures |v| == n && forall i :: 0 <= i < n ==> v[i] == Empty
  {
    seq(n, _ => Empty)
  }

  /** The number of vacated cells of a column. */
  function Vacated(s: seq<int>): nat {
    |s| - |Kept(s)|
  }

  /** The column after gravity: vacancies on top, the survivors in order below. */
  function Compacted(s: seq<int>): (t: seq<int>)
    ensures |t| == |s|
  {
    Vacancies(Vacated(s)) + Kept(s)
  }

  /** No survivor sits above a vacated cell. */
  predicate IsPacked(s: seq<int>) {
    forall i, j :: 0 <= i < j < |s| && s[i] != Empty ==> s[j] != Empty
  }

  lemma {:induction false} KeptAppend(a: seq<int>, b: seq<int>)
    ensures Kept(a + b) == Kept(a) + Kept(b)
    decreases |a|
  {
    if a == [] {
      assert a + b == b;
    } else {
      assert (a + b)[1..] == a[1..] + b;
      KeptAppend(a[1..], b);
    }
  }

  lemma {:induction false} KeptOfVacancies(n: nat)
    ensures Kept(Vacancies(n)) == []
  {
    if n > 0 {
      assert Vacancies(n)[1..] == Vacancies(n - 1);
      KeptOfVacancies(n - 1);
    }
  }

  /** A column without vacated cells is its own list of survivors. */
  lemma {:induction false} KeptOfFull(s: seq<int>)
    requires forall i :: 0 <= i < |s| ==> s[i] != Empty
    ensures Kept(s) == s
  {
    if s != [] {
      KeptOfFull(s[1..]);
    }
  }

  /** The column after gravity has the same height, vacancies on top and survivors below. */
  lemma CompactedShape(s: seq<int>)
    ensures |Compacted(s)| == |s|
    ensures forall i :: 0 <= i < Vacated(s) ==> Compacted(s)[i] == Empty
    ensures forall i :: Vacated(s) <= i < |s| ==> Compacted(s)[i] == Kept(s)[i - Vacated(s)] != Empty
  {
  }

  /** Gravity keeps the survivors, their number and their top-to-bottom order. */
  lemma KeptOfCompacted(s: seq<int>)
    ensures Kept(Compacted(s)) == Kept(s)
    ensures Vacated(Compacted(s)) == Vacated(s)
  {
    KeptAppend(Vacancies(Vacated(s)), Kept(s));
    KeptOfVacancies(Vacated(s));
    KeptOfFull(Kept(s));
  }

  /** After gravity no survivor sits above a vacated cell. */
  lemma CompactedIsPacked(s: seq<int>)
    ensures IsPacked(Compacted(s))
  {
  }

  /** Gravity moves nothing in a column that is already packed. */
  lemma {:induction false} PackedIsFixpoint(s: seq<int>)
    requires IsPacked(s)
    ensures Compacted(s) == s
    decreases |s|
  {
    if s != [] {
      var t := s[1..];
      assert s == [s[0]] + t;
      PackedIsFixpoint(t);
      if s[0] == Empty {
        CompactedCons(s[0], t);
      } else {
        KeptOfFull(s);
        assert Vacancies(0) == [];
      }
    }
  }

  /** Applying gravity twice is the same as applying it once. */
  lemma CompactedIdempotent(s: seq<int>)
    ensures Compacted(Compacted(s)) == Compacted(s)
  {
    CompactedIsPacked(s);
    PackedIsFixpoint(Compacted(s));
  }

  lemma {:induction false} KeptMultiset(s: seq<int>)
    ensures multiset(s) == multiset(Kept(s)) + multiset(Vacancies(Vacated(s)))
    decreases |s|
  {
    if s != [] {
      var t := s[1..];
      KeptMultiset(t);
      assert s == [s[0]] + t;
      KeptCons(s[0], t);
      VacanciesCons(s[0], t);
      MultisetStep(s[0], t, Kept(t), Vacancies(Vacated(t)), Kept(s), Vacancies(Vacated(s)));
    }
  }

  /** The vacancies of a column with one more cell on top. */
  lemma VacanciesCons(x: int, t: seq<int>)
    ensures Vacancies(Vacated([x] + t)) == if x == Empty then [Empty] + Vacancies(Vacated(t)) else Vacancies(Vacated(t))
  {
    KeptCons(x, t);
    var v := Vacated(t);
    if x == Empty {
      assert Vacated([x] + t) == v + 1;
      assert Vacancies(v + 1) == [Empty] + Vacancies(v);
    } else {
      assert Vacated([x] + t) == v;
    }
  }

  /** Putting x on top of a column adds x to either its survivors or its vacancies. */
  lemma MultisetStep(x: int, t: seq<int>, kt: seq<int>, vt: seq<int>, ks: seq<int>, vs: seq<int>)
    requires multiset(t) == multiset(kt) + multiset(vt)
    requires x == Empty ==> ks == kt && vs == [x] + vt
    requires x != Empty ==> ks == [x] + kt && vs == vt
    ensures multiset([x] + t) == multiset(ks) + multiset(vs)
  {
  }

  /** Gravity is a permutation of the column: no kind is created or lost. */
  lemma CompactedMultiset(s: seq<int>)
    ensures multiset(Compacted(s)) == multiset(s)
  {
    KeptMultiset(s);
  }

  /** The survivors of a column with one more cell on top. */
  lemma KeptCons(x: int, s: seq<int>)
    ensures Kept([x] + s) == if x == Empty then Kept(s) else [x] + Kept(s)
  {
    assert ([x] + s)[1..] == s;
  }

  /**
   * One step of the bottom-up scans that carry a count of the vacated cells
   * seen so far: a vacated head joins the vacancies, a survivor lands just
   * above the survivors found below it.
   */
  lemma CompactedCons(x: int, s: seq<int>)
    ensures Compacted([x] + s) ==
      if x == Empty then [Empty] + Compacted(s) else Vacancies(Vacated(s)) + ([x] + Kept(s))
  {
    KeptCons(x, s);
    if x == Empty {
      VacancyCons(s);
    } else {
      assert Vacated([x] + s) == Vacated(s);
    }
  }

  /** A vacated cell on top of a column adds one vacancy to its compacted form. */
  lemma VacancyCons(s: seq<int>)
    requires Kept([Empty] + s) == Kept(s)
    ensures Compacted([Empty] + s) == [Empty] + Compacted(s)
  {
    var v := Vacated(s);
    assert Vacated([Empty] + s) == v + 1;
    assert Vacancies(v + 1) == [Empty] + Vacancies(v);
  }

  /**
   * `after` is `before` with gravity applied and every vacated cell then
   * refilled with a kind of the palette.
   */
  predicate RefilledFrom(before: seq<int>, after: seq<int>, n: nat) {
    var settled := Compacted(before);
    |after| == |settled| &&
    forall i :: 0 <= i < |settled| ==>
      if settled[i] == Empty then InPalette(after[i], n) else after[i] == settled[i]
  }

  /**
   * Refilling every vacated cell of a compacted column of palette kinds with
   * palette kinds leaves palette kinds only.
   */
  lemma RefillColumn(before: seq<int>, after: seq<int>, n: nat)
    requires forall i :: 0 <= i < |before| ==> before[i] == Empty || InPalette(before[i], n)
    requires |after| == |before|
    requires forall i :: 0 <= i < |after| ==>
      if Compacted(before)[i] == Empty then InPalette(after[i], n) else after[i] == Compacted(before)[i]
    ensures RefilledFrom(before, after, n)
    ensures forall i :: 0 <= i < |after| ==> InPalette(after[i], n)
  {
    var settled := Compacted(before);
    CompactedShape(before);
    CompactedMultiset(before);
    forall i | 0 <= i < |after|
      ensures InPalette(after[i], n)
    {
      if settled[i] != Empty {
        assert settled[i] in multiset(before);
      }
    }
  }

  /**
   * After a refill the survivors sit packed at the bottom in their old order,
   * exactly the vacated rows on top hold freshly drawn kinds, and no cell is vacated.
   */
  lemma RefillShape(before: seq<int>, after: seq<int>, n: nat)
    requires RefilledFrom(before, after, n)
    ensures |after| == |before|
    ensures after[Vacated(before)..] == Kept(before)
    ensures forall i :: 0 <= i < Vacated(before) ==> InPalette(after[i], n)
    ensures forall i :: 0 <= i < |after| ==> after[i] != Empty
  {
    var settled, v, k := Compacted(before), Vacated(before), Kept(before);
    CompactedShape(before);
    assert |after[v..]| == |k|;
    forall i | 0 <= i < |k|
      ensures after[v..][i] == k[i]
    {
      assert settled[v + i] == k[i] != Empty;
    }
  }

  /** Moving the head of `[x] + Vacancies(v) + k` down v places gives `Vacancies(v) + [x] + k`. */
  lemma MoveDown(cur: seq<int>, row: int, v: nat, k: seq<int>)
    requires 0 <= row && 0 < v && row + v < |cur|
    requires cur[row + 1..] == Vacancies(v) + k
    ensures cur[row + v := cur[row]][row := Empty][..row] == cur[..row]
    ensures cur[row + v := cur[row]][row := Empty][row..] == Vacancies(v) + ([cur[row]] + k)
  {
    var moved := cur[row + v := cur[row]][row := Empty];
    var want := Vacancies(v) + ([cur[row]] + k);
    assert |moved[row..]| == |want|;
    forall i | 0 <= i < |want|
      ensures moved[row..][i] == want[i]
    {
      if 0 < i < v || v < i {
        assert moved[row + i] == cur[row + 1..][i - 1];
      }
    }
  }

  /**
   * The invariant of the bottom-up scans: column `cur` agrees with the
   * original column s down to `row` and holds the compacted part below it.
   */
  ghost predicate CompactedBelow(s: seq<int>, cur: seq<int>, row: int) {
    -1 <= row < |s| == |cur| && cur[..row + 1] == s[..row + 1] && cur[row + 1..] == Compacted(s[row + 1..])
  }

  /** The column after the survivor at `row`, if any, has fallen v rows (nothing moves when v == 0). */
  function Fallen(cur: seq<int>, row: nat, v: nat): (next: seq<int>)
    requires row + v < |cur|
    ensures |next| == |cur|
  {
    if cur[row] != Empty && v > 0 then cur[row + v := cur[row]][row := Empty] else cur
  }

  /**
   * One step of the bottom-up scans that keep a count v of the vacated cells
   * below `row` (the mobile copy's `emptySpaces`, the 3D copy's `emptyRow`
   * pointer): when the part below `row` is already compacted, leaving a
   * vacated cell alone, leaving a survivor with v == 0 alone, or moving a
   * survivor down v rows, compacts the part from `row` on.
   */
  lemma CounterStep(s: seq<int>, cur: seq<int>, row: int)
    requires 0 <= row && CompactedBelow(s, cur, row)
    ensures Vacated(s[row..]) == Vacated(s[row + 1..]) + (if s[row] == Empty then 1 else 0)
    ensures row + Vacated(s[row + 1..]) < |s| && cur[row] == s[row]
    ensures CompactedBelow(s, Fallen(cur, row, Vacated(s[row + 1..])), row - 1)
  {
    var t := s[row + 1..];
    var v := Vacated(t);
    var x := s[row];
    CounterSlices(s, cur, row);
    VacatedCons(x, t);
    CompactedCons(x, t);
    var next := Fallen(cur, row, v);
    if x != Empty && v > 0 {
      MoveDown(cur, row, v, Kept(t));
      assert next[..row] == s[..row];
      assert next[row..] == Compacted(s[row..]);
    } else {
      assert next == cur;
      if x == Empty {
        assert cur[row..] == [x] + Compacted(t);
      } else {
        assert Vacancies(v) == [];
        assert cur[row..] == [x] + Kept(t);
      }
      assert next[row..] == Compacted(s[row..]);
    }
  }

  /** The cuts of two columns that agree down to `row`. */
  lemma CounterSlices(s: seq<int>, cur: seq<int>, row: int)
    requires 0 <= row < |s| == |cur|
    requires cur[..row + 1] == s[..row + 1]
    ensures cur[row] == s[row] && cur[..row] == s[..row]
    ensures s[row..] == [s[row]] + s[row + 1..] && cur[row..] == [cur[row]] + cur[row + 1..]
  {
    assert cur[..row] == cur[..row + 1][..row];
  }

  /** The vacated cells of a column with one more cell on top. */
  lemma VacatedCons(x: int, t: seq<int>)
    ensures Vacated([x] + t) == Vacated(t) + (if x == Empty then 1 else 0)
    ensures Vacated(t) <= |t|
  {
    KeptCons(x, t);
  }

  /**
   * The part of a column below `row` is settled: a vacated cell there has
   * only vacated cells above it.
   */
  predicate SettledBelow(cur: seq<int>, row: int) {
    forall i, j :: 0 <= j < i < |cur| && row < i && cur[i] == Empty ==> cur[j] == Empty
  }

  /** A survivor at `row` extends the settled part by one row. */
  lemma SettleSurvivor(cur: seq<int>, row: int)
    requires 0 <= row < |cur| && SettledBelow(cur, row) && cur[row] != Empty
    ensures SettledBelow(cur, row - 1)
  {
  }

  /** A vacated cell at `row` with nothing but vacated cells above extends the settled part. */
  lemma SettleVacancy(cur: seq<int>, row: int)
    requires 0 <= row < |cur| && SettledBelow(cur, row) && cur[row] == Empty
    requires forall j :: 0 <= j < row ==> cur[j] == Empty
    ensures SettledBelow(cur, row - 1)
  {
  }

  /**
   * The pull-down step of the demo and 2D copies: the nearest survivor above
   * a vacated cell, at r, moves into it.  The survivors keep their order and
   * the settled part grows by one row.
   */
  lemma SettlePulled(cur: seq<int>, r: int, row: int)
    requires 0 <= r < row < |cur| && SettledBelow(cur, row)
    requires cur[r] != Empty && cur[row] == Empty
    requires forall k :: r < k < row ==> cur[k] == Empty
    ensures SettledBelow(cur[row := cur[r]][r := Empty], row - 1)
    ensures Kept(cur[row := cur[r]][r := Empty]) == Kept(cur)
  {
    PulledSurvivors(cur, r, row);
  }

  lemma PulledSurvivors(cur: seq<int>, r: int, row: int)
    requires 0 <= r < row < |cur|
    requires cur[r] != Empty && cur[row] == Empty
    requires forall k :: r < k < row ==> cur[k] == Empty
    ensures Kept(cur[row := cur[r]][r := Empty]) == Kept(cur)
  {
    var x := cur[r];
    var moved := cur[row := x][r := Empty];
    var above, middle, below := cur[..r], cur[r + 1..row], cur[row + 1..];
    Around(cur, r, row);
    assert moved[..r] == above && moved[r + 1..row] == middle && moved[row + 1..] == below;
    Around(moved, r, row);
    assert middle == Vacancies(|middle|);
    KeptOfVacancies(|middle|);
    PulledKept(above, x, middle, below);
  }

  /** A sequence cut at two positions r < row. */
  lemma Around(s: seq<int>, r: int, row: int)
    requires 0 <= r < row < |s|
    ensures s == s[..r] + ([s[r]] + (s[r + 1..row] + ([s[row]] + s[row + 1..])))
  {
  }

  /** Moving a survivor down past vacated cells keeps the survivors. */
  lemma PulledKept(a: seq<int>, x: int, m: seq<int>, b: seq<int>)
    requires x != Empty && Kept(m) == []
    ensures Kept(a + ([Empty] + (m + ([x] + b)))) == Kept(a + ([x] + (m + ([Empty] + b))))
  {
    KeptSandwich(a, x, m, Empty, b);
    KeptSandwich(a, Empty, m, x, b);
    assert Kept([x]) == [x] && Kept([Empty]) == [];
  }

  /** The survivors around a run of vacated cells. */
  lemma KeptSandwich(a: seq<int>, u: int, m: seq<int>, w: int, b: seq<int>)
    requires Kept(m) == []
    ensures Kept(a + ([u] + (m + ([w] + b)))) == Kept(a) + (Kept([u]) + (Kept([w]) + Kept(b)))
  {
    KeptAppend(a, [u] + (m + ([w] + b)));
    KeptAppend([u], m + ([w] + b));
    KeptAppend(m, [w] + b);
    KeptAppend([w], b);
  }

  /** A column settled all the way up, with the survivors of s in order, is s after gravity. */
  lemma SettledIsCompacted(cur: seq<int>, s: seq<int>)
    requires SettledBelow(cur, -1) && Kept(cur) == Kept(s) && |cur| == |s|
    ensures cur == Compacted(s)
  {
    assert IsPacked(cur);
    PackedIsFixpoint(cur);
  }
}

=== FILE: items.dfy ===
/**
 * The item inventory (`ItemManager`): a map from item type to an entry
 * holding a count.  Items are added and used one type at a time; using one
 * succeeds only while its count is positive.  The singleton accessor, the
 * display names and descriptions are not part of this model.
 */
module Items {

  datatype ItemType = ClearLine | UniversalGem | Shield | RuinKey | EnergyAmplifier | TimeHourglass

  /** An inventory entry: its type and how many the player holds. */
  datatype ItemData = ItemData(kind: ItemType, count: int)

  /**
   * The `inventory` map: its entries, and its keys in insertion order (the
   * order in which `values()` visits the entries).
   */
  datatype Inventory = Inventory(entries: map<ItemType, ItemData>, keys: seq<ItemType>)

  /** The keys list each entry once, and each entry is stored under its own type. */
  predicate WellFormed(inv: Inventory) {
    (forall t :: t in inv.entries <==> t in inv.keys) &&
    (forall i, j :: 0 <= i < j < |inv.keys| ==> inv.keys[i] != inv.keys[j]) &&
    (forall t :: t in inv.entries ==> inv.entries[t].kind == t)
  }

  /** `new Map()`. */
  const EmptyInventory := Inventory(map[], [])

  /** `inventory.set(t, data)`: a new key goes last, a key already present keeps its place. */
  function Put(inv: Inventory, t: ItemType, data: ItemData): Inventory {
    Inventory(inv.entries[t := data], if t in inv.entries then inv.keys else inv.keys + [t])
  }

  /** Storing an entry under its own type keeps the keys and the entries in step. */
  lemma PutWellFormed(inv: Inventory, t: ItemType, data: ItemData)
    requires WellFormed(inv) && data.kind == t
    ensures WellFormed(Put(inv, t, data))
  {
    var r := Put(inv, t, data);
    if t !in inv.entries {
      forall i, j | 0 <= i < j < |r.keys|
        ensures r.keys[i] != r.keys[j]
      {
        if j == |inv.keys| {
          assert r.keys[i] == inv.keys[i] && inv.keys[i] in inv.entries;
        }
      }
    }
  }

  /** The six types in the order `initItems` registers them. */
  const InitOrder: seq<ItemType> := [ClearLine, UniversalGem, Shield, RuinKey, EnergyAmplifier, TimeHourglass]

  /** The count `initItems` gives each type. */
  function InitialCount(t: ItemType): nat {
    match t
    case ClearLine => 3
    case UniversalGem => 2
    case Shield => 1
    case RuinKey => 0
    case EnergyAmplifier => 1
    case TimeHourglass => 0
  }

  /** The inventory after `initItems`: the six `set` calls, in order. */
  function Registered(inv: Inventory): Inventory {
    var one := Put(inv, ClearLine, ItemData(ClearLine, 3));
    var two := Put(one, UniversalGem, ItemData(UniversalGem, 2));
    var three := Put(two, Shield, ItemData(Shield, 1));
    var four := Put(three, RuinKey, ItemData(RuinKey, 0));
    var five := Put(four, EnergyAmplifier, ItemData(EnergyAmplifier, 1));
    Put(five, TimeHourglass, ItemData(TimeHourglass, 0))
  }

  /** `initItems` keeps the inventory well formed. */
  lemma RegisteredWellFormed(inv: Inventory)
    requires WellFormed(inv)
    ensures WellFormed(Registered(inv))
  {
    var one := Put(inv, ClearLine, ItemData(ClearLine, 3));
    PutWellFormed(inv, ClearLine, ItemData(ClearLine, 3));
    var two := Put(one, UniversalGem, ItemData(UniversalGem, 2));
    PutWellFormed(one, UniversalGem, ItemData(UniversalGem, 2));
    var three := Put(two, Shield, ItemData(Shield, 1));
    PutWellFormed(two, Shield, ItemData(Shield, 1));
    var four := Put(three, RuinKey, ItemData(RuinKey, 0));
    PutWellFormed(three, RuinKey, ItemData(RuinKey, 0));
    var five := Put(four, EnergyAmplifier, ItemData(EnergyAmplifier, 1));
    PutWellFormed(four, EnergyAmplifier, ItemData(EnergyAmplifier, 1));
    PutWellFormed(five, TimeHourglass, ItemData(TimeHourglass, 0));
  }

  /** After `initItems` every type has an entry of its own type holding its starting count. */
  lemma RegisteredCounts(inv: Inventory)
    ensures forall t :: t in Registered(inv).entries && Registered(inv).entries[t] == ItemData(t, InitialCount(t))
  {
    var r := Registered(inv);
    assert r.entries == inv.entries[ClearLine := ItemData(ClearLine, 3)][UniversalGem := ItemData(UniversalGem, 2)]
      [Shield := ItemData(Shield, 1)][RuinKey := ItemData(RuinKey, 0)]
      [EnergyAmplifier := ItemData(EnergyAmplifier, 1)][TimeHourglass := ItemData(TimeHourglass, 0)];
    forall t
      ensures t in r.entries && r.entries[t] == ItemData(t, InitialCount(t))
    {
      match t
      case ClearLine =>
      case UniversalGem =>
      case Shield =>
      case RuinKey =>
      case EnergyAmplifier =>
      case TimeHourglass =>
    }
  }

  /** On a new map `initItems` lists the keys in registration order. */
  lemma RegisteredOrder()
    ensures Registered(EmptyInventory).keys == InitOrder
  {
    var one := Put(EmptyInventory, ClearLine, ItemData(ClearLine, 3));
    var two := Put(one, UniversalGem, ItemData(UniversalGem, 2));
    var three := Put(two, Shield, ItemData(Shield, 1));
    var four := Put(three, RuinKey, ItemData(RuinKey, 0));
    var five := Put(four, EnergyAmplifier, ItemData(EnergyAmplifier, 1));
    assert UniversalGem !in one.entries && Shield !in two.entries && RuinKey !in three.entries;
    assert EnergyAmplifier !in four.entries && TimeHourglass !in five.entries;
    assert Registered(EmptyInventory).keys == [ClearLine] + [UniversalGem] + [Shield] + [RuinKey] + [EnergyAmplifier] + [TimeHourglass];
  }

  /** What `getItemCount` reports: the stored count, or 0 for a type without an entry. */
  function CountIn(inv: Inventory, t: ItemType): int {
    if t in inv.entries then inv.entries[t].count else 0
  }

  /**
   * `addItem`: a type with an entry gains `count` more, a type without one
   * is ignored; no entry is created or removed and no other count moves.
   */
  function Added(inv: Inventory, t: ItemType, count: int): (r: Inventory)
    requires WellFormed(inv)
    ensures WellFormed(r) && r.keys == inv.keys && r.entries.Keys == inv.entries.Keys
    ensures CountIn(r, t) == CountIn(inv, t) + (if t in inv.entries then count else 0)
    ensures forall u :: u != t ==> CountIn(r, u) == CountIn(inv, u)
  {
    if t in inv.entries then
      var item := inv.entries[t];
      inv.(entries := inv.entries[t := item.(count := item.count + count)])
    else inv
  }

  /**
   * `useItem`: succeeds exactly when the count is positive and then takes
   * exactly one away; a failed use changes nothing.  No count is driven
   * from zero or more below zero.
   */
  function Used(inv: Inventory, t: ItemType): (r: (Inventory, bool))
    requires WellFormed(inv)
    ensures WellFormed(r.0) && r.0.keys == inv.keys && r.0.entries.Keys == inv.entries.Keys
    ensures r.1 <==> CountIn(inv, t) > 0
    ensures CountIn(r.0, t) == CountIn(inv, t) - (if r.1 then 1 else 0)
    ensures !r.1 ==> r.0 == inv
    ensures CountIn(inv, t) >= 0 ==> CountIn(r.0, t) >= 0
    ensures forall u :: u != t ==> CountIn(r.0, u) == CountIn(inv, u)
  {
    if t in inv.entries && inv.entries[t].count > 0 then
      var item := inv.entries[t];
      (inv.(entries := inv.entries[t := item.(count := item.count - 1)]), true)
    else (inv, false)
  }

  /** Adding at least one item of a registered type with no debt always makes the next use succeed. */
  lemma AddThenUse(inv: Inventory, t: ItemType, count: int)
    requires WellFormed(inv) && t in inv.entries && CountIn(inv, t) >= 0 && count >= 1
    ensures Used(Added(inv, t, count), t).1
    ensures CountIn(Used(Added(inv, t, count), t).0, t) == CountIn(inv, t) + count - 1
  {
  }

  /** A list without repetitions has as many distinct elements as entries. */
  lemma {:induction false} DistinctCard<T>(xs: seq<T>)
    requires forall i, j :: 0 <= i < j < |xs| ==> xs[i] != xs[j]
    ensures |set x | x in xs| == |xs|
  {
    if xs != [] {
      var last := xs[|xs| - 1];
      var init := xs[..|xs| - 1];
      DistinctCard(init);
      assert (set x | x in xs) == (set x | x in init) + {last};
      assert last !in init;
    }
  }

  /** There are as many entries as keys. */
  lemma KeysCount(inv: Inventory)
    requires WellFormed(inv)
    ensures |inv.entries| == |inv.keys|
  {
    DistinctCard(inv.keys);
    assert inv.entries.Keys == set t | t in inv.keys;
  }

  /**
   * `Array.from(inventory.values())`: one element per entry, in insertion
   * order, and every entry's type appears exactly once.
   */
  function Values(inv: Inventory): (items: seq<ItemData>)
    requires WellFormed(inv)
    ensures |items| == |inv.keys| == |inv.entries|
    ensures forall i :: 0 <= i < |items| ==> items[i] == inv.entries[inv.keys[i]]
    ensures forall i, j :: 0 <= i < j < |items| ==> items[i].kind != items[j].kind
  {
    KeysCount(inv);
    seq(|inv.keys|, i requires 0 <= i < |inv.keys| && inv.keys[i] in inv.entries => inv.entries[inv.keys[i]])
  }

  /** `getAllItems` lists exactly the held types. */
  lemma ValuesListEachEntry(inv: Inventory)
    requires WellFormed(inv)
    ensures forall t :: t in inv.entries <==> exists i :: 0 <= i < |Values(inv)| && Values(inv)[i].kind == t
  {
    var items := Values(inv);
    forall t | t in inv.entries
      ensures exists i :: 0 <= i < |items| && items[i].kind == t
    {
      assert t in inv.keys;
      var i :| 0 <= i < |inv.keys| && inv.keys[i] == t;
      assert items[i].kind == t;
    }
  }

  /**
   * `getItemCount` and `getAllItems` agree: each listed item carries the
   * count reported for its type, and a type the listing lacks reports 0.
   */
  lemma CountsAgreeWithListing(inv: Inventory, t: ItemType)
    requires WellFormed(inv)
    ensures forall i :: 0 <= i < |Values(inv)| ==> CountIn(inv, Values(inv)[i].kind) == Values(inv)[i].count
    ensures (forall i :: 0 <= i < |Values(inv)| ==> Values(inv)[i].kind != t) ==> CountIn(inv, t) == 0
    ensures CountIn(inv, t) != 0 ==>
      exists i :: 0 <= i < |Values(inv)| && Values(inv)[i].kind == t && Values(inv)[i].count == CountIn(inv, t)
  {
    ValuesListEachEntry(inv);
  }

  class ItemManager {
    var inventory: Inventory

    ghost predicate Valid()
      reads this
    {
      WellFormed(inventory)
    }

    /** A component before `onLoad`: an empty inventory. */
    constructor ()
      ensures Valid() && inventory == EmptyInventory
    {
      inventory := EmptyInventory;
    }

    /** Registers the six item types with their starting counts. */
    method InitItems()
      requires Valid()
      modifies this
      ensures Valid() && inventory == Registered(old(inventory))
      ensures forall t :: GetItemCount(t) == InitialCount(t)
      ensures old(inventory) == EmptyInventory ==> inventory.keys == InitOrder
    {
      ghost var start := inventory;
      inventory := Put(inventory, ClearLine, ItemData(ClearLine, 3));
      inventory := Put(inventory, UniversalGem, ItemData(UniversalGem, 2));
      inventory := Put(inventory, Shield, ItemData(Shield, 1));
      inventory := Put(inventory, RuinKey, ItemData(RuinKey, 0));
      inventory := Put(inventory, EnergyAmplifier, ItemData(EnergyAmplifier, 1));
      inventory := Put(inventory, TimeHourglass, ItemData(TimeHourglass, 0));
      RegisteredWellFormed(start);
      RegisteredCounts(start);
      if start == EmptyInventory {
        RegisteredOrder();
      }
    }

    /** `getItemCount`; `CountsAgreeWithListing` relates it to `GetAllItems`. */
    function GetItemCount(t: ItemType): (n: int)
      reads this
      ensures Valid() && n != 0 ==>
        exists i :: 0 <= i < |GetAllItems()| && GetAllItems()[i].kind == t && GetAllItems()[i].count == n
    {
      if WellFormed(inventory) then
        CountsAgreeWithListing(inventory, t);
        assert GetAllItems() == Values(inventory);
        CountIn(inventory, t)
      else
        CountIn(inventory, t)
    }

    /** `addItem`: the entry's count grows in place. */
    method AddItem(t: ItemType, count: int)
      requires Valid()
      modifies this
      ensures Valid() && inventory == Added(old(inventory), t, count)
    {
      if t in inventory.entries {
        var item := inventory.entries[t];
        inventory := inventory.(entries := inventory.entries[t := item.(count := item.count + count)]);
      }
    }

    /** `useItem`: takes one away when the count is positive and reports whether it did. */
    method UseItem(t: ItemType) returns (used: bool)
      requires Valid()
      modifies this
      ensures Valid() && (inventory, used) == Used(old(inventory), t)
    {
      if t in inventory.entries && inventory.entries[t].count > 0 {
        var item := inventory.entries[t];
        inventory := inventory.(entries := inventory.entries[t := item.(count := item.count - 1)]);
        return true;
      }
      return false;
    }

    /** `getAllItems`: the listing `Values` describes. */
    function GetAllItems(): (items: seq<ItemData>)
      reads this
      requires Valid()
      ensures forall t :: t in inventory.entries <==> exists i :: 0 <= i < |items| && items[i].kind == t
      ensures forall i :: 0 <= i < |items| ==> CountIn(inventory, items[i].kind) == items[i].count
    {
      ValuesListEachEntry(inventory);
      CountsAgreeWithListing(inventory, ClearLine);
      Values(inventory)
    }
  }
}

=== FILE: levels.dfy ===
/**
 * Level generation (`LevelConfig`): a level id determines its area, its place
 * in the area, its difficulty and from that its move budget, goals,
 * obstacles, special gems and reward.  Level ids are integers; the
 * arithmetic follows JavaScript (`Math.ceil` of an exact quotient, `%` whose
 * remainder takes the sign of the dividend, `Math.min`).
 */
module Levels {

  /** `Math.ceil(a / b)` for a positive divisor. */
  function CeilDiv(a: int, b: int): (q: int)
    requires b > 0
    ensures b * (q - 1) < a <= b * q
  {
    -((-a) / b)
  }

  /** The quotient of a by b rounded toward zero, as JavaScript's `%` uses it. */
  function TruncDiv(a: int, b: int): int
    requires b > 0
  {
    if a >= 0 then a / b else -((-a) / b)
  }

  /**
   * JavaScript's `a % b` for a positive divisor: what is left of a after
   * taking away the truncated quotient, so it has the sign of a.
   */
  function JsRem(a: int, b: int): (r: int)
    requires b > 0
    ensures a >= 0 ==> 0 <= r < b
    ensures a < 0 ==> -b < r <= 0
    ensures a == b * TruncDiv(a, b) + r
  {
    if a >= 0 then a % b else -((-a) % b)
  }

  function Min(x: int, y: int): (m: int)
    ensures m <= x && m <= y && (m == x || m == y)
  {
    if x <= y then x else y
  }

  const LevelsPerArea := 20
  const MaxDifficulty := 5

  datatype GoalType = CollectGems | FillArea | RescueSpirits | ReachScore | ClearObstacles

  /** A level goal; its display text is left out. */
  datatype LevelGoal = LevelGoal(kind: GoalType, target: int, current: int)

  datatype Rewards = Rewards(coins: int, items: seq<string>)

  /** A generated level; its display name is left out. */
  datatype LevelData = LevelData(
    id: int, area: int, difficulty: int, maxMoves: int,
    goals: seq<LevelGoal>, obstacles: seq<string>, specialGems: seq<string>, rewards: Rewards)

  /** An area; its display name and description are left out. */
  datatype AreaData = AreaData(id: int, theme: string, levels: seq<int>)

  /** The ids of one area's levels, `Array.from({ length: 20 }, (_, i) => i + first)`. */
  function LevelRange(first: int): (ls: seq<int>)
    ensures |ls| == LevelsPerArea && forall i :: 0 <= i < LevelsPerArea ==> ls[i] == first + i
  {
    seq(LevelsPerArea, i => first + i)
  }

  /** The three configured areas. */
  const Areas: seq<AreaData> := [
    AreaData(1, "dungeon", LevelRange(1)),
    AreaData(2, "corridor", LevelRange(21)),
    AreaData(3, "treasury", LevelRange(41))
  ]

  /** Area i + 1 lists exactly the levels 20i + 1 to 20(i + 1), in order. */
  lemma AreaLevels()
    ensures |Areas| == 3
    ensures forall i :: 0 <= i < |Areas| ==> Areas[i].id == i + 1 && |Areas[i].levels| == LevelsPerArea
    ensures forall i, k :: 0 <= i < |Areas| && 0 <= k < LevelsPerArea ==>
      Areas[i].levels[k] == LevelsPerArea * i + k + 1
  {
  }

  /** `Math.ceil(levelId / 20)`. */
  function AreaOf(levelId: int): (area: int)
    ensures LevelsPerArea * (area - 1) < levelId <= LevelsPerArea * area
    ensures levelId >= 1 ==> area >= 1
  {
    CeilDiv(levelId, LevelsPerArea)
  }

  /** `((levelId - 1) % 20) + 1`. */
  function LevelInArea(levelId: int): (place: int)
    ensures levelId >= 1 ==> 1 <= place <= LevelsPerArea
  {
    JsRem(levelId - 1, LevelsPerArea) + 1
  }

  /** `Math.min(Math.ceil(levelInArea / 4), 5)`. */
  function Difficulty(levelId: int): (d: int)
    ensures d <= MaxDifficulty
    ensures levelId >= 1 ==> 1 <= d
  {
    Min(CeilDiv(LevelInArea(levelId), 4), MaxDifficulty)
  }

  /**
   * A positive level id is the levelInArea-th level of its area: its place
   * is in 1..20, the id is 20 (area - 1) + place, and the difficulty is in
   * 1..5, one step up every four levels.
   */
  lemma LevelPosition(levelId: int)
    requires levelId >= 1
    ensures 1 <= LevelInArea(levelId) <= LevelsPerArea && AreaOf(levelId) >= 1
    ensures levelId == LevelsPerArea * (AreaOf(levelId) - 1) + LevelInArea(levelId)
    ensures 1 <= Difficulty(levelId) <= MaxDifficulty
    ensures 4 * (Difficulty(levelId) - 1) < LevelInArea(levelId) <= 4 * Difficulty(levelId)
  {
    var k := (levelId - 1) / LevelsPerArea;
    assert levelId == LevelsPerArea * k + LevelInArea(levelId);
    assert AreaOf(levelId) == k + 1;
  }

  /** For the levels 1 to 60 the generated area is the one area that lists the level. */
  lemma AreaListsLevel(levelId: int)
    requires 1 <= levelId <= 60
    ensures 1 <= AreaOf(levelId) <= |Areas| && Areas[AreaOf(levelId) - 1].id == AreaOf(levelId)
    ensures forall i :: 0 <= i < |Areas| ==> (levelId in Areas[i].levels <==> i == AreaOf(levelId) - 1)
  {
    LevelPosition(levelId);
    var a := AreaOf(levelId);
    forall i | 0 <= i < |Areas|
      ensures levelId in Areas[i].levels <==> i == a - 1
    {
      if i == a - 1 {
        assert Areas[i].levels[LevelInArea(levelId) - 1] == levelId;
      }
      if levelId in Areas[i].levels {
        var k :| 0 <= k < |Areas[i].levels| && Areas[i].levels[k] == levelId;
        assert levelId == LevelsPerArea * i + k + 1;
      }
    }
  }

  /**
   * The goals of a level: a score goal of 1000 points per difficulty step
   * always comes first; a gem-collecting goal follows exactly from
   * difficulty 2 on.  Every goal starts with nothing achieved.
   */
  function GenerateGoals(difficulty: int): (goals: seq<LevelGoal>)
    ensures |goals| == (if difficulty >= 2 then 2 else 1) && goals[0] == LevelGoal(ReachScore, 1000 * difficulty, 0)
    ensures difficulty >= 2 ==> goals[1] == LevelGoal(CollectGems, 10 + 5 * difficulty, 0)
    ensures (exists i :: 0 <= i < |goals| && goals[i].kind == CollectGems) <==> difficulty >= 2
    ensures forall i :: 0 <= i < |goals| ==> goals[i].current == 0
    ensures forall i :: 0 <= i < |goals| && goals[i].kind == CollectGems ==> goals[i].target == 10 + difficulty * 5
    ensures forall i :: 0 <= i < |goals| ==> goals[i].kind in {ReachScore, CollectGems}
  {
    var score := [LevelGoal(ReachScore, 1000 * difficulty, 0)];
    if difficulty >= 2 then
      var goals := score + [LevelGoal(CollectGems, 10 + difficulty * 5, 0)];
      assert goals[1].kind == CollectGems;
      goals
    else score
  }

  /** Shadow rocks from difficulty 2 on, then frozen gems from difficulty 3 on, each at most once. */
  function GenerateObstacles(difficulty: int): (obstacles: seq<string>)
    ensures "shadow_rock" in obstacles <==> difficulty >= 2
    ensures "frozen_gem" in obstacles <==> difficulty >= 3
    ensures forall o :: o in obstacles ==> o in {"shadow_rock", "frozen_gem"}
    ensures |obstacles| == (if difficulty >= 2 then 1 else 0) + (if difficulty >= 3 then 1 else 0)
    ensures |obstacles| == 2 ==> obstacles == ["shadow_rock", "frozen_gem"]
  {
    (if difficulty >= 2 then ["shadow_rock"] else []) + (if difficulty >= 3 then ["frozen_gem"] else [])
  }

  /** Lightning gems from difficulty 3 on, then time-warp gems from difficulty 4 on, each at most once. */
  function GenerateSpecialGems(difficulty: int): (specials: seq<string>)
    ensures "lightning" in specials <==> difficulty >= 3
    ensures "timewarp" in specials <==> difficulty >= 4
    ensures forall s :: s in specials ==> s in {"lightning", "timewarp"}
    ensures |specials| == (if difficulty >= 3 then 1 else 0) + (if difficulty >= 4 then 1 else 0)
    ensures |specials| == 2 ==> specials == ["lightning", "timewarp"]
  {
    (if difficulty >= 3 then ["lightning"] else []) + (if difficulty >= 4 then ["timewarp"] else [])
  }

  /**
   * The level with id `levelId`: two moves fewer per difficulty step, a
   * hundred coins per step and no reward items.
   */
  function GenerateLevel(levelId: int): (level: LevelData)
    ensures level.id == levelId && level.area == AreaOf(levelId) && level.difficulty == Difficulty(levelId)
    ensures level.maxMoves + 2 * level.difficulty == 30
    ensures level.rewards.coins == 100 * level.difficulty && level.rewards.items == []
    ensures level.goals == GenerateGoals(level.difficulty)
    ensures level.obstacles == GenerateObstacles(level.difficulty)
    ensures level.specialGems == GenerateSpecialGems(level.difficulty)
  {
    var difficulty := Difficulty(levelId);
    LevelData(
      levelId, AreaOf(levelId), difficulty, 30 - difficulty * 2,
      GenerateGoals(difficulty), GenerateObstacles(difficulty), GenerateSpecialGems(difficulty),
      Rewards(100 * difficulty, []))
  }

  /** A positive level id gets an even move budget between 20 and 28. */
  lemma MoveBudget(levelId: int)
    requires levelId >= 1
    ensures 20 <= GenerateLevel(levelId).maxMoves <= 28 && GenerateLevel(levelId).maxMoves % 2 == 0
    ensures GenerateLevel(levelId).maxMoves == 28 <==> LevelInArea(levelId) <= 4
  {
    LevelPosition(levelId);
  }
}

=== FILE: matching.dfy ===
/**
 * Match detection.  The two JavaScript copies and the 2D Cocos copy scan every
 * window of three cells in a row or a column; the 3D Cocos copy grows the
 * maximal horizontal and vertical runs through one cell.  Both are defined
 * here on board snapshots, and proved to select the same cells.
 */
module Matching {
  import opened Boards

  /** Three equal kinds in row r from column s on (no check for vacated cells). */
  predicate HSame(g: Board, r: int, s: int)
    requires Rect(g)
  {
    0 <= r < |g| && 0 <= s && s + 2 < Width(g) && g[r][s] == g[r][s + 1] && g[r][s] == g[r][s + 2]
  }

  /** Three equal kinds in column c from row s on (no check for vacated cells). */
  predicate VSame(g: Board, s: int, c: int)
    requires Rect(g)
  {
    0 <= s && s + 2 < |g| && 0 <= c < Width(g) && g[s][c] == g[s + 1][c] && g[s][c] == g[s + 2][c]
  }

  /** A matching horizontal window; with `filled` its kind must not be the vacated sentinel. */
  predicate HWin(g: Board, r: int, s: int, filled: bool)
    requires Rect(g)
  {
    HSame(g, r, s) && (filled ==> g[r][s] != Empty)
  }

  predicate VWin(g: Board, s: int, c: int, filled: bool)
    requires Rect(g)
  {
    VSame(g, s, c) && (filled ==> g[s][c] != Empty)
  }

  /** Cell (r, c) lies in a matching horizontal window. */
  predicate InHWindow(g: Board, r: int, c: int, filled: bool)
    requires Rect(g)
  {
    HWin(g, r, c - 2, filled) || HWin(g, r, c - 1, filled) || HWin(g, r, c, filled)
  }

  /** Cell (r, c) lies in a matching vertical window. */
  predicate InVWindow(g: Board, r: int, c: int, filled: bool)
    requires Rect(g)
  {
    VWin(g, r - 2, c, filled) || VWin(g, r - 1, c, filled) || VWin(g, r, c, filled)
  }

  /** The cells of all matching horizontal windows. */
  function HCells(g: Board, filled: bool): set<Cell>
    requires Rect(g)
  {
    set r, c | 0 <= r < |g| && 0 <= c < Width(g) && InHWindow(g, r, c, filled) :: (r, c)
  }

  /** The cells of all matching vertical windows. */
  function VCells(g: Board, filled: bool): set<Cell>
    requires Rect(g)
  {
    set r, c | 0 <= r < |g| && 0 <= c < Width(g) && InVWindow(g, r, c, filled) :: (r, c)
  }

  /** Every cell that lies in some matching window, each once. */
  function WindowCells(g: Board, filled: bool): set<Cell>
    requires Rect(g)
  {
    HCells(g, filled) + VCells(g, filled)
  }

  /** The matches of a board: cells in a window of three equal, non-vacated kinds. */
  function MatchCells(g: Board): set<Cell>
    requires Rect(g)
  {
    WindowCells(g, true)
  }

  /** Cell (r, c) lies in one of the six windows of three that can contain it. */
  predicate InWindow(g: Board, r: int, c: int, filled: bool)
    requires Rect(g)
  {
    InHWindow(g, r, c, filled) || InVWindow(g, r, c, filled)
  }

  /** No window of three equal kinds anywhere: the settled-board condition. */
  predicate NoWindow(g: Board, filled: bool)
    requires Rect(g)
  {
    forall r, c :: 0 <= r < |g| && 0 <= c < Width(g) ==> !HWin(g, r, c, filled) && !VWin(g, r, c, filled)
  }

  /**
   * A cell is reported iff it lies in a window of three equal kinds; reported
   * cells are in range and, when `filled`, not vacated.
   */
  lemma WindowCellsIff(g: Board, filled: bool, r: int, c: int)
    requires Rect(g)
    ensures (r, c) in WindowCells(g, filled) <==> InWindow(g, r, c, filled)
    ensures (r, c) in WindowCells(g, filled) ==> InBounds(g, (r, c)) && (filled ==> g[r][c] != Empty)
  {
  }

  /** Every reported cell lies on the board. */
  lemma WindowCellsInBounds(g: Board, filled: bool)
    requires Rect(g)
    ensures forall p :: p in WindowCells(g, filled) ==> InBounds(g, p)
  {
  }

  /** A board reports no match exactly when it has no window of three. */
  lemma NoWindowIffNoCells(g: Board, filled: bool)
    requires Rect(g)
    ensures NoWindow(g, filled) <==> WindowCells(g, filled) == {}
  {
    if !NoWindow(g, filled) {
      var r, s :| 0 <= r < |g| && 0 <= s < Width(g) && (HWin(g, r, s, filled) || VWin(g, r, s, filled));
      assert InWindow(g, r, s, filled);
      assert (r, s) in WindowCells(g, filled);
    }
    if WindowCells(g, filled) != {} {
      var p :| p in WindowCells(g, filled);
      assert InWindow(g, p.0, p.1, filled);
    }
  }

  /**
   * On a board with no vacated cell the scan without a null check (the demo
   * copy) reports the same cells as the scan with one.
   */
  lemma RawScanAgreesOnFullBoards(g: Board)
    requires Rect(g) && Full(g)
    ensures WindowCells(g, false) == WindowCells(g, true)
  {
    assert HCells(g, false) == HCells(g, true);
    assert VCells(g, false) == VCells(g, true);
  }

  /** The number of cells removed over the rounds of a cascade, one match set per round. */
  function Removed(rounds: seq<set<Cell>>): nat {
    if rounds == [] then 0 else |rounds[0]| + Removed(rounds[1..])
  }

  // ---------------------------------------------------------------------------
  // Maximal runs through one cell (the 3D copy's findMatches)

  /** The first column of the run of equal kinds that ends at (r, c), scanning left. */
  function LeftEnd(g: Board, r: int, c: int): (l: int)
    requires Rect(g) && InBounds(g, (r, c))
    ensures 0 <= l <= c
    ensures forall j :: l <= j <= c ==> g[r][j] == g[r][c]
    ensures l == 0 || g[r][l - 1] != g[r][c]
    decreases c
  {
    if c > 0 && g[r][c - 1] == g[r][c] then LeftEnd(g, r, c - 1) else c
  }

  /** The last column of the run of equal kinds that starts at (r, c), scanning right. */
  function RightEnd(g: Board, r: int, c: int): (e: int)
    requires Rect(g) && InBounds(g, (r, c))
    ensures c <= e < Width(g)
    ensures forall j :: c <= j <= e ==> g[r][j] == g[r][c]
    ensures e == Width(g) - 1 || g[r][e + 1] != g[r][c]
    decreases Width(g) - c
  {
    if c + 1 < Width(g) && g[r][c + 1] == g[r][c] then RightEnd(g, r, c + 1) else c
  }

  /** The first row of the run of equal kinds that ends at (r, c), scanning up. */
  function TopEnd(g: Board, r: int, c: int): (t: int)
    requires Rect(g) && InBounds(g, (r, c))
    ensures 0 <= t <= r
    ensures forall i :: t <= i <= r ==> g[i][c] == g[r][c]
    ensures t == 0 || g[t - 1][c] != g[r][c]
    decreases r
  {
    if r > 0 && g[r - 1][c] == g[r][c] then TopEnd(g, r - 1, c) else r
  }

  /** The last row of the run of equal kinds that starts at (r, c), scanning down. */
  function BottomEnd(g: Board, r: int, c: int): (b: int)
    requires Rect(g) && InBounds(g, (r, c))
    ensures r <= b < |g|
    ensures forall i :: r <= i <= b ==> g[i][c] == g[r][c]
    ensures b == |g| - 1 || g[b + 1][c] != g[r][c]
    decreases |g| - r
  {
    if r + 1 < |g| && g[r + 1][c] == g[r][c] then BottomEnd(g, r + 1, c) else r
  }

  /** The maximal horizontal run through (r, c). */
  function HRun(g: Board, r: int, c: int): set<Cell>
    requires Rect(g) && InBounds(g, (r, c))
  {
    set j | LeftEnd(g, r, c) <= j <= RightEnd(g, r, c) :: (r, j)
  }

  /** The maximal vertical run through (r, c). */
  function VRun(g: Board, r: int, c: int): set<Cell>
    requires Rect(g) && InBounds(g, (r, c))
  {
    set i | TopEnd(g, r, c) <= i <= BottomEnd(g, r, c) :: (i, c)
  }

  /** The maximal horizontal run through (r, c) is at least three long. */
  predicate LongHRun(g: Board, r: int, c: int)
    requires Rect(g) && InBounds(g, (r, c))
  {
    RightEnd(g, r, c) - LeftEnd(g, r, c) >= 2
  }

  /** The maximal vertical run through (r, c) is at least three long. */
  predicate LongVRun(g: Board, r: int, c: int)
    requires Rect(g) && InBounds(g, (r, c))
  {
    BottomEnd(g, r, c) - TopEnd(g, r, c) >= 2
  }

  /** No run of three passes through (r, c): the cell is vacated or both its runs are short. */
  predicate Unmatched(g: Board, r: int, c: int)
    requires Rect(g) && InBounds(g, (r, c))
  {
    g[r][c] == Empty || !(LongHRun(g, r, c) || LongVRun(g, r, c))
  }

  lemma ThreeCells(a: Cell, b: Cell, c: Cell, m: set<Cell>)
    requires a != b && a != c && b != c && a in m && b in m && c in m
    ensures |m| >= 3
  {
    var t := {a, b, c};
    assert |t| == 3;
    assert m == t + (m - t);
  }

  /**
   * The 3D copy's match through one cell: nothing for a vacated cell, else the
   * union of the maximal horizontal and vertical runs through it, each only
   * when it is at least three long.
   */
  function RunMatchesAt(g: Board, r: int, c: int): (m: set<Cell>)
    requires Rect(g) && InBounds(g, (r, c))
    ensures m != {} <==> g[r][c] != Empty && (LongHRun(g, r, c) || LongVRun(g, r, c))
    ensures m != {} ==> (r, c) in m && |m| >= 3
    ensures forall p :: p in m ==> InBounds(g, p) && g[p.0][p.1] == g[r][c]
  {
    if g[r][c] == Empty then {}
    else
      var horizontal := if LongHRun(g, r, c) then HRun(g, r, c) else {};
      var vertical := if LongVRun(g, r, c) then VRun(g, r, c) else {};
      var m := horizontal + vertical;
      assert m != {} <==> LongHRun(g, r, c) || LongVRun(g, r, c) by {
        if LongHRun(g, r, c) {
          assert (r, c) in horizontal;
        } else if LongVRun(g, r, c) {
          assert (r, c) in vertical;
        }
      }
      assert m != {} ==> |m| >= 3 by {
        if LongHRun(g, r, c) {
          var l := LeftEnd(g, r, c);
          ThreeCells((r, l), (r, l + 1), (r, l + 2), m);
        } else if LongVRun(g, r, c) {
          var t := TopEnd(g, r, c);
          ThreeCells((t, c), (t + 1, c), (t + 2, c), m);
        }
      }
      m
  }

  lemma {:induction false} LeftEndReaches(g: Board, r: int, c: int, j: int)
    requires Rect(g) && InBounds(g, (r, c)) && 0 <= j <= c
    requires forall i :: j <= i <= c ==> g[r][i] == g[r][c]
    ensures LeftEnd(g, r, c) <= j
    decreases c
  {
    if j < c {
      LeftEndReaches(g, r, c - 1, j);
    }
  }

  lemma {:induction false} RightEndReaches(g: Board, r: int, c: int, j: int)
    requires Rect(g) && InBounds(g, (r, c)) && c <= j < Width(g)
    requires forall i :: c <= i <= j ==> g[r][i] == g[r][c]
    ensures RightEnd(g, r, c) >= j
    decreases Width(g) - c
  {
    if c < j {
      RightEndReaches(g, r, c + 1, j);
    }
  }

  lemma {:induction false} TopEndReaches(g: Board, r: int, c: int, j: int)
    requires Rect(g) && InBounds(g, (r, c)) && 0 <= j <= r
    requires forall i :: j <= i <= r ==> g[i][c] == g[r][c]
    ensures TopEnd(g, r, c) <= j
    decreases r
  {
    if j < r {
      TopEndReaches(g, r - 1, c, j);
    }
  }

  lemma {:induction false} BottomEndReaches(g: Board, r: int, c: int, j: int)
    requires Rect(g) && InBounds(g, (r, c)) && r <= j < |g|
    requires forall i :: r <= i <= j ==> g[i][c] == g[r][c]
    ensures BottomEnd(g, r, c) >= j
    decreases |g| - r
  {
    if r < j {
      BottomEndReaches(g, r + 1, c, j);
    }
  }

  /** Every cell of a horizontal stretch of three or more equal kinds lies in a window of three. */
  lemma HStretchInWindow(g: Board, r: int, l: int, e: int, k: int, j: int)
    requires Rect(g) && 0 <= r < |g| && 0 <= l && e < Width(g) && e - l >= 2 && l <= j <= e && k != Empty
    requires forall i :: l <= i <= e ==> g[r][i] == k
    ensures InHWindow(g, r, j, true)
  {
    var s := if j + 2 <= e then j else e - 2;
    assert g[r][s] == k && g[r][s + 1] == k && g[r][s + 2] == k;
    assert HWin(g, r, s, true);
  }

  /** Every cell of a vertical stretch of three or more equal kinds lies in a window of three. */
  lemma VStretchInWindow(g: Board, c: int, t: int, b: int, k: int, j: int)
    requires Rect(g) && 0 <= c < Width(g) && 0 <= t && b < |g| && b - t >= 2 && t <= j <= b && k != Empty
    requires forall i :: t <= i <= b ==> g[i][c] == k
    ensures InVWindow(g, j, c, true)
  {
    var s := if j + 2 <= b then j else b - 2;
    assert g[s][c] == k && g[s + 1][c] == k && g[s + 2][c] == k;
    assert VWin(g, s, c, true);
  }

  /** A cell of a run of three or more equal, non-vacated kinds lies in a window of three. */
  lemma RunCellInWindow(g: Board, r: int, c: int, p: Cell)
    requires Rect(g) && InBounds(g, (r, c))
    requires p in RunMatchesAt(g, r, c)
    ensures InWindow(g, p.0, p.1, true)
  {
    var k := g[r][c];
    var l, e := LeftEnd(g, r, c), RightEnd(g, r, c);
    var t, b := TopEnd(g, r, c), BottomEnd(g, r, c);
    if LongHRun(g, r, c) && p in HRun(g, r, c) {
      HStretchInWindow(g, r, l, e, k, p.1);
    } else {
      assert LongVRun(g, r, c) && p in VRun(g, r, c);
      VStretchInWindow(g, c, t, b, k, p.0);
    }
  }

  /** The run match through a cell is non-empty iff the cell lies in a window of three. */
  lemma RunMatchesIffWindow(g: Board, r: int, c: int)
    requires Rect(g) && InBounds(g, (r, c))
    ensures RunMatchesAt(g, r, c) != {} <==> (r, c) in MatchCells(g)
  {
    WindowCellsIff(g, true, r, c);
    if RunMatchesAt(g, r, c) != {} {
      RunCellInWindow(g, r, c, (r, c));
    } else if HWin(g, r, c - 2, true) {
      LeftEndReaches(g, r, c, c - 2);
    } else if HWin(g, r, c - 1, true) {
      LeftEndReaches(g, r, c, c - 1);
      RightEndReaches(g, r, c, c + 1);
    } else if HWin(g, r, c, true) {
      RightEndReaches(g, r, c, c + 2);
    } else if VWin(g, r - 2, c, true) {
      TopEndReaches(g, r, c, r - 2);
    } else if VWin(g, r - 1, c, true) {
      TopEndReaches(g, r, c, r - 1);
      BottomEndReaches(g, r, c, r + 1);
    } else if VWin(g, r, c, true) {
      BottomEndReaches(g, r, c, r + 2);
    }
  }

  /** The 3D copy's findAllMatches: the union of the run matches through every cell. */
  function AllRuns(g: Board): set<Cell>
    requires Rect(g)
  {
    set r, c, p | 0 <= r < |g| && 0 <= c < Width(g) && p in RunMatchesAt(g, r, c) :: p
  }

  /** The run-based and the window-based detectors select exactly the same cells. */
  lemma AllRunsIsMatchCells(g: Board)
    requires Rect(g)
    ensures AllRuns(g) == MatchCells(g)
  {
    forall p | p in AllRuns(g)
      ensures p in MatchCells(g)
    {
      var r, c :| 0 <= r < |g| && 0 <= c < Width(g) && p in RunMatchesAt(g, r, c);
      RunCellInWindow(g, r, c, p);
      WindowCellsIff(g, true, p.0, p.1);
    }
    forall p | p in MatchCells(g)
      ensures p in AllRuns(g)
    {
      WindowCellsIff(g, true, p.0, p.1);
      RunMatchesIffWindow(g, p.0, p.1);
    }
  }

  /**
   * A repair pass that finds no run through any cell has met a board with no
   * match, and conversely.
   */
  lemma NoRunsNoMatches(g: Board)
    requires Rect(g)
    ensures (forall r, c :: 0 <= r < |g| && 0 <= c < Width(g) ==> Unmatched(g, r, c)) <==> MatchCells(g) == {}
  {
    if forall r, c :: 0 <= r < |g| && 0 <= c < Width(g) ==> Unmatched(g, r, c) {
      forall p | p in MatchCells(g)
        ensures InBounds(g, p) && !Unmatched(g, p.0, p.1)
      {
        WindowCellsIff(g, true, p.0, p.1);
        RunMatchesIffWindow(g, p.0, p.1);
      }
    } else {
      var r, c :| 0 <= r < |g| && 0 <= c < Width(g) && !Unmatched(g, r, c);
      RunMatchesIffWindow(g, r, c);
    }
  }

  /** The run matches through the cells before (i, j) in row-major order. */
  function RunsBefore(g: Board, i: int, j: int): set<Cell>
    requires Rect(g)
  {
    set r, c, p | 0 <= r < |g| && 0 <= c < Width(g) && RowMajorBefore(r, c, i, j) && p in RunMatchesAt(g, r, c) :: p
  }

  /** One step of the row-major accumulation of run matches. */
  lemma RunsStep(g: Board, i: int, j: int)
    requires Rect(g) && 0 <= i < |g| && 0 <= j < Width(g)
    ensures RunsBefore(g, i, j + 1) == RunsBefore(g, i, j) + RunMatchesAt(g, i, j)
  {
    forall p | p in RunsBefore(g, i, j + 1)
      ensures p in RunsBefore(g, i, j) + RunMatchesAt(g, i, j)
    {
      var r, c :| 0 <= r < |g| && 0 <= c < Width(g) && RowMajorBefore(r, c, i, j + 1) && p in RunMatchesAt(g, r, c);
      RowMajorStep(r, c, i, j);
    }
  }

  /** Past the last cell of row i the accumulation moves on to the next row. */
  lemma RunsRowDone(g: Board, i: int)
    requires Rect(g) && 0 <= i < |g|
    ensures RunsBefore(g, i, Width(g)) == RunsBefore(g, i + 1, 0)
  {
  }

  /** After the last row the accumulation holds every run match. */
  lemma RunsAllDone(g: Board)
    requires Rect(g)
    ensures RunsBefore(g, |g|, 0) == AllRuns(g)
  {
  }

  /**
   * A matching horizontal window on a board with two cells exchanged, where
   * the board before had no match, passes through one of the two cells.
   */
  lemma HWindowTouchesSwap(g: Board, p: Cell, q: Cell, r: int, s: int)
    requires Rect(g) && InBounds(g, p) && InBounds(g, q) && MatchCells(g) == {}
    ensures HWin(Swapped(g, p, q), r, s, true) ==> p in MatchCells(Swapped(g, p, q)) || q in MatchCells(Swapped(g, p, q))
  {
    var h := Swapped(g, p, q);
    if HWin(h, r, s, true) {
      var cells := {(r, s), (r, s + 1), (r, s + 2)};
      if p in cells {
        HWindowMatches(h, r, s, p);
      } else if q in cells {
        HWindowMatches(h, r, s, q);
      } else {
        HWindowKept(g, p, q, r, s);
        assert false;
      }
    }
  }

  /** Each cell of a matching horizontal window is a match cell. */
  lemma HWindowMatches(g: Board, r: int, s: int, x: Cell)
    requires Rect(g) && HWin(g, r, s, true) && x in {(r, s), (r, s + 1), (r, s + 2)}
    ensures x in MatchCells(g)
  {
    WindowCellsIff(g, true, x.0, x.1);
    assert HWin(g, x.0, x.1 - (x.1 - s), true);
  }

  /** Each cell of a matching vertical window is a match cell. */
  lemma VWindowMatches(g: Board, s: int, c: int, x: Cell)
    requires Rect(g) && VWin(g, s, c, true) && x in {(s, c), (s + 1, c), (s + 2, c)}
    ensures x in MatchCells(g)
  {
    WindowCellsIff(g, true, x.0, x.1);
    assert VWin(g, x.0 - (x.0 - s), x.1, true);
  }

  /** A matching horizontal window that avoids both swapped cells was there before the swap. */
  lemma HWindowKept(g: Board, p: Cell, q: Cell, r: int, s: int)
    requires Rect(g) && InBounds(g, p) && InBounds(g, q)
    requires HWin(Swapped(g, p, q), r, s, true)
    requires p !in {(r, s), (r, s + 1), (r, s + 2)} && q !in {(r, s), (r, s + 1), (r, s + 2)}
    ensures (r, s) in MatchCells(g)
  {
    assert HWin(g, r, s, true);
    WindowCellsIff(g, true, r, s);
  }

  /** A matching vertical window that avoids both swapped cells was there before the swap. */
  lemma VWindowKept(g: Board, p: Cell, q: Cell, s: int, c: int)
    requires Rect(g) && InBounds(g, p) && InBounds(g, q)
    requires VWin(Swapped(g, p, q), s, c, true)
    requires p !in {(s, c), (s + 1, c), (s + 2, c)} && q !in {(s, c), (s + 1, c), (s + 2, c)}
    ensures (s, c) in MatchCells(g)
  {
    assert VWin(g, s, c, true);
    WindowCellsIff(g, true, s, c);
  }

  lemma VWindowTouchesSwap(g: Board, p: Cell, q: Cell, s: int, c: int)
    requires Rect(g) && InBounds(g, p) && InBounds(g, q) && MatchCells(g) == {}
    ensures VWin(Swapped(g, p, q), s, c, true) ==> p in MatchCells(Swapped(g, p, q)) || q in MatchCells(Swapped(g, p, q))
  {
    var h := Swapped(g, p, q);
    if VWin(h, s, c, true) {
      var cells := {(s, c), (s + 1, c), (s + 2, c)};
      if p in cells {
        VWindowMatches(h, s, c, p);
      } else if q in cells {
        VWindowMatches(h, s, c, q);
      } else {
        VWindowKept(g, p, q, s, c);
        assert false;
      }
    }
  }

  /**
   * On a board without a match, a swap creates a match anywhere exactly when
   * the run match through one of the two swapped cells is non-empty: the 3D
   * copy's check of only those two cells loses nothing.
   */
  lemma LocalCheckSuffices(g: Board, p: Cell, q: Cell)
    requires Rect(g) && InBounds(g, p) && InBounds(g, q) && MatchCells(g) == {}
    ensures RunMatchesAt(Swapped(g, p, q), q.0, q.1) + RunMatchesAt(Swapped(g, p, q), p.0, p.1) != {} <==>
      MatchCells(Swapped(g, p, q)) != {}
  {
    var h := Swapped(g, p, q);
    RunMatchesIffWindow(h, p.0, p.1);
    RunMatchesIffWindow(h, q.0, q.1);
    if MatchCells(h) != {} {
      var x :| x in MatchCells(h);
      MatchTouchesSwap(g, p, q, x.0, x.1);
    }
  }

  /** On a board without a match, every match after a swap implies a match through a swapped cell. */
  lemma MatchTouchesSwap(g: Board, p: Cell, q: Cell, r: int, c: int)
    requires Rect(g) && InBounds(g, p) && InBounds(g, q) && MatchCells(g) == {}
    requires (r, c) in MatchCells(Swapped(g, p, q))
    ensures p in MatchCells(Swapped(g, p, q)) || q in MatchCells(Swapped(g, p, q))
  {
    WindowCellsIff(Swapped(g, p, q), true, r, c);
    HWindowTouchesSwap(g, p, q, r, c - 2);
    HWindowTouchesSwap(g, p, q, r, c - 1);
    HWindowTouchesSwap(g, p, q, r, c);
    VWindowTouchesSwap(g, p, q, r - 2, c);
    VWindowTouchesSwap(g, p, q, r - 1, c);
    VWindowTouchesSwap(g, p, q, r, c);
  }

  /** Row-major order of window starts: (r, s) comes before (i, j). */
  predicate RowMajorBefore(r: int, s: int, i: int, j: int) {
    r < i || (r == i && s < j)
  }

  lemma RowMajorStep(r: int, s: int, i: int, j: int)
    requires RowMajorBefore(r, s, i, j + 1)
    ensures (r, s) == (i, j) || RowMajorBefore(r, s, i, j)
  {
  }

  /** Cell (r, c) lies in a matching horizontal window that starts before (i, j) in row-major order. */
  predicate InHWindowBefore(g: Board, r: int, c: int, filled: bool, i: int, j: int)
    requires Rect(g)
  {
    (HWin(g, r, c - 2, filled) && RowMajorBefore(r, c - 2, i, j)) ||
    (HWin(g, r, c - 1, filled) && RowMajorBefore(r, c - 1, i, j)) ||
    (HWin(g, r, c, filled) && RowMajorBefore(r, c, i, j))
  }

  /** Cell (r, c) lies in a matching vertical window that starts before (i, j) in column-major order. */
  predicate InVWindowBefore(g: Board, r: int, c: int, filled: bool, i: int, j: int)
    requires Rect(g)
  {
    (VWin(g, r - 2, c, filled) && RowMajorBefore(c, r - 2, j, i)) ||
    (VWin(g, r - 1, c, filled) && RowMajorBefore(c, r - 1, j, i)) ||
    (VWin(g, r, c, filled) && RowMajorBefore(c, r, j, i))
  }

  /** The cells of the matching horizontal windows that start before (i, j), row by row. */
  function HCellsBefore(g: Board, filled: bool, i: int, j: int): set<Cell>
    requires Rect(g)
  {
    set r, c | 0 <= r < |g| && 0 <= c < Width(g) && InHWindowBefore(g, r, c, filled, i, j) :: (r, c)
  }

  /** The cells of the matching vertical windows that start before (i, j), column by column. */
  function VCellsBefore(g: Board, filled: bool, i: int, j: int): set<Cell>
    requires Rect(g)
  {
    set r, c | 0 <= r < |g| && 0 <= c < Width(g) && InVWindowBefore(g, r, c, filled, i, j) :: (r, c)
  }

  /** One step of the row scan: the window starting at (i, j) is added when it matches. */
  lemma HStep(g: Board, filled: bool, i: int, j: int)
    requires Rect(g) && 0 <= i < |g| && 0 <= j && j + 2 < Width(g)
    ensures HCellsBefore(g, filled, i, j + 1) ==
      HCellsBefore(g, filled, i, j) + (if HWin(g, i, j, filled) then {(i, j), (i, j + 1), (i, j + 2)} else {})
  {
  }

  /** Past the last window start of row i the scan moves on to the next row. */
  lemma HRowDone(g: Board, filled: bool, i: int, j: int)
    requires Rect(g) && j >= Width(g) - 2
    ensures HCellsBefore(g, filled, i, j) == HCellsBefore(g, filled, i + 1, 0)
  {
  }

  lemma HAllDone(g: Board, filled: bool)
    requires Rect(g)
    ensures HCellsBefore(g, filled, |g|, 0) == HCells(g, filled)
  {
  }

  /** One step of the column scan: the window starting at (i, j) is added when it matches. */
  lemma VStep(g: Board, filled: bool, i: int, j: int)
    requires Rect(g) && 0 <= j < Width(g) && 0 <= i && i + 2 < |g|
    ensures VCellsBefore(g, filled, i + 1, j) ==
      VCellsBefore(g, filled, i, j) + (if VWin(g, i, j, filled) then {(i, j), (i + 1, j), (i + 2, j)} else {})
  {
  }

  /** Past the last window start of column j the scan moves on to the next column. */
  lemma VColumnDone(g: Board, filled: bool, i: int, j: int)
    requires Rect(g) && i >= |g| - 2
    ensures VCellsBefore(g, filled, i, j) == VCellsBefore(g, filled, 0, j + 1)
  {
  }

  lemma VAllDone(g: Board, filled: bool, j: int)
    requires Rect(g) && j >= Width(g)
    ensures VCellsBefore(g, filled, 0, j) == VCells(g, filled)
  {
  }

  /**
   * The window scan of the JavaScript copies: rows left to right, then columns
   * top to bottom, adding the three cells of every matching window to a set.
   * `filled` selects the copy that skips vacated cells.
   */
  method ScanWindows(a: array2<int>, filled: bool) returns (m: set<Cell>)
    ensures m == WindowCells(Cells(a), filled)
  {
    m := {};
    var row := 0;
    while row < a.Length0
      invariant 0 <= row <= a.Length0
      invariant m == HCellsBefore(Cells(a), filled, row, 0)
    {
      m := ScanRow(a, filled, row, m);
      row := row + 1;
    }
    HAllDone(Cells(a), filled);
    ghost var horizontal := m;
    var col := 0;
    while col < a.Length1
      invariant 0 <= col <= a.Length1
      invariant m == horizontal + VCellsBefore(Cells(a), filled, 0, col)
    {
      m := ScanColumn(a, filled, col, m, horizontal);
      col := col + 1;
    }
    VAllDone(Cells(a), filled, col);
  }

  /** The windows of row `row`, left to right, added to the set found so far. */
  method ScanRow(a: array2<int>, filled: bool, row: int, found: set<Cell>) returns (m: set<Cell>)
    requires 0 <= row < a.Length0 && found == HCellsBefore(Cells(a), filled, row, 0)
    ensures m == HCellsBefore(Cells(a), filled, row + 1, 0)
  {
    ghost var g := Cells(a);
    m := found;
    var col := 0;
    while col < a.Length1 - 2
      invariant 0 <= col && (a.Length1 >= 2 ==> col <= a.Length1 - 2)
      invariant m == HCellsBefore(g, filled, row, col)
    {
      HStep(g, filled, row, col);
      assert g[row][col] == a[row, col] && g[row][col + 1] == a[row, col + 1] && g[row][col + 2] == a[row, col + 2];
      var kind := a[row, col];
      if (!filled || kind != Empty) && kind == a[row, col + 1] && kind == a[row, col + 2] {
        m := m + {(row, col), (row, col + 1), (row, col + 2)};
      }
      col := col + 1;
    }
    HRowDone(g, filled, row, col);
  }

  /** The windows of column `col`, top to bottom, added to the set found so far. */
  method ScanColumn(a: array2<int>, filled: bool, col: int, found: set<Cell>, ghost horizontal: set<Cell>)
    returns (m: set<Cell>)
    requires 0 <= col < a.Length1 && found == horizontal + VCellsBefore(Cells(a), filled, 0, col)
    ensures m == horizontal + VCellsBefore(Cells(a), filled, 0, col + 1)
  {
    ghost var g := Cells(a);
    m := found;
    var row := 0;
    while row < a.Length0 - 2
      invariant 0 <= row && (a.Length0 >= 2 ==> row <= a.Length0 - 2)
      invariant m == horizontal + VCellsBefore(g, filled, row, col)
    {
      VStep(g, filled, row, col);
      assert g[row][col] == a[row, col] && g[row + 1][col] == a[row + 1, col] && g[row + 2][col] == a[row + 2, col];
      var kind := a[row, col];
      if (!filled || kind != Empty) && kind == a[row + 1, col] && kind == a[row + 2, col] {
        m := m + {(row, col), (row + 1, col), (row + 2, col)};
      }
      row := row + 1;
    }
    VColumnDone(g, filled, row, col);
  }
}

=== FILE: mobile.dfy ===
/**
 * The mobile web copy of the engine (public/js/mobile-game.js): an 8 x 8
 * board of six gem kinds held in a global game state that every handler
 * updates in place.  The parallel array of animated gem objects only mirrors
 * the board for drawing and is not modelled.
 */
module Mobile {
  import opened Boards
  import opened Gravity
  import opened Matching
  import opened Repair
  import opened Cascades

  const BoardSize: nat := 8
  /** The length of the palette of gem kinds. */
  const GemTypes: nat := 6
  const PointsPerGem: int := 50
  const RepairPassCap: nat := 100
  const StartMoves: int := 30

  /** The three tools of the item bar. */
  datatype Item = Hammer | Bomb | Shuffle

  function InitialItems(): map<Item, int> {
    map[Hammer := 3, Bomb := 2, Shuffle := 1]
  }

  /** The score a level asks for. */
  function GoalScore(level: int): (goal: int)
    ensures level >= 1 ==> goal >= 1000
    ensures goal % 500 == 0
  {
    1000 + (level - 1) * 500
  }

  /** The cells a bomb dropped on (row, col) destroys: its 3 x 3 neighbourhood, clipped to the board. */
  function Neighbourhood(row: int, col: int): (cells: set<Cell>)
    ensures 0 <= row < BoardSize && 0 <= col < BoardSize ==> (row, col) in cells
    ensures forall p :: p in cells ==> 0 <= p.0 < BoardSize && 0 <= p.1 < BoardSize && Abs(p.0 - row) <= 1 && Abs(p.1 - col) <= 1
  {
    set r, c | 0 <= r < BoardSize && 0 <= c < BoardSize && Abs(r - row) <= 1 && Abs(c - col) <= 1 :: (r, c)
  }

  function Max(a: int, b: int): int {
    if a < b then b else a
  }

  function Min(a: int, b: int): int {
    if a < b then a else b
  }

  class MobileGame {
    var board: array2<int>
    var score: int
    var moves: int
    var level: int
    var goalScore: int
    var selected: Option<Cell>
    var isProcessing: bool
    var activeItem: Option<Item>
    var items: map<Item, int>
    /** The random number generator behind `getRandomGemType`. */
    const rng: Random

    /** The board snapshot. */
    ghost function Grid(): Board
      reads this`board, board
    {
      Cells(board)
    }

    /** The state between two handlers: an 8 x 8 board of palette kinds and a stock of every item. */
    ghost predicate Valid()
      reads this, board
    {
      board.Length0 == BoardSize && board.Length1 == BoardSize &&
      ArrayInPalette(board, GemTypes) &&
      (selected.Some? ==> 0 <= selected.value.0 < BoardSize && 0 <= selected.value.1 < BoardSize) &&
      (forall t: Item :: t in items)
    }

    /** The initial game state, before the first reset deals a board. */
    constructor (rng: Random)
      ensures this.rng == rng
      ensures score == 0 && moves == StartMoves && level == 1 && goalScore == 1000
      ensures selected == None && !isProcessing && activeItem == None && items == InitialItems()
    {
      this.rng := rng;
      board := new int[0, 0];
      score := 0;
      moves := StartMoves;
      level := 1;
      goalScore := 1000;
      selected := None;
      isProcessing := false;
      activeItem := None;
      items := InitialItems();
    }

    /**
     * Starts the current level again: a fresh board, the score cleared, 30
     * moves and the level's goal.  `settled` reports that the repair of the
     * fresh board stopped on a pass that changed nothing.
     */
    method ResetGame() returns (settled: bool)
      requires forall t: Item :: t in items
      modifies this, rng
      ensures Valid() && fresh(board)
      ensures score == 0 && moves == StartMoves && goalScore == GoalScore(level)
      ensures selected == None && !isProcessing && activeItem == None
      ensures level == old(level) && items == old(items)
      ensures settled ==> MatchCells(Grid()) == {}
    {
      score := 0;
      moves := StartMoves;
      goalScore := GoalScore(level);
      board, settled := CreateBoard();
      selected := None;
      isProcessing := false;
      activeItem := None;
    }

    /** A fresh board of random kinds, repaired so that it starts without a triple. */
    method CreateBoard() returns (a: array2<int>, settled: bool)
      modifies rng
      ensures fresh(a) && a.Length0 == BoardSize && a.Length1 == BoardSize
      ensures ArrayInPalette(a, GemTypes)
      ensures settled ==> NoWindow(Cells(a), false) && MatchCells(Cells(a)) == {}
    {
      a := new int[BoardSize, BoardSize];
      var row := 0;
      while row < BoardSize
        invariant 0 <= row <= BoardSize
        invariant forall r, c :: 0 <= r < row && 0 <= c < BoardSize ==> InPalette(a[r, c], GemTypes)
      {
        var col := 0;
        while col < BoardSize
          invariant 0 <= col <= BoardSize
          invariant forall r, c :: 0 <= r < BoardSize && 0 <= c < BoardSize && RowMajorBefore(r, c, row, col) ==>
            InPalette(a[r, c], GemTypes)
        {
          a[row, col] := rng.Draw(GemTypes);
          col := col + 1;
        }
        row := row + 1;
      }
      var passes;
      passes, settled := RemoveInitialMatches(a);
      if settled {
        ghost var g := Cells(a);
        RawScanAgreesOnFullBoards(g);
        NoWindowIffNoCells(g, false);
      }
    }

    /**
     * Repairs a fresh board in passes, at most 100 of them.  `settled` says
     * the last pass changed nothing, and then no window of three equal kinds
     * is left.
     */
    method RemoveInitialMatches(a: array2<int>) returns (passes: nat, settled: bool)
      requires a.Length0 == BoardSize && a.Length1 == BoardSize
      requires ArrayInPalette(a, GemTypes)
      modifies a, rng
      ensures ArrayInPalette(a, GemTypes)
      ensures 1 <= passes <= RepairPassCap
      ensures settled ==> NoWindow(Cells(a), false)
      ensures !settled ==> passes == RepairPassCap
    {
      var hasMatches := true;
      var attempts := 0;
      while hasMatches && attempts < RepairPassCap
        invariant 0 <= attempts <= RepairPassCap
        invariant attempts == 0 ==> hasMatches
        invariant ArrayInPalette(a, GemTypes)
        invariant !hasMatches ==> NoWindow(Cells(a), false)
      {
        attempts := attempts + 1;
        hasMatches := RepairPass(a, rng, GemTypes);
      }
      passes, settled := attempts, !hasMatches;
    }

    /** Every cell in a window of three equal, non-vacated kinds, each once. */
    method FindMatches() returns (matches: set<Cell>)
      requires board.Length0 == BoardSize && board.Length1 == BoardSize
      ensures matches == MatchCells(Grid())
    {
      matches := ScanWindows(board, true);
    }

    /**
     * Gravity on column `col`: scanning bottom-up with a count of the vacated
     * cells seen so far, every survivor falls by that count.
     */
    method CompactColumn(col: int)
      requires board.Length0 == BoardSize && board.Length1 == BoardSize && 0 <= col < BoardSize
      modifies board
      ensures forall r :: 0 <= r < BoardSize ==> board[r, col] == Compacted(old(ColumnOf(Grid(), col)))[r]
      ensures forall r, c :: 0 <= r < BoardSize && 0 <= c < BoardSize && c != col ==> board[r, c] == old(board[r, c])
    {
      var a := board;
      ghost var s := ColumnOf(Grid(), col);
      ghost var cur := s;
      var emptySpaces := 0;
      var row := BoardSize - 1;
      while row >= 0
        invariant -1 <= row < BoardSize && |cur| == BoardSize
        invariant forall r :: 0 <= r < BoardSize ==> a[r, col] == cur[r]
        invariant forall r, c :: 0 <= r < BoardSize && 0 <= c < BoardSize && c != col ==> a[r, c] == old(a[r, c])
        invariant CompactedBelow(s, cur, row)
        invariant emptySpaces == Vacated(s[row + 1..])
      {
        CounterStep(s, cur, row);
        ghost var next := Fallen(cur, row, emptySpaces);
        if a[row, col] == Empty {
          emptySpaces := emptySpaces + 1;
        } else if emptySpaces > 0 {
          var newRow := row + emptySpaces;
          a[newRow, col] := a[row, col];
          a[row, col] := Empty;
        }
        cur := next;
        row := row - 1;
      }
      assert cur == Compacted(s) by {
        assert s[0..] == s && cur[0..] == cur;
      }
    }

    /** Puts a random kind into every vacated cell, column by column. */
    method Refill()
      requires board.Length0 == BoardSize && board.Length1 == BoardSize
      modifies board, rng
      ensures forall r, c :: 0 <= r < BoardSize && 0 <= c < BoardSize ==>
        if old(board[r, c]) == Empty then InPalette(board[r, c], GemTypes) else board[r, c] == old(board[r, c])
    {
      var col := 0;
      while col < BoardSize
        invariant 0 <= col <= BoardSize
        invariant forall r, c :: 0 <= r < BoardSize && 0 <= c < BoardSize ==>
          if c < col && old(board[r, c]) == Empty then InPalette(board[r, c], GemTypes) else board[r, c] == old(board[r, c])
      {
        var row := 0;
        while row < BoardSize
          invariant 0 <= row <= BoardSize
          invariant forall r, c :: 0 <= r < BoardSize && 0 <= c < BoardSize ==>
            if (c < col || (c == col && r < row)) && old(board[r, c]) == Empty then InPalette(board[r, c], GemTypes)
            else board[r, c] == old(board[r, c])
        {
          if board[row, col] == Empty {
            board[row, col] := rng.Draw(GemTypes);
          }
          row := row + 1;
        }
        col := col + 1;
      }
    }

    /**
     * Gravity on every column, then a refill: afterwards each column holds its
     * survivors packed at the bottom in their old order under fresh kinds, and
     * no cell is vacated.
     */
    method FillBoard()
      requires board.Length0 == BoardSize && board.Length1 == BoardSize
      requires PaletteOrEmpty(Grid(), GemTypes)
      modifies board, rng
      ensures forall c :: 0 <= c < BoardSize ==>
        RefilledFrom(ColumnOf(old(Grid()), c), ColumnOf(Grid(), c), GemTypes)
      ensures ArrayInPalette(board, GemTypes)
    {
      ghost var g0 := Grid();
      var col := 0;
      while col < BoardSize
        invariant 0 <= col <= BoardSize
        invariant forall r, c :: 0 <= r < BoardSize && 0 <= c < col ==> board[r, c] == Compacted(ColumnOf(g0, c))[r]
        invariant forall r, c :: 0 <= r < BoardSize && col <= c < BoardSize ==> board[r, c] == g0[r][c]
      {
        assert ColumnOf(Grid(), col) == ColumnOf(g0, col);
        CompactColumn(col);
        col := col + 1;
      }
      ghost var g1 := Grid();
      Refill();
      forall c | 0 <= c < BoardSize
        ensures RefilledFrom(ColumnOf(g0, c), ColumnOf(Grid(), c), GemTypes)
        ensures forall r :: 0 <= r < BoardSize ==> InPalette(board[r, c], GemTypes)
      {
        RefillColumn(ColumnOf(g0, c), ColumnOf(Grid(), c), GemTypes);
      }
    }

    /**
     * One round of a cascade: the matched cells score 50 points each and are
     * vacated, the board falls and refills, and is scanned again.
     */
    method CascadeStep(matches: set<Cell>) returns (next: set<Cell>)
      requires Valid()
      requires forall p :: p in matches ==> 0 <= p.0 < BoardSize && 0 <= p.1 < BoardSize
      modifies board, this`score, rng
      ensures Valid()
      ensures score == old(score) + PointsPerGem * |matches|
      ensures Refilled(old(Grid()), matches, Grid(), GemTypes)
      ensures next == MatchCells(Grid())
    {
      score := score + PointsPerGem * |matches|;
      ClearedPaletteOrEmpty(board, matches, GemTypes);
      Vacate(board, matches);
      FillBoard();
      next := FindMatches();
    }

    /**
     * A cascade: one round of removal, fall and refill, then the cascade
     * again on the re-scan's matches when there are any.  `fuel` bounds the
     * depth of that recursion; `rounds`
     * lists the match set removed in each round and `boards` the board
     * before each round and after the last.  The cascade ends
     * (`isProcessing` cleared) exactly when a re-scan finds no match.
     */
    method ProcessMatches(matches: set<Cell>, fuel: nat) returns (rounds: seq<set<Cell>>, ghost boards: seq<Board>)
      requires Valid() && isProcessing
      requires matches == MatchCells(Grid()) && matches != {}
      modifies board, this`score, this`isProcessing, rng
      ensures Valid()
      ensures |rounds| >= 1 && rounds[0] == matches
      ensures forall i :: 0 <= i < |rounds| ==> rounds[i] != {}
      ensures CascadeFrom(boards, rounds, old(Grid()), Grid(), GemTypes)
      ensures score == old(score) + PointsPerGem * Removed(rounds)
      ensures isProcessing <==> MatchCells(Grid()) != {}
      ensures isProcessing ==> |rounds| == fuel + 1
      decreases fuel
    {
      WindowCellsInBounds(Grid(), true);
      ghost var start := Grid();
      var next := CascadeStep(matches);
      if next != {} && fuel > 0 {
        var rest;
        ghost var later;
        rest, later := ProcessMatches(next, fuel - 1);
        rounds, boards := [matches] + rest, [start] + later;
        CascadeCons(start, later[0], later, rest, Grid(), GemTypes, boards, rounds);
      } else {
        rounds, boards := [matches], [start, Grid()];
        CascadeSingle(start, Grid(), GemTypes, boards, rounds);
        if next == {} {
          isProcessing := false;
        }
      }
    }

    /** Exchanges two gems; the board stays full. */
    method SwapCells(p: Cell, q: Cell)
      requires Valid() && InBounds(Grid(), p) && InBounds(Grid(), q)
      modifies board
      ensures Valid() && Grid() == Swapped(old(Grid()), p, q)
    {
      Exchange(board, p, q);
    }

    /**
     * A trial swap of two cells: the cells are exchanged and the move is
     * processing until `SettleSwap` keeps it, at the cost of one move and
     * followed by a cascade, when the swapped board has a match, or undoes it
     * otherwise.
     */
    method SwapGems(p: Cell, q: Cell, fuel: nat) returns (accepted: bool, rounds: seq<set<Cell>>, ghost boards: seq<Board>)
      requires Valid() && InBounds(Grid(), p) && InBounds(Grid(), q)
      modifies board, this`score, this`moves, this`isProcessing, rng
      ensures Valid()
      ensures accepted <==> MatchCells(Swapped(old(Grid()), p, q)) != {}
      ensures !accepted ==> Grid() == old(Grid()) && moves == old(moves) && rounds == [] && !isProcessing
      ensures accepted ==> moves == old(moves) - 1 && |rounds| >= 1 && rounds[0] == MatchCells(Swapped(old(Grid()), p, q))
      ensures accepted ==> CascadeFrom(boards, rounds, Swapped(old(Grid()), p, q), Grid(), GemTypes)
      ensures score == old(score) + PointsPerGem * Removed(rounds)
      ensures accepted ==> (isProcessing <==> MatchCells(Grid()) != {}) && (isProcessing ==> |rounds| == fuel + 1)
    {
      ghost var start := Grid();
      isProcessing := true;
      SwapCells(p, q);
      accepted, rounds, boards := SettleSwap(p, q, fuel);
      if !accepted {
        SwapTwice(start, p, q);
      }
    }

    /**
     * The delayed half of a swap, run on the swapped board: a match costs
     * one move and starts the cascade; no match swaps the two cells back and
     * ends the processing.
     */
    method SettleSwap(p: Cell, q: Cell, fuel: nat) returns (accepted: bool, rounds: seq<set<Cell>>, ghost boards: seq<Board>)
      requires Valid() && isProcessing && InBounds(Grid(), p) && InBounds(Grid(), q)
      modifies board, this`score, this`moves, this`isProcessing, rng
      ensures Valid()
      ensures accepted <==> MatchCells(old(Grid())) != {}
      ensures !accepted ==> Grid() == Swapped(old(Grid()), p, q) && moves == old(moves) && rounds == [] && !isProcessing
      ensures accepted ==> moves == old(moves) - 1 && |rounds| >= 1 && rounds[0] == MatchCells(old(Grid()))
      ensures accepted ==> CascadeFrom(boards, rounds, old(Grid()), Grid(), GemTypes)
      ensures score == old(score) + PointsPerGem * Removed(rounds)
      ensures accepted ==> (isProcessing <==> MatchCells(Grid()) != {}) && (isProcessing ==> |rounds| == fuel + 1)
    {
      var matches := FindMatches();
      if matches != {} {
        accepted := true;
        moves := moves - 1;
        rounds, boards := ProcessMatches(matches, fuel);
      } else {
        accepted := false;
        SwapCells(p, q);
        isProcessing := false;
        rounds := [];
        boards := [];
      }
    }

    /** The bomb: vacates the 3 x 3 square around (row, col), clipped to the board. */
    method Blast(row: int, col: int)
      requires board.Length0 == BoardSize && board.Length1 == BoardSize
      modifies board
      ensures Grid() == Cleared(old(Grid()), Neighbourhood(row, col))
    {
      ghost var before := Grid();
      var r := Max(0, row - 1);
      while r <= Min(BoardSize - 1, row + 1)
        invariant Max(0, row - 1) <= r <= Max(Max(0, row - 1), Min(BoardSize - 1, row + 1) + 1)
        invariant forall x, y :: 0 <= x < BoardSize && 0 <= y < BoardSize ==>
          board[x, y] == if (x, y) in Neighbourhood(row, col) && x < r then Empty else before[x][y]
      {
        BlastRow(r, row, col);
        r := r + 1;
      }
      ClearedArray(board, before, Neighbourhood(row, col));
    }

    /** One row of the bomb's square. */
    method BlastRow(r: int, row: int, col: int)
      requires board.Length0 == BoardSize && board.Length1 == BoardSize
      requires 0 <= r < BoardSize && Abs(r - row) <= 1
      modifies board
      ensures forall x, y :: 0 <= x < BoardSize && 0 <= y < BoardSize ==>
        board[x, y] == if x == r && (x, y) in Neighbourhood(row, col) then Empty else old(board[x, y])
    {
      var c := Max(0, col - 1);
      while c <= Min(BoardSize - 1, col + 1)
        invariant Max(0, col - 1) <= c <= Max(Max(0, col - 1), Min(BoardSize - 1, col + 1) + 1)
        invariant forall x, y :: 0 <= x < BoardSize && 0 <= y < BoardSize ==>
          board[x, y] == if x == r && (x, y) in Neighbourhood(row, col) && y < c then Empty else old(board[x, y])
      {
        board[r, c] := Empty;
        c := c + 1;
      }
    }

    /** The hammer: vacates one cell, then the board falls and refills. */
    method HammerAt(row: int, col: int)
      requires Valid() && 0 <= row < BoardSize && 0 <= col < BoardSize
      modifies board, rng
      ensures Valid()
      ensures Refilled(old(Grid()), {(row, col)}, Grid(), GemTypes)
    {
      ClearedPaletteOrEmpty(board, {(row, col)}, GemTypes);
      board[row, col] := Empty;
      BoardExt(Grid(), Cleared(old(Grid()), {(row, col)}));
      FillBoard();
    }

    /** The bomb: vacates the square around one cell, then the board falls and refills. */
    method BombAt(row: int, col: int)
      requires Valid()
      modifies board, rng
      ensures Valid()
      ensures Refilled(old(Grid()), Neighbourhood(row, col), Grid(), GemTypes)
    {
      ClearedPaletteOrEmpty(board, Neighbourhood(row, col), GemTypes);
      Blast(row, col);
      FillBoard();
    }

    /**
     * Applies the armed item at (row, col) and disarms it, spending one of
     * it: the hammer vacates the cell, the bomb its 3 x 3 square, and the
     * board then falls and refills without a re-scan; the shuffle deals a
     * fresh board.  Nothing happens when no item is armed.
     */
    method UseItemOnGem(row: int, col: int)
      requires Valid() && 0 <= row < BoardSize && 0 <= col < BoardSize
      modifies this`board, board, this`items, this`activeItem, rng
      ensures Valid()
      ensures old(activeItem) == None ==> board == old(board) && unchanged(board) && items == old(items) && activeItem == None
      ensures old(activeItem).Some? ==>
        var t := old(activeItem).value;
        items == old(items)[t := old(items)[t] - 1] && activeItem == None
      ensures old(activeItem) == Some(Hammer) ==> board == old(board) && Refilled(old(Grid()), {(row, col)}, Grid(), GemTypes)
      ensures old(activeItem) == Some(Bomb) ==> board == old(board) && Refilled(old(Grid()), Neighbourhood(row, col), Grid(), GemTypes)
      ensures old(activeItem) == Some(Shuffle) ==> fresh(board)
    {
      if activeItem.None? {
        return;
      }
      var itemType := activeItem.value;
      Spend(itemType);
      if itemType == Hammer {
        HammerAt(row, col);
      } else if itemType == Bomb {
        BombAt(row, col);
      } else {
        var settled;
        board, settled := CreateBoard();
      }
      Disarm();
    }

    /** One item of kind t is used up. */
    method Spend(t: Item)
      requires Valid()
      modifies this`items
      ensures Valid() && items == old(items)[t := old(items)[t] - 1]
    {
      items := items[t := items[t] - 1];
    }

    /** No item is armed any more. */
    method Disarm()
      requires Valid()
      modifies this`activeItem
      ensures Valid() && activeItem == None
    {
      activeItem := None;
    }

    /**
     * The item bar: arms an item, or disarms it when it is already armed; an
     * item with no count left cannot be armed.
     */
    method UseItem(itemType: Item)
      requires Valid()
      modifies this`activeItem
      ensures Valid()
      ensures old(items[itemType]) <= 0 ==> activeItem == old(activeItem)
      ensures items[itemType] > 0 && old(activeItem) == Some(itemType) ==> activeItem == None
      ensures items[itemType] > 0 && old(activeItem) != Some(itemType) ==> activeItem == Some(itemType)
    {
      if items[itemType] <= 0 {
        return;
      }
      if activeItem == Some(itemType) {
        activeItem := None;
      } else {
        activeItem := Some(itemType);
      }
    }

    /**
     * A tap on cell (row, col): ignored while a move is being processed or
     * off the board; with an item armed the item is applied there; otherwise
     * the first tap selects the cell and the second swaps it with the
     * selection when the two are adjacent and clears the selection in any case.
     */
    method HandleGemClick(row: int, col: int, fuel: nat) returns (ghost rounds: seq<set<Cell>>, ghost boards: seq<Board>)
      requires Valid()
      modifies this, board, rng
      ensures Valid()
      ensures old(isProcessing) || !(0 <= row < BoardSize && 0 <= col < BoardSize) ==>
        board == old(board) && unchanged(board) && selected == old(selected) && moves == old(moves) &&
        score == old(score) && items == old(items) && activeItem == old(activeItem) && isProcessing == old(isProcessing)
      ensures !old(isProcessing) && 0 <= row < BoardSize && 0 <= col < BoardSize && old(activeItem).Some? ==>
        var t := old(activeItem).value;
        items == old(items)[t := old(items)[t] - 1] && activeItem == None && isProcessing == old(isProcessing) &&
        selected == old(selected) && moves == old(moves) && score == old(score) &&
        (t == Hammer ==> board == old(board) && Refilled(old(Grid()), {(row, col)}, Grid(), GemTypes)) &&
        (t == Bomb ==> board == old(board) && Refilled(old(Grid()), Neighbourhood(row, col), Grid(), GemTypes)) &&
        (t == Shuffle ==> fresh(board))
      ensures !old(isProcessing) && 0 <= row < BoardSize && 0 <= col < BoardSize && old(activeItem) == None ==>
        board == old(board) && items == old(items) && activeItem == None &&
        (old(selected) == None ==>
          selected == Some((row, col)) && unchanged(board) && moves == old(moves) && score == old(score) &&
          isProcessing == old(isProcessing)) &&
        (old(selected).Some? ==> selected == None) &&
        (old(selected).Some? && !Adjacent(old(selected).value, (row, col)) ==>
          unchanged(board) && moves == old(moves) && score == old(score) && isProcessing == old(isProcessing)) &&
        (old(selected).Some? && Adjacent(old(selected).value, (row, col)) ==>
          var swapped := Swapped(old(Grid()), old(selected).value, (row, col));
          if MatchCells(swapped) == {} then
            Grid() == old(Grid()) && moves == old(moves) && score == old(score) && !isProcessing
          else
            moves == old(moves) - 1 && |rounds| >= 1 && CascadeFrom(boards, rounds, swapped, Grid(), GemTypes) &&
            score == old(score) + PointsPerGem * Removed(rounds) &&
            (isProcessing <==> MatchCells(Grid()) != {}) && (isProcessing ==> |rounds| == fuel + 1))
    {
      rounds, boards := [], [];
      if isProcessing {
        return;
      }
      if row < 0 || row >= BoardSize || col < 0 || col >= BoardSize {
        return;
      }
      if activeItem.Some? {
        UseItemOnGem(row, col);
        return;
      }
      if selected.None? {
        selected := Some((row, col));
      } else {
        rounds, boards := TapSelected(row, col, fuel);
      }
    }

    /**
     * A tap while a gem is selected: an adjacent cell is swapped with the
     * selected one, and the selection is cleared either way.
     */
    method TapSelected(row: int, col: int, fuel: nat) returns (ghost rounds: seq<set<Cell>>, ghost boards: seq<Board>)
      requires Valid() && selected.Some? && 0 <= row < BoardSize && 0 <= col < BoardSize
      modifies board, this`selected, this`score, this`moves, this`isProcessing, rng
      ensures Valid() && selected == None
      ensures !Adjacent(old(selected).value, (row, col)) ==>
        unchanged(board) && moves == old(moves) && score == old(score) && isProcessing == old(isProcessing)
      ensures Adjacent(old(selected).value, (row, col)) ==>
        var swapped := Swapped(old(Grid()), old(selected).value, (row, col));
        if MatchCells(swapped) == {} then
          Grid() == old(Grid()) && moves == old(moves) && score == old(score) && !isProcessing
        else
          moves == old(moves) - 1 && |rounds| >= 1 && CascadeFrom(boards, rounds, swapped, Grid(), GemTypes) &&
          score == old(score) + PointsPerGem * Removed(rounds) &&
          (isProcessing <==> MatchCells(Grid()) != {}) && (isProcessing ==> |rounds| == fuel + 1)
    {
      rounds, boards := [], [];
      if Adjacent(selected.value, (row, col)) {
        var accepted;
        accepted, rounds, boards := SwapGems(selected.value, (row, col), fuel);
      }
      selected := None;
    }
  }
}

=== FILE: pieces.dfy ===
/**
 * The boards of the two Cocos copies hold gem objects, each of which records
 * its own grid position (`setPosition`/`getPosition` in the 2D copy,
 * `setGridPosition`/`getGridPosition` in the 3D one).  A gem is modelled as
 * the value it carries, its kind and its recorded position, and a cell as a
 * slot that is vacated (`null`) or holds a gem.  Object identity is not
 * modelled: on a board where every gem records its own cell, a gem and its
 * cell determine each other.
 */
module Pieces {
  import opened Boards
  import opened Gravity

  datatype Piece = Piece(kind: int, row: int, col: int)

  datatype Slot = Vacant | Filled(gem: Piece)

  /** The kind a slot shows to match detection; a vacated slot shows `Empty`. */
  function KindOf(s: Slot): int {
    if s.Vacant? then Empty else s.gem.kind
  }

  /** The kinds of a board of slots, as a board snapshot. */
  function Kinds(a: array2<Slot>): (g: Board)
    reads a
    ensures |g| == a.Length0 && Rect(g)
    ensures a.Length0 > 0 ==> Width(g) == a.Length1
    ensures forall r, c {:trigger g[r][c]} :: 0 <= r < a.Length0 && 0 <= c < a.Length1 ==> g[r][c] == KindOf(a[r, c])
  {
    seq(a.Length0, r requires 0 <= r < a.Length0 reads a =>
      seq(a.Length1, c requires 0 <= c < a.Length1 reads a => KindOf(a[r, c])))
  }

  /** A gem in a slot at cell p records p as its position and has a real kind. */
  predicate PlacedAt(s: Slot, p: Cell) {
    s.Filled? ==> s.gem.row == p.0 && s.gem.col == p.1 && s.gem.kind != Empty
  }

  /** Every gem on the board records the cell it sits in. */
  ghost predicate Placed(a: array2<Slot>)
    reads a
  {
    forall r, c :: 0 <= r < a.Length0 && 0 <= c < a.Length1 ==> PlacedAt(a[r, c], (r, c))
  }

  /** Every cell holds a gem. */
  ghost predicate Stocked(a: array2<Slot>)
    reads a
  {
    forall r, c :: 0 <= r < a.Length0 && 0 <= c < a.Length1 ==> a[r, c].Filled?
  }

  /** The slot after its gem, if any, is told its new position p. */
  function MovedTo(s: Slot, p: Cell): (t: Slot)
    ensures KindOf(t) == KindOf(s) && t.Filled? == s.Filled?
    ensures KindOf(s) != Empty ==> PlacedAt(t, p)
  {
    if s.Vacant? then Vacant else Filled(s.gem.(row := p.0, col := p.1))
  }

  /** Telling a placed gem the position it already has changes nothing. */
  lemma MovedToOwnCell(s: Slot, p: Cell)
    requires PlacedAt(s, p)
    ensures MovedTo(s, p) == s
  {
  }

  /** Moving a gem away and back restores it. */
  lemma MovedBack(s: Slot, p: Cell, q: Cell)
    requires PlacedAt(s, p)
    ensures MovedTo(MovedTo(s, q), p) == s
  {
  }

  /**
   * Exchanges the gems of two cells and tells each gem its new position: the
   * data part of both Cocos copies' swap.
   */
  method SwapPieces(a: array2<Slot>, p: Cell, q: Cell)
    requires 0 <= p.0 < a.Length0 && 0 <= p.1 < a.Length1
    requires 0 <= q.0 < a.Length0 && 0 <= q.1 < a.Length1
    requires Placed(a) && p != q
    modifies a
    ensures a[p.0, p.1] == MovedTo(old(a[q.0, q.1]), p) && a[q.0, q.1] == MovedTo(old(a[p.0, p.1]), q)
    ensures forall r, c :: 0 <= r < a.Length0 && 0 <= c < a.Length1 && (r, c) != p && (r, c) != q ==>
      a[r, c] == old(a[r, c])
    ensures Placed(a) && (old(Stocked(a)) ==> Stocked(a))
    ensures Kinds(a) == Swapped(old(Kinds(a)), p, q)
  {
    var gem1, gem2 := a[p.0, p.1], a[q.0, q.1];
    a[p.0, p.1] := MovedTo(gem2, p);
    a[q.0, q.1] := MovedTo(gem1, q);
    BoardExt(Kinds(a), Swapped(old(Kinds(a)), p, q));
  }


  /** The gem at `row` of column col, if any, falls v rows and is told its new row. */
  method Fall(a: array2<Slot>, col: int, row: int, v: nat)
    requires 0 <= col < a.Length1 && 0 <= row && row + v < a.Length0 && Placed(a)
    modifies a
    ensures Placed(a)
    ensures KindsColumn(a, col) == Fallen(old(KindsColumn(a, col)), row, v)
    ensures forall r, c :: 0 <= r < a.Length0 && 0 <= c < a.Length1 && c != col ==> a[r, c] == old(a[r, c])
  {
    if a[row, col].Filled? && v > 0 {
      var gem := a[row, col];
      a[row, col] := Vacant;
      a[row + v, col] := MovedTo(gem, (row + v, col));
    }
    assert KindsColumn(a, col) == Fallen(old(KindsColumn(a, col)), row, v);
  }

  /**
   * The gem at `r` of column col moves into the cell at `row` below it and is
   * told its new row; its old cell is left empty.
   */
  method Pull(a: array2<Slot>, col: int, r: int, row: int)
    requires 0 <= col < a.Length1 && 0 <= r < row < a.Length0 && Placed(a)
    modifies a
    ensures Placed(a)
    ensures KindsColumn(a, col) == old(KindsColumn(a, col))[row := old(KindsColumn(a, col))[r]][r := Empty]
    ensures forall i, c :: 0 <= i < a.Length0 && 0 <= c < a.Length1 && c != col ==> a[i, c] == old(a[i, c])
  {
    a[row, col] := a[r, col];
    a[r, col] := Vacant;
    a[row, col] := MovedTo(a[row, col], (row, col));
    assert KindsColumn(a, col) == old(KindsColumn(a, col))[row := old(KindsColumn(a, col))[r]][r := Empty];
  }

  /**
   * Gravity on column col, bottom-up: a vacated cell takes the nearest gem
   * above it, and that gem is told its new row.
   */
  method PullDownSlots(a: array2<Slot>, col: int)
    requires 0 <= col < a.Length1 && Placed(a)
    modifies a
    ensures Placed(a)
    ensures KindsColumn(a, col) == Compacted(old(KindsColumn(a, col)))
    ensures forall i, c :: 0 <= i < a.Length0 && 0 <= c < a.Length1 && c != col ==> a[i, c] == old(a[i, c])
  {
    ghost var s := KindsColumn(a, col);
    var row := a.Length0 - 1;
    while row >= 0
      invariant -1 <= row < a.Length0 && Placed(a)
      invariant SettledBelow(KindsColumn(a, col), row) && Kept(KindsColumn(a, col)) == Kept(s)
      invariant forall i, c :: 0 <= i < a.Length0 && 0 <= c < a.Length1 && c != col ==> a[i, c] == old(a[i, c])
      decreases row
    {
      if a[row, col].Vacant? {
        ghost var cur := KindsColumn(a, col);
        ghost var pulled := false;
        var r := row - 1;
        while r >= 0
          invariant -1 <= r < row && KindsColumn(a, col) == cur && !pulled
          invariant forall k :: r < k < row ==> cur[k] == Empty
          decreases r
        {
          if a[r, col].Filled? {
            assert PlacedAt(a[r, col], (r, col));
            SettlePulled(cur, r, row);
            Pull(a, col, r, row);
            pulled := true;
            break;
          }
          r := r - 1;
        }
        if !pulled {
          SettleVacancy(cur, row);
        }
      } else {
        assert PlacedAt(a[row, col], (row, col));
        SettleSurvivor(KindsColumn(a, col), row);
      }
      row := row - 1;
    }
    SettledIsCompacted(KindsColumn(a, col), s);
  }

  /** Empties every cell of m (the gems there are destroyed). */
  method VacateSlots(a: array2<Slot>, m: set<Cell>)
    requires forall p :: p in m ==> 0 <= p.0 < a.Length0 && 0 <= p.1 < a.Length1
    requires Placed(a)
    modifies a
    ensures forall r, c :: 0 <= r < a.Length0 && 0 <= c < a.Length1 ==>
      a[r, c] == if (r, c) in m then Vacant else old(a[r, c])
    ensures Placed(a)
    ensures Kinds(a) == Cleared(old(Kinds(a)), m)
  {
    var rest := m;
    while rest != {}
      invariant rest <= m && Placed(a)
      invariant forall r, c :: 0 <= r < a.Length0 && 0 <= c < a.Length1 ==>
        a[r, c] == if (r, c) in m - rest then Vacant else old(a[r, c])
      decreases rest
    {
      var p :| p in rest;
      a[p.0, p.1] := Vacant;
      rest := rest - {p};
    }
    ClearedSlots(a, old(Kinds(a)), m);
  }

  /**
   * Gravity on column col: scanning bottom-up with the `emptyRow` pointer to
   * the lowest cell not yet filled, every gem moves down to it and is told its
   * new row.  Returns the pointer, the last row left free.
   */
  method CompactSlots(a: array2<Slot>, col: int) returns (emptyRow: int)
    requires 0 <= col < a.Length1 && Placed(a)
    modifies a
    ensures Placed(a)
    ensures emptyRow == Vacated(old(KindsColumn(a, col))) - 1
    ensures forall r :: 0 <= r < a.Length0 ==> KindOf(a[r, col]) == Compacted(old(KindsColumn(a, col)))[r]
    ensures forall r, c :: 0 <= r < a.Length0 && 0 <= c < a.Length1 && c != col ==> a[r, c] == old(a[r, c])
  {
    ghost var s := KindsColumn(a, col);
    emptyRow := a.Length0 - 1;
    var row := a.Length0 - 1;
    while row >= 0
      invariant -1 <= row < a.Length0 && emptyRow == row + Vacated(s[row + 1..])
      invariant CompactedBelow(s, KindsColumn(a, col), row) && Placed(a)
      invariant forall r, c :: 0 <= r < a.Length0 && 0 <= c < a.Length1 && c != col ==> a[r, c] == old(a[r, c])
    {
      CounterStep(s, KindsColumn(a, col), row);
      var filled := a[row, col].Filled?;
      assert filled <==> s[row] != Empty by {
        assert PlacedAt(a[row, col], (row, col));
      }
      Fall(a, col, row, emptyRow - row);
      if filled {
        emptyRow := emptyRow - 1;
      }
      row := row - 1;
    }
    assert s[0..] == s && KindsColumn(a, col)[0..] == KindsColumn(a, col);
  }

  /** A board of slots whose kinds are those of `before` with the cells of m emptied is `Cleared(before, m)`. */
  lemma ClearedSlots(a: array2<Slot>, before: Board, m: set<Cell>)
    requires |before| == a.Length0 && Rect(before) && (a.Length0 > 0 ==> Width(before) == a.Length1)
    requires forall x, y :: 0 <= x < a.Length0 && 0 <= y < a.Length1 ==>
      KindOf(a[x, y]) == if (x, y) in m then Empty else before[x][y]
    ensures Kinds(a) == Cleared(before, m)
  {
    BoardExt(Kinds(a), Cleared(before, m));
  }

  /** The kinds of column c, top to bottom. */
  function KindsColumn(a: array2<Slot>, c: int): (s: seq<int>)
    reads a
    requires 0 <= c < a.Length1
    ensures |s| == a.Length0 && forall r :: 0 <= r < a.Length0 ==> s[r] == KindOf(a[r, c])
  {
    seq(a.Length0, r requires 0 <= r < a.Length0 reads a => KindOf(a[r, c]))
  }

  /** The kinds of every column. */
  ghost function Columns(a: array2<Slot>): (cs: seq<seq<int>>)
    reads a
    ensures |cs| == a.Length1 && forall c :: 0 <= c < a.Length1 ==> cs[c] == KindsColumn(a, c)
  {
    seq(a.Length1, c requires 0 <= c < a.Length1 reads a => KindsColumn(a, c))
  }

  /** Column c of the board of kinds is the kinds of column c of the slots. */
  lemma ColumnsOfKinds(a: array2<Slot>)
    ensures forall c :: 0 <= c < Width(Kinds(a)) ==> ColumnOf(Kinds(a), c) == Columns(a)[c]
  {
    forall c | 0 <= c < Width(Kinds(a))
      ensures ColumnOf(Kinds(a), c) == Columns(a)[c]
    {
      assert |ColumnOf(Kinds(a), c)| == |KindsColumn(a, c)|;
    }
  }
}

=== FILE: repair.dfy ===
/**
 * The repair of a freshly dealt board shared by the two JavaScript copies:
 * the cells are visited row by row, and a cell that starts a horizontal, then
 * one that starts a vertical, window of three equal kinds is redrawn.  The
 * copies differ only in how many passes they allow.
 */
module Repair {
  import opened Boards
  import opened Matching

  /** Cell (r, c) starts a window of three equal kinds, across or down. */
  predicate StartsWindow(g: Board, r: int, c: int)
    requires Rect(g)
  {
    HSame(g, r, c) || VSame(g, r, c)
  }

  /**
   * One repair pass over `a`, drawing replacement kinds of a palette of n.
   * The pass reports a redraw iff the board it started from had a window of
   * three equal kinds, and the only cells it redraws are cells that start
   * such a window on that board.
   */
  method RepairPass(a: array2<int>, rng: Random, n: nat) returns (hasMatches: bool)
    requires ArrayInPalette(a, n)
    modifies a, rng
    ensures ArrayInPalette(a, n)
    ensures hasMatches <==> !NoWindow(old(Cells(a)), false)
    ensures !hasMatches ==> unchanged(a) && NoWindow(Cells(a), false)
    ensures forall r, c :: 0 <= r < a.Length0 && 0 <= c < a.Length1 ==>
      a[r, c] == old(a[r, c]) || StartsWindow(old(Cells(a)), r, c)
  {
    ghost var start := Cells(a);
    hasMatches := false;
    var row := 0;
    while row < a.Length0
      invariant 0 <= row <= a.Length0
      invariant ArrayInPalette(a, n)
      invariant !hasMatches ==> unchanged(a)
      invariant hasMatches <==> exists r, c :: 0 <= r < row && 0 <= c < a.Length1 && StartsWindow(start, r, c)
      invariant forall r, c :: 0 <= r < a.Length0 && 0 <= c < a.Length1 ==>
        a[r, c] == start[r][c] || (r < row && StartsWindow(start, r, c))
    {
      ghost var before := Cells(a);
      SameBelow(before, start, row);
      var redrawn := RepairRow(a, rng, n, row);
      hasMatches := hasMatches || redrawn;
      row := row + 1;
    }
    WindowStarts(start);
    if !hasMatches {
      assert Cells(a) == start;
    }
  }

  /**
   * The inner loop of a repair pass, over the cells of one row: it reports a
   * redraw iff some cell of the row starts a window on the board it started
   * from, and it redraws only such cells.
   */
  method RepairRow(a: array2<int>, rng: Random, n: nat, row: int) returns (redrawn: bool)
    requires 0 <= row < a.Length0 && ArrayInPalette(a, n)
    modifies a, rng
    ensures ArrayInPalette(a, n)
    ensures redrawn <==> exists c :: 0 <= c < a.Length1 && StartsWindow(old(Cells(a)), row, c)
    ensures !redrawn ==> unchanged(a)
    ensures forall r, c :: 0 <= r < a.Length0 && 0 <= c < a.Length1 ==>
      a[r, c] == old(a[r, c]) || (r == row && StartsWindow(old(Cells(a)), r, c))
  {
    ghost var start := Cells(a);
    redrawn := false;
    var col := 0;
    while col < a.Length1
      invariant 0 <= col <= a.Length1
      invariant ArrayInPalette(a, n)
      invariant !redrawn ==> unchanged(a)
      invariant redrawn <==> exists c :: 0 <= c < col && StartsWindow(start, row, c)
      invariant forall r, c :: 0 <= r < a.Length0 && 0 <= c < a.Length1 ==>
        a[r, c] == start[r][c] || (r == row && c < col && StartsWindow(start, r, c))
    {
      ghost var fired := false;
      if col < a.Length1 - 2 {
        if a[row, col] == a[row, col + 1] && a[row, col] == a[row, col + 2] {
          assert HSame(start, row, col);
          a[row, col] := rng.Draw(n);
          redrawn, fired := true, true;
        }
      }
      if row < a.Length0 - 2 {
        if a[row, col] == a[row + 1, col] && a[row, col] == a[row + 2, col] {
          assert fired || VSame(start, row, col);
          a[row, col] := rng.Draw(n);
          redrawn, fired := true, true;
        }
      }
      assert fired <==> StartsWindow(start, row, col);
      col := col + 1;
    }
  }

  /** Two boards that agree from row `row` down have the same window starts in that row. */
  lemma SameBelow(g: Board, h: Board, row: int)
    requires Rect(g) && Rect(h) && |g| == |h| && 0 <= row < |g| && Width(g) == Width(h)
    requires forall r, c :: row <= r < |g| && 0 <= c < Width(g) ==> g[r][c] == h[r][c]
    ensures forall c :: StartsWindow(g, row, c) <==> StartsWindow(h, row, c)
  {
  }

  /** A board has a window of three equal kinds iff some cell starts one. */
  lemma WindowStarts(g: Board)
    requires Rect(g)
    ensures !NoWindow(g, false) <==> exists r, c :: 0 <= r < |g| && 0 <= c < Width(g) && StartsWindow(g, r, c)
  {
    if !NoWindow(g, false) {
      var r, c :| 0 <= r < |g| && 0 <= c < Width(g) && (HWin(g, r, c, false) || VWin(g, r, c, false));
      assert StartsWindow(g, r, c);
    } else {
      forall r, c | 0 <= r < |g| && 0 <= c < Width(g)
        ensures !StartsWindow(g, r, c)
      {
        assert !HWin(g, r, c, false) && !VWin(g, r, c, false);
      }
    }
  }

  /**
   * With a palette that can only produce one kind, every board at least three
   * cells wide has a window of three equal kinds, so no repair pass ever
   * comes back clean.
   */
  lemma OneKindAlwaysWindow(g: Board, n: nat)
    requires Rect(g) && AllInPalette(g, n) && PaletteBound(n) == 1
    requires |g| >= 1 && Width(g) >= 3
    ensures !NoWindow(g, false)
  {
    assert g[0][0] == 0 && g[0][1] == 0 && g[0][2] == 0;
    assert HWin(g, 0, 0, false);
  }

  /** A repair pass over a one-kind palette always reports a redraw. */
  lemma OneKindNeverSettles(a: array2<int>, n: nat)
    requires ArrayInPalette(a, n) && PaletteBound(n) == 1
    requires a.Length0 >= 1 && a.Length1 >= 3
    ensures !NoWindow(Cells(a), false)
  {
    var g := Cells(a);
    forall r, c | 0 <= r < |g| && 0 <= c < Width(g)
      ensures InPalette(g[r][c], n)
    {
      assert g[r][c] == a[r, c];
    }
    OneKindAlwaysWindow(g, n);
  }
}
